=== FILE: README.md ===
# Drawings, modelled in Dafny

This project models the core of **Drawings**, a small Java program that renders a
picture from a text instruction file onto a Swing panel. The first line of the file
is a *canvas record* (size, and either a solid background colour or a two-colour
gradient in one of four directions). Every later line is a *draw record*, which
names a polygon template from a *shape library* and says how to scale, place,
repeat, rotate, colour and fill it. Records are comma-separated `key=value`
fields.

The model follows the Java code's structure, one module per class:

| module | models |
|---|---|
| `Points` | `Point` (exact reals instead of doubles) |
| `Shapes` | `Shape`: a non-empty name and a list of points |
| `ShapeLibrary` | the shape list and its lookups |
| `Utility` | `rgbRangeLimit` and the six built-in templates |
| `CanvasInstructions` | the canvas record: private constructor, defaults, `readFromFile`, `validateOrDefault` |
| `DrawInstructions` | the draw record: constructor, defaults, `readFromFile`, `validateOrDefault` |
| `InstructionRecords` | the parsing loop both readers share (split on `,`, then `=`, trim, lower-case, `switch`) |
| `Drawings` | the `Drawing` constructor, `draw`, `drawFigure`, `repeat`, `rotate` |
| `Gradients` | `Drawing.gradient`, the background painter |
| `Graphics` | the panel and `Graphics` calls as an event trace; rotation of a polygon |
| `InstructGui` | `colorToRgb`, and the proof that its output reads back through both record readers |

Four small helper modules give the Java library behaviour the code relies on:

- `Wrappers`: `Option`, `Result`, and the exceptions the code can throw.
- `JavaInt`: 32-bit `int` with wrap-around, truncating division, and the `(int)` cast of a real.
- `JavaString`: `trim`, ASCII `toLowerCase`, `String.split` (trailing empty strings dropped), `Integer.parseInt` and decimal printing.
- `JavaScanner`: `nextLine` and `hasNext` over the unread rest of the file.

Exceptions become `Fail` results:

- a missing `=` in a field is `ArrayIndexOutOfBoundsException`;
- a malformed number is `NumberFormatException`;
- reading past the end of the file is `NoSuchElementException`;
- an empty shape library is `IndexOutOfBoundsException`;
- null or empty arguments are `IllegalArgumentException`.

Rendering is a pure function from a `Drawing` and an environment `Env` to a trace of
`Graphics.Event`s (open panel, set colour, set background, fill or draw a polygon,
fill a rectangle). `Env` supplies `Math.cos`, `Math.sin` and the successive results
of `Math.random()`.

Where the program's documentation and its code disagree, the model follows the code:

- `getShapeByName` returns the first shape of the library when no name matches. It
  does not return null and does not fail. An empty library throws.
- The canvas `readFromFile` sets the gradient flag for any `grad…` key. It does not
  apply the constructor's equal-colour collapse, so `graddir=1` alone yields a
  white-to-white gradient (`GradientWithoutCollapse`).
- The draw `readFromFile` does not apply `validateOrDefault`, so a read `scale` or
  `rep` below 1 is kept (`SmallScaleKept`).
- The gradient loop bound starts at 100. It becomes 150 (direction 2) or 110
  (direction 3) only inside the first pass, so pass 0 always has ratio 0/100.
- Band edges are `extent*(i-1)/100`, divided toward zero. The first band starts at
  the panel's edge when the extent is below 100, and above or left of it from 100
  on (`FirstBandEdge`).

## Model

| member | source | states |
|---|---|---|
| Utility.RgbRangeLimit | src/drawings/Utility.java:208-210 | the result is within 0..255; an in-range value is kept, a negative one becomes 0, one above 255 becomes 255 |
| Utility.RgbRangeLimitLaws | src/drawings/Utility.java:208-210 | clamping is idempotent and monotone |
| Utility.LimitedColor | src/drawings/CanvasInstruction.java:216-219 | the colour built from three clamped channels is valid, and equals the given channels when they are in range |
| Utility.Square | src/drawings/Utility.java:51-58 | the square template has 4 points inside the 100 by 100 frame |
| Utility.Star | src/drawings/Utility.java:65-76 | the star template has 8 points inside the frame |
| Utility.Circle | src/drawings/Utility.java:83-111 | the circle template has 25 points inside the frame |
| Utility.Heart | src/drawings/Utility.java:118-148 | the heart template has 27 points inside the frame |
| Utility.Rhombus | src/drawings/Utility.java:155-162 | the rhombus template has 4 points inside the frame |
| Utility.Triangle | src/drawings/Utility.java:169-175 | the triangle template has 3 points inside the frame |
| Utility.CreateShapeList | src/drawings/Utility.java:32-39 | six templates, in the order square, star, circle, heart, rhombus, triangle, with their point counts; circle and heart repeat their first point last; every template lies in the frame and has a non-empty name |
| Utility.TemplatesBuilt | src/drawings/Utility.java:32-175 | each template is what `new Shape(name)` followed by its `addPoint` calls builds |
| Utility.TemplateNamesDistinct | src/drawings/Utility.java:32-175 | the six template names are pairwise different, so a lookup by a template's name finds that template |
| Points.SetX | src/drawings/Point.java:37-39 | x becomes the new value and y is unchanged |
| Points.SetY | src/drawings/Point.java:45-47 | y becomes the new value and x is unchanged |
| Points.SetPoint | src/drawings/Point.java:54-57 | both coordinates become the new values |
| Points.Equals | src/drawings/Point.java:119-131 | a point equals an object exactly when the object is a point with the same coordinates; never equal to null |
| Points.EqualsIsEquivalence | src/drawings/Point.java:119-131 | point equality is reflexive, symmetric and transitive |
| Points.MidPoint | src/drawings/Point.java:98-102 | the midpoint is equally far from both points in each coordinate |
| Points.MidPointLaws | src/drawings/Point.java:98-102 | the midpoint is symmetric in its arguments, and the midpoint of a point with itself is that point |
| Shapes.NewShape | src/drawings/Shape.java:23-29 | a shape is built exactly when the name is present and non-empty; it has that name and no points; otherwise `IllegalArgumentException` |
| Shapes.AddPoint | src/drawings/Shape.java:36-41 | a null point is `IllegalArgumentException`; otherwise the point is appended and the name and earlier points are kept |
| Shapes.GetPoint | src/drawings/Shape.java:48-60 | an index inside the point count returns that point; any other index is `IndexOutOfBoundsException` |
| Shapes.AddPointsAppends | src/drawings/Shape.java:36-41 | adding a list of points one by one appends the whole list |
| Shapes.BuiltShapeAnswers | src/drawings/Shape.java:23-69 | a shape built from a name and points reports that name, that count and each point at its index |
| ShapeLibrary.GetShapeCount | src/drawings/ShapeLibrary.java:34-36 | the count is the number of shapes held |
| ShapeLibrary.GetShape | src/drawings/ShapeLibrary.java:44-46 | an index inside the count returns that shape; any other index is `IndexOutOfBoundsException` |
| ShapeLibrary.GetShapeByName | src/drawings/ShapeLibrary.java:54-64 | the first shape with the name is returned; with no match the first shape of the library is returned; an empty library is `IndexOutOfBoundsException` |
| ShapeLibrary.FindShapeByName | src/drawings/ShapeLibrary.java:54-64 | the flag-controlled search loop computes the same answer as the first-match definition |
| ShapeLibrary.AddShape | src/drawings/ShapeLibrary.java:71-76 | a null shape is `IllegalArgumentException`; otherwise the shape is appended, the count grows by one and earlier shapes are kept |
| JavaInt.AtLeastOne | src/drawings/CanvasInstruction.java:257-260 | `Math.max(1, n)`: at least 1, and `n` itself when `n` is at least 1; the same bound lifts scale and repeats in src/drawings/DrawInstruction.java:263-266 |
| CanvasInstructions.ValidateOrDefault | src/drawings/CanvasInstruction.java:251-261 | width and height end up at least 1; a valid size is unchanged; no other field changes |
| CanvasInstructions.Create | src/drawings/CanvasInstruction.java:51-87 | the private constructor: gradient exactly when both colours are given and they differ; a lone start or end colour becomes the solid colour; equal colours collapse to solid; white when nothing is given; size lifted to at least 1 |
| CanvasInstructions.Default | src/drawings/CanvasInstruction.java:95-97 | 100 by 100, solid white, direction 0, not a gradient |
| CanvasInstructions.CreateStable | src/drawings/CanvasInstruction.java:51-87 | rebuilding an instruction from its own fields gives it back |
| CanvasInstructions.Finish | src/drawings/CanvasInstruction.java:215-241 | after the field loop: size lifted to at least 1; solid colour from the clamped channels; gradient exactly when a gradient key was read, then with clamped start and end colours; a direction outside 0..3 becomes 0 |
| CanvasInstructions.ReadFromFile | src/drawings/CanvasInstruction.java:173-243 | an exhausted file is `NoSuchElementException`; a read record is well-formed and consumes input |
| CanvasInstructions.ParseRecordSize | src/drawings/CanvasInstruction.java:192-193 | the width and height are the last values given for those keys, defaulting to 100, lifted to at least 1 |
| CanvasInstructions.ParseRecordSolid | src/drawings/CanvasInstruction.java:194-196 | the solid colour is the clamped last `red`, `green` and `blue` values, each defaulting to 255 |
| CanvasInstructions.ParseRecordGradient | src/drawings/CanvasInstruction.java:197-240 | gradient exactly when some `grad…` key appears; then the start and end colours are the clamped last values of their keys, defaulting to 255 |
| CanvasInstructions.ParseRecordDirection | src/drawings/CanvasInstruction.java:220-238 | the direction is always within 0..3; on a gradient record it is the last `graddir` value when that is in range, and it is 0 when that value is out of range or the record has no gradient |
| CanvasInstructions.KeySetting | src/drawings/CanvasInstruction.java:186-213 | after the loop, every numeric key holds the last value given for it in the line, or its default |
| CanvasInstructions.ParseRecordSucceeds | src/drawings/CanvasInstruction.java:186-212 | a line is read without exception exactly when every field has an `=` and every numeric key's value parses as an `int` |
| CanvasInstructions.UnknownKeyIgnored | src/drawings/CanvasInstruction.java:211 | a field with an unknown key leaves the result unchanged |
| CanvasInstructions.GradientWithoutCollapse | src/drawings/CanvasInstruction.java:197-198 | `graddir=d` alone gives a gradient from white to white, which the constructor would have collapsed |
| CanvasInstructions.FinishGradDir | src/drawings/CanvasInstruction.java:220-235 | a lone in-range direction finishes as a white-to-white gradient of the default size |
| DrawInstructions.ValidateOrDefault | src/drawings/DrawInstruction.java:261-267 | scale and repeats end up at least 1; valid values are unchanged; no other field changes |
| DrawInstructions.Make | src/drawings/DrawInstruction.java:62-83 | construction succeeds exactly when the name is present and non-empty and a colour is given, with scale and repeats lifted to at least 1; otherwise `IllegalArgumentException` |
| DrawInstructions.Default | src/drawings/DrawInstruction.java:92-104 | shape `none`, scale 100, origin, one repeat, no offsets, filled, black, no rotation |
| DrawInstructions.Finish | src/drawings/DrawInstruction.java:247-251 | the colour is built from the clamped channels; scale and repeats are kept as read |
| DrawInstructions.ReadFromFile | src/drawings/DrawInstruction.java:215-254 | an exhausted file is `NoSuchElementException`; a read record has a valid colour and consumes input |
| DrawInstructions.KeySetting | src/drawings/DrawInstruction.java:224-245 | after the loop, every numeric key holds the last value given for it in the line, or its default |
| DrawInstructions.ParseRecordPlacement | src/drawings/DrawInstruction.java:231-233 | scale, x and y are the last values given for `scale`, `x` and `y`, or their defaults |
| DrawInstructions.ParseRecordRepeats | src/drawings/DrawInstruction.java:234-236 | repeats and both repeat offsets are the last values given for `rep`, `repoffx` and `repoffy`, or their defaults |
| DrawInstructions.ParseRecordRotation | src/drawings/DrawInstruction.java:238-239 | rotate and repeat-rotate are the last values given for `rotate` and `reprot`, or 0 |
| DrawInstructions.ParseRecordColor | src/drawings/DrawInstruction.java:240-251 | the colour is the clamped last `red`, `green` and `blue` values, each defaulting to 0 |
| DrawInstructions.ParseRecordShape | src/drawings/DrawInstruction.java:230 | the shape name is the last (lower-cased) `shape` value, or `none`, and holds no ASCII upper-case letter |
| DrawInstructions.ParseRecordFilled | src/drawings/DrawInstruction.java:237 | the figure is filled unless the last `filled` value is exactly `false` |
| DrawInstructions.NoKeysGivesDefault | src/drawings/DrawInstruction.java:215-254 | a line with no known key reads as the default instruction |
| DrawInstructions.ParseRecordSucceeds | src/drawings/DrawInstruction.java:224-245 | a line is read without exception exactly when every field has an `=` and every numeric key's value parses as an `int` |
| DrawInstructions.UnknownKeyIgnored | src/drawings/DrawInstruction.java:243 | a field with an unknown key leaves the result unchanged |
| DrawInstructions.SmallScaleKept | src/drawings/DrawInstruction.java:231 | a read scale below 1 is kept, while the constructor would have lifted it to 1 |
| InstructionRecords.KeyValue | src/drawings/CanvasInstruction.java:187-189 | a field yields a key and value exactly when splitting it on `=` gives at least two pieces; otherwise `ArrayIndexOutOfBoundsException` |
| InstructionRecords.ApplyAllAppend | src/drawings/CanvasInstruction.java:186-213 | reading fields `a` then `b` is reading `a` and continuing from its result with `b`, and the first failure stops the loop |
| InstructionRecords.ApplyAllSucceeds | src/drawings/CanvasInstruction.java:186-213 | the loop completes exactly when every field is accepted |
| InstructionRecords.IgnoredFieldDropped | src/drawings/DrawInstruction.java:243 | a field the switch ignores can be removed without changing the outcome |
| InstructionRecords.LastWhere | src/drawings/DrawInstruction.java:224-245 | the index found is the last one satisfying the predicate; none is found exactly when no element satisfies it |
| InstructionRecords.LastIndex | src/drawings/DrawInstruction.java:224-245 | the index found is that of the last field with the key; none is found exactly when no field has it |
| InstructionRecords.LastWins | src/drawings/DrawInstruction.java:224-245 | for a field the switch assigns, the value after the loop is the decoded value of the key's last occurrence, or the value before the loop |
| InstructionRecords.FlagRaised | src/drawings/CanvasInstruction.java:197-210 | a flag set by a group of keys is raised after the loop exactly when it was raised before or some field has one of those keys |
| InstructionRecords.KeyValueOf | src/drawings/CanvasInstruction.java:187-189 | a padded `key=value` field yields the trimmed lower-case key and the value |
| InstructionRecords.KeyValuePair | src/drawings/CanvasInstruction.java:187-189 | any `k=v` without further `=` yields the trimmed, lower-cased `k` and `v` when `v` is not empty, and throws `ArrayIndexOutOfBoundsException` when it is |
| InstructionRecords.SecondPieceIsValue | src/drawings/DrawInstruction.java:225-227 | in `k=v=rest` the value is the trimmed, lower-cased second piece `v`; everything after the second `=` is ignored |
| InstructionRecords.PlainField | src/drawings/CanvasInstruction.java:178-189 | a field of plain characters is one field whose key and value come back unchanged |
| InstructionRecords.TrimPadded | src/drawings/CanvasInstruction.java:188 | trimming removes leading padding from a string with no padding at its ends |
| JavaString.Trim | src/drawings/CanvasInstruction.java:188-189 | the result is the input with its leading and trailing characters up to U+0020 removed |
| JavaString.TrimIdempotent | src/drawings/CanvasInstruction.java:188-189 | trimming twice is trimming once |
| JavaString.ToLower | src/drawings/CanvasInstruction.java:188-189 | in the model, ASCII upper-case letters become lower case, every other character is kept, and no ASCII upper-case letter is left |
| JavaString.SplitAll | src/drawings/CanvasInstruction.java:178 | at least one piece, and no piece contains the separator |
| JavaString.JoinSplitAll | src/drawings/CanvasInstruction.java:178 | joining the pieces with the separator restores the input |
| JavaString.SplitAllJoin | src/drawings/CanvasInstruction.java:178 | splitting separator-free pieces joined by the separator gives the pieces back |
| JavaString.Split | src/drawings/CanvasInstruction.java:178 | `String.split`: a string without the separator is its own single piece; otherwise the full split with trailing empty pieces dropped |
| JavaString.LastPieceEmpty | src/drawings/CanvasInstruction.java:178 | the last piece is empty exactly when the input is empty or ends with the separator |
| JavaString.SplitJoined | src/drawings/CanvasInstruction.java:178 | splitting two non-separator-ended parts joined by the separator splits each part |
| JavaString.ParseInt | src/drawings/CanvasInstruction.java:192 | the text parses exactly when it is an optional `+` or `-` followed by at least one digit and its signed decimal value fits in 32 bits; the result is that value, and anything else is `NumberFormatException` |
| JavaString.NatToString | src/drawings/InstructGui.java:181-183 | decimal digits without leading zeros whose value is the number |
| JavaString.IntToString | src/drawings/InstructGui.java:181-183 | non-empty, starting with `-` exactly for negative numbers |
| JavaString.ParseIntToString | src/drawings/InstructGui.java:181-183 | parsing a printed `int` gives it back |
| JavaScanner.LineLength | src/drawings/CanvasInstruction.java:177 | the length of the text before the first line terminator |
| JavaScanner.NextLine | src/drawings/CanvasInstruction.java:177 | fails exactly on an exhausted input; otherwise returns the text up to the first terminator and the input after the terminator |
| JavaScanner.NextLineReadsLine | src/drawings/DrawInstruction.java:219 | reading a line followed by a newline returns that line and what follows |
| JavaInt.Wrap | src/drawings/Drawing.java:77-78 | the 32-bit result is congruent to the exact value modulo 2^32, and equal to it when it is in range |
| JavaInt.Quot | src/drawings/Drawing.java:115-116 | Java `/` rounds toward zero: the remainder takes the dividend's sign and is smaller than the divisor |
| JavaInt.DivNonNegative | src/drawings/Drawing.java:115-116 | for a non-negative dividend and positive divisor Java division is plain division |
| JavaInt.CastToInt | src/drawings/Drawing.java:69-70 | `(int)` of a real rounds toward zero and saturates at the `int` bounds |
| JavaInt.CastExact | src/drawings/Drawing.java:118-119 | casting an integral real gives the integer back |
| JavaInt.AddThenSub | src/drawings/Drawing.java:161-170 | adding and then subtracting an offset in 32-bit arithmetic restores the value |
| JavaInt.AddAccumulates | src/drawings/Drawing.java:161-164 | adding an offset once more to a value already moved `n` times moves it `n + 1` times |
| Graphics.RotatePolygon | src/drawings/Drawing.java:117-122 | every vertex is turned about the centre with the cosine and sine of the angle, and the vertex count is kept |
| Graphics.TurnByNothing | src/drawings/Drawing.java:117-122 | turning by an angle with cosine 1 and sine 0 leaves the polygon unchanged |
| Graphics.Isqrt | src/drawings/Drawing.java:201-202 | the integer square root: the largest `r` with `r * r` not above `n` |
| Graphics.Hypotenuse | src/drawings/Drawing.java:201-203 | `(int) Math.sqrt(w² + h²)` is the integer square root, saturated at the `int` maximum |
| Graphics.PolygonCountAppend | src/drawings/Drawing.java:134-140 | polygon counts add up over concatenated traces |
| Drawings.ReadInstructions | src/drawings/Drawing.java:46-49 | every instruction read has a valid colour |
| Drawings.NewDrawing | src/drawings/Drawing.java:42-50 | an empty file is `NoSuchElementException`; a drawing keeps its library and has a well-formed canvas |
| Drawings.ReadsEveryLine | src/drawings/Drawing.java:46-49 | a file of record lines yields one draw instruction per line, each parsed from that line, in order |
| Drawings.NewDrawingReadsLines | src/drawings/Drawing.java:42-50 | the canvas comes from the first line and the draw instructions from the later lines, one each, in order |
| Drawings.LineWithoutEqualsFails | src/drawings/DrawInstruction.java:225-227 | a line with no `=` and no `,` followed by more input makes the constructor throw `ArrayIndexOutOfBoundsException` |
| Drawings.HasNextPrefix | src/drawings/Drawing.java:47 | input that already has a token still has one when more text follows |
| Drawings.ScaledShape | src/drawings/Drawing.java:65-71 | one scaled vertex per shape point, in the matched `xs`/`ys` arrays |
| Drawings.ScaledShapeInBox | src/drawings/Drawing.java:67-70 | a template scaled by a non-negative percentage stays in the box from 0 to that percentage; at 100 percent integral coordinates are kept |
| Drawings.ScaleBound | src/drawings/Drawing.java:69-70 | a coordinate in 0..100 scales into 0..scalePercent |
| Drawings.Shift | src/drawings/Drawing.java:161-164 | each vertex moves by the offset in 32-bit arithmetic |
| Drawings.Unshift | src/drawings/Drawing.java:167-170 | each vertex moves back by the offset in 32-bit arithmetic |
| Drawings.UnshiftShift | src/drawings/Drawing.java:161-170 | moving back after moving restores the polygon, so a random repeat leaves the working arrays as they were |
| Drawings.Translate | src/drawings/Drawing.java:75-80 | the polygon moves by the starting point unless both coordinates are the random sentinel, in which case it is unchanged |
| Drawings.RotationAngle | src/drawings/Drawing.java:109-113 | the angle is `rotate` when that exceeds 1, `repeatRotate` otherwise |
| Drawings.RotationCentreValue | src/drawings/Drawing.java:115-116 | the centre is the start point plus half the scale, halved toward zero |
| Drawings.Rotate | src/drawings/Drawing.java:107-124 | turning keeps the matched arrays and the vertex count |
| Drawings.RandomOffsetInside | src/drawings/Drawing.java:156-159 | a random offset from a number in [0, 1) lies in [0, extent) |
| Drawings.Repeat | src/drawings/Drawing.java:152-172 | one repeat draws exactly one figure, keeps the vertex count and uses one random number per random axis |
| Drawings.RepeatRestores | src/drawings/Drawing.java:166-171 | with a random axis, the working polygon is restored after the figure is drawn |
| Drawings.RepeatMoves | src/drawings/Drawing.java:153-165 | with fixed axes, the polygon moves by the repeat offsets and that moved figure is drawn |
| Drawings.RepeatLoop | src/drawings/Drawing.java:82-90 | the repeat loop draws only figures of the instruction's fill and vertex count |
| Drawings.RepeatLoopCounts | src/drawings/Drawing.java:82-90 | `count` passes draw `count` figures, or twice that when `repeatRotate` is positive, and use `count` times the random numbers of one pass |
| Drawings.OffsetsAccumulate | src/drawings/Drawing.java:82-90 | with fixed axes and no turning, the k-th repeat is the placed figure moved k + 1 times by the offsets |
| Drawings.RandomRepeatsReturn | src/drawings/Drawing.java:82-90 | with a random axis and no turning, the working polygon is the same after the loop as before |
| Drawings.Render | src/drawings/Drawing.java:63-93 | one instruction fails exactly when the library is empty, with `IndexOutOfBoundsException` |
| Drawings.Placed | src/drawings/Drawing.java:64-80 | the placed figure has one vertex per point of the shape looked up |
| Drawings.RenderStart | src/drawings/Drawing.java:64-81 | an instruction's trace starts with its colour and then the scaled, translated shape |
| Drawings.RenderCount | src/drawings/Drawing.java:81-93 | an instruction emits 2 + max(0, repeats − 1) × (2 if `repeatRotate` > 0, else 1) + (1 if `rotate` > 1) events, all but the first of them polygons; a read `rep` of 1 or less runs no repeat pass |
| Drawings.RenderFigures | src/drawings/Drawing.java:81-93 | after the colour, every event is a polygon of the instruction's fill and the shape's vertex count |
| Drawings.AllFigures | src/drawings/Drawing.java:134-140 | a trace of polygons counts all its events |
| Drawings.RenderAll | src/drawings/Drawing.java:63-94 | the instruction loop fails exactly when the library is empty and there is an instruction, with no figure drawn |
| Drawings.RenderAllAppend | src/drawings/Drawing.java:63-94 | instructions are drawn in file order: the events of two instruction lists in a row are the first list's events, then the second's, which continues with the random numbers the first left unused |
| Drawings.Draw | src/drawings/Drawing.java:55-95 | the panel is opened at the canvas size first; drawing fails exactly when the library is empty and there is an instruction |
| Drawings.DrawBackground | src/drawings/Drawing.java:58-62 | right after the panel comes the gradient painter's output for a gradient canvas, and one solid background otherwise |
| Gradients.Blend | src/drawings/Drawing.java:185-188 | a channel of the pass colour lies between the start and end channel and is the start at pass 0; it reaches the end channel only at `i == steps`, which no pass paints |
| Gradients.BlendBounds | src/drawings/Drawing.java:185-188 | the weighted quotient stays between the two channels and hits them at the ends |
| Gradients.BlendMonotone | src/drawings/Drawing.java:185-188 | from a lower to a higher channel value, the pass colour never decreases from one pass to the next |
| Gradients.BlendShortOfEnd | src/drawings/Drawing.java:184-188 | a channel rising from start to end stays below the end in every pass `i < steps` that the loop paints |
| Gradients.BlendLastBand | src/drawings/Drawing.java:184-188 | rounding down is asymmetric: 0 to 255 over 100 passes ends at 252, while 1 to 0 reaches 0 by the last painted pass |
| Gradients.PaintedShortOfEnd | src/drawings/Drawing.java:184-189 | in every band the painter paints, each channel that rises from the start colour to the end colour is below its end value |
| Gradients.BandColor | src/drawings/Drawing.java:184-189 | every pass colour is valid, lies channel by channel between the start and end colours, and pass 0 is the start colour |
| Gradients.DiagonalBase | src/drawings/Drawing.java:203-205 | the unturned diagonal band is a quadrilateral |
| Gradients.DiagonalBand | src/drawings/Drawing.java:199-216 | the turned diagonal band is a quadrilateral |
| Gradients.PassesLength | src/drawings/Drawing.java:184-238 | passes of equal width `w` give `w × n` events |
| Gradients.PassesAt | src/drawings/Drawing.java:184-238 | event `j` of pass `k` is at position `w × k + j` |
| Gradients.GradientEvents | src/drawings/Drawing.java:180-240 | the painter emits a colour and a band per pass in directions 0 to 3 (a colour alone otherwise), then the solid background last |
| Gradients.Gradient | src/drawings/Drawing.java:180-240 | the painter's loop, whose bound changes inside the first pass, produces exactly the painter's events |
| Gradients.PaintPasses | src/drawings/Drawing.java:184-238 | running the loop from any pass on finishes all the passes of the direction |
| Gradients.OnePass | src/drawings/Drawing.java:185-237 | one pass appends its colour and its band, and after it the bound is the direction's pass count |
| Gradients.BandsLength | src/drawings/Drawing.java:184-238 | `n` passes emit `2n` events in directions 0 to 3 and `n` otherwise |
| Gradients.PassAt | src/drawings/Drawing.java:184-238 | in the painter's output, event `2k` sets the colour of pass `k` and event `2k + 1` is its band |
| Gradients.RowBands | src/drawings/Drawing.java:193-195 | in direction 0, band `k` fills from x 0 and y `height*(k-1)/100` with the full canvas size |
| Gradients.ColumnBands | src/drawings/Drawing.java:196-198 | in direction 1, band `k` fills from x `width*(k-1)/100` and y 0 with the full canvas size |
| Gradients.DiagonalBands | src/drawings/Drawing.java:199-235 | in directions 2 and 3, every band is a filled quadrilateral |
| Gradients.FirstBandEdge | src/drawings/Drawing.java:194 | band 0 starts at `-(extent/100)`, divided toward zero: at the panel's edge for extents below 100, strictly before it from 100 on |
| Gradients.BandEdgesInside | src/drawings/Drawing.java:194-197 | for extents up to 21,000,000, where `extent*99` does not overflow, band 1 starts at 0 and bands 1 to 99 start inside the panel in non-decreasing order |
| InstructGui.ColorToRgb | src/drawings/InstructGui.java:174-190 | the text is empty exactly for a null colour |
| InstructGui.ColorToRgbText | src/drawings/InstructGui.java:180-188 | without a prefix the text is `, red=R, green=G, blue=B`; with a prefix `p` it is `, pRed=R, pGreen=G, pBlue=B` |
| InstructGui.RgbPieces | src/drawings/InstructGui.java:174-190 | the text is a comma, then the three `key=value` pieces separated by commas |
| InstructGui.AppendedFields | src/drawings/InstructGui.java:174-190 | appending the text to a line adds exactly the three colour fields to the line's fields |
| InstructGui.CanvasSolidRoundTrip | src/drawings/InstructGui.java:174-190 | appending a colour's plain text to a canvas line sets the solid colour to it and changes nothing else |
| InstructGui.CanvasStartRoundTrip | src/drawings/InstructGui.java:174-190 | appending a colour with the `gradStart` prefix makes a gradient starting at that colour, keeping the size, the solid colour and any end colour |
| InstructGui.CanvasEndRoundTrip | src/drawings/InstructGui.java:174-190 | appending a colour with the `gradEnd` prefix makes a gradient ending at that colour, keeping the size, the solid colour and any start colour |
| InstructGui.DrawColorRoundTrip | src/drawings/InstructGui.java:174-190 | appending a colour's plain text to a draw line sets the colour to it and changes nothing else |
| InstructGui.TrailingCommaBreaks | src/drawings/InstructGui.java:174-190 | a draw line ending in a comma followed by the text has an empty field and fails with `ArrayIndexOutOfBoundsException` |

## Left out

- Floating point: doubles are exact reals or exact rationals. This covers scaling,
  the gradient ratio, `Math.sqrt` and rotation. Rounding error is not modelled.
- Gradients.Blend: the channel is the floor of the exact rational
  `(end*i + start*(steps-i))/steps`. The double computation can land one unit lower
  when the product rounds just below an integer.
- Graphics.Hypotenuse: the integer square root of the exact sum of squares. `Math.pow`
  and `Math.sqrt` round, which is not modelled.
- `Math.cos`, `Math.sin` and `Math.random` are not computed. They are parameters of
  `Env`, read in whole degrees and by call number. Graphics.RotatePolygon and
  Drawings.Rotate therefore state the shape of the result, not its coordinates.
- Gradients.DiagonalBase and Gradients.DiagonalBand state only that a band is a
  quadrilateral, because its corners go through `Env`'s cosine and sine.
- Swing is not modelled: `DrawingPanel`, `Graphics` and `setBackground` are a trace
  of events. `Color` is three `int` channels.
- Points.Equals: coordinates are exact reals, so NaN and the two zeros of `double`
  equality are not modelled.
- `Scanner` is modelled only as far as the readers use it. `nextLine` splits at
  `\n`, `\r` and the other Java line terminators. `hasNext` means some
  non-whitespace character remains. `\r\n` is one separator. Locale-specific
  scanner settings are not modelled.
- JavaString.ToLower: lower-cases only the ASCII letters `A` to `Z`, with no locale.
  Java's `toLowerCase` uses the default locale and full Unicode case mapping, which
  has three effects the model leaves out. Non-ASCII capitals are lowered, so the
  model keeps `shape=Ä` as `Ä` and does not find a shape named `ä`; it falls back to
  the first shape. Some mappings change the length, such as `İ` (U+0130) becoming two
  characters. Under a Turkish locale `I` becomes the dotless `ı`, so Java reads
  `WIDTH=50` as the unknown key `wıdth` and ignores it, while the model reads it as `width`.
- DrawInstructions.ParseRecordShape: the shape name is free of ASCII upper-case
  letters only. Non-ASCII capitals are kept, as JavaString.ToLower describes.
- JavaString.ParseInt: accepts only ASCII digits. `Integer.parseInt` also accepts
  other Unicode decimal digits, which the model rejects as malformed.
- `File` and `FileNotFoundException` are not modelled: the drawing file is its
  text.
- Gradients.Gradient: the painter's `for` loop is a tail-recursive method,
  `PaintPasses`, with the same passes and the same in-loop change of the bound.
- `Main` and `toString` of every class are not modelled: they are console and
  string output.
- Not modelled: `InstructGui` apart from `colorToRgb`, which is Swing form
  handling.
- Not modelled: `Point.distance`, `Point.distanceToOrigin`, `Point.getX` and
  `Point.getY`. The distances are floating-point square roots outside the
  drawing core. The getters are field reads.
- Not modelled: `Utility.writeShapes`, `Utility.loadShapes` and the serialization
  in `createShapeFiles`. The templates are built in memory, which is all the
  library needs.
- Not modelled: the getters of `CanvasInstruction` and `DrawInstruction`. They are
  field reads.

=== FILE: canvas_instruction.dfy ===
/** `CanvasInstruction`: the canvas size and background of a drawing, built either by
    the private constructor (which sorts out solid against gradient fills) or by
    reading the first record of a drawing file. */
module CanvasInstructions {
  import opened Wrappers
  import opened JavaInt
  import opened JavaString
  import opened JavaScanner
  import opened Colors
  import opened Utility
  import opened InstructionRecords

  const MIN_GRADIENT_DIRECTION: Int32 := 0
  const MAX_GRADIENT_DIRECTION: Int32 := 3

  datatype CanvasInstruction = CanvasInstruction(
    width: Int32,
    height: Int32,
    colorSolid: Option<Color>,
    colorStart: Option<Color>,
    colorEnd: Option<Color>,
    gradDirection: Int32,
    isGradient: bool)

  /** What every constructed canvas satisfies: a positive size, in-range colours,
      gradient colours present exactly for a gradient fill, and a solid colour
      whenever there is no gradient. */
  predicate WellFormed(c: CanvasInstruction) {
    && c.width >= 1 && c.height >= 1
    && (c.colorSolid.Some? ==> Valid(c.colorSolid.value))
    && (c.isGradient <==> c.colorStart.Some?)
    && (c.isGradient <==> c.colorEnd.Some?)
    && (c.colorStart.Some? ==> Valid(c.colorStart.value))
    && (c.colorEnd.Some? ==> Valid(c.colorEnd.value))
    && (!c.isGradient ==> c.colorSolid.Some?)
  }

  /** `validateOrDefault`: width and height below 1 become 1. */
  function ValidateOrDefault(c: CanvasInstruction): (r: CanvasInstruction)
    ensures r.width >= 1 && r.height >= 1
    ensures c.width >= 1 && c.height >= 1 ==> r == c
    ensures r.(width := c.width, height := c.height) == c
  {
    c.(width := AtLeastOne(c.width), height := AtLeastOne(c.height))
  }

  /** The private six-argument constructor. A lone start or end colour becomes the
      solid colour; two equal ones collapse to a solid fill of that colour; without
      gradient or solid colour the fill is white. */
  function Create(width: Int32, height: Int32, colorSolid: Option<Color>,
                  colorStart: Option<Color>, colorEnd: Option<Color>, gradDirection: Int32)
    : (r: CanvasInstruction)
    requires colorSolid.Some? ==> Valid(colorSolid.value)
    requires colorStart.Some? ==> Valid(colorStart.value)
    requires colorEnd.Some? ==> Valid(colorEnd.value)
    ensures WellFormed(r)
    ensures r.width == AtLeastOne(width) && r.height == AtLeastOne(height)
    ensures r.gradDirection == gradDirection
    ensures r.isGradient <==> colorStart.Some? && colorEnd.Some? && colorStart != colorEnd
    ensures r.isGradient ==> r.colorStart == colorStart && r.colorEnd == colorEnd && r.colorSolid == colorSolid
    ensures colorStart.None? && colorEnd.Some? ==> r.colorSolid == colorEnd
    ensures colorStart.Some? && colorEnd.None? ==> r.colorSolid == colorStart
    ensures colorStart.Some? && colorStart == colorEnd ==> r.colorSolid == colorStart
    ensures colorStart.None? && colorEnd.None? ==>
      r.colorSolid == if colorSolid.Some? then colorSolid else Some(White)
  {
    // A lone start or end colour becomes the solid colour.
    var (solid, start, end) :=
      if colorStart.None? && colorEnd.Some? then (colorEnd, None, None)
      else if colorEnd.None? && colorStart.Some? then (colorStart, None, None)
      else (colorSolid, colorStart, colorEnd);
    var gradient := start.Some? && end.Some?;
    // Equal start and end colours make a solid fill.
    var (solid, start, end, gradient) :=
      if gradient && start == colorEnd then (start, None, None, false)
      else (solid, start, end, gradient);
    var solid := if !gradient && solid.None? then Some(White) else solid;
    ValidateOrDefault(CanvasInstruction(width, height, solid, start, end, gradDirection, gradient))
  }

  /** The private no-argument constructor: a 100 by 100 white canvas. */
  function Default(): (r: CanvasInstruction)
    ensures r == CanvasInstruction(100, 100, Some(White), None, None, 0, false)
  {
    Create(100, 100, Some(White), None, None, 0)
  }

  /** Constructing again from a constructed canvas's own fields gives it back. */
  lemma CreateStable(width: Int32, height: Int32, colorSolid: Option<Color>,
                     colorStart: Option<Color>, colorEnd: Option<Color>, gradDirection: Int32)
    requires colorSolid.Some? ==> Valid(colorSolid.value)
    requires colorStart.Some? ==> Valid(colorStart.value)
    requires colorEnd.Some? ==> Valid(colorEnd.value)
    ensures var c := Create(width, height, colorSolid, colorStart, colorEnd, gradDirection);
      Create(c.width, c.height, c.colorSolid, c.colorStart, c.colorEnd, c.gradDirection) == c
  {
  }

  /** The locals of `readFromFile` while its fields are being read: the integer
      each numeric key last set, by key (`width` and `height` are the fields of the
      default canvas, the others are locals), and whether a gradient was asked for. */
  datatype Reading = Reading(values: map<string, Int32>, attemptGradient: bool)

  /** The keys that ask for a gradient. */
  const GradientKeys: set<string> :=
    {"graddir", "gradstartred", "gradstartgreen", "gradstartblue",
     "gradendred", "gradendgreen", "gradendblue"}

  /** Every key the reader understands; each takes an integer. */
  const NumericKeys: set<string> := {"width", "height", "red", "green", "blue"} + GradientKeys

  /** The value a key holds before any field sets it: the default canvas's size,
      white channels and gradient direction 0. */
  function DefaultValue(key: string): Int32 {
    if key == "width" || key == "height" then 100
    else if key == "graddir" then 0
    else 255
  }

  /** The state before the first field: nothing set yet. */
  const Initial: Reading := Reading(map[], false)

  /** The integer `key` currently holds. */
  function Value(r: Reading, key: string): Int32 {
    if key in r.values then r.values[key] else DefaultValue(key)
  }

  /** One case of the `switch (cmd)`: a known key parses its value into its own
      local, a gradient key also asks for a gradient, and any other key is ignored. */
  function Step(r: Reading, key: string, value: string): Result<Reading> {
    if key !in NumericKeys then Ok(r)
    else
      var n :- ParseInt(value);
      Ok(Reading(r.values[key := n], r.attemptGradient || key in GradientKeys))
  }

  /** What happens after the loop: channels are clamped; when a gradient was asked
      for, an out-of-range direction is reset to 0 and both gradient colours are set,
      with no check that they differ. */
  function Finish(r: Reading): (c: CanvasInstruction)
    ensures WellFormed(c)
    ensures c.width == AtLeastOne(Value(r, "width")) && c.height == AtLeastOne(Value(r, "height"))
    ensures c.colorSolid == Some(LimitedColor(Value(r, "red"), Value(r, "green"), Value(r, "blue")))
    ensures c.isGradient == r.attemptGradient
    ensures c.isGradient ==> c.colorStart == Some(StartColor(r)) && c.colorEnd == Some(EndColor(r))
    ensures !c.isGradient ==> c.colorStart.None? && c.colorEnd.None?
    ensures MIN_GRADIENT_DIRECTION <= c.gradDirection <= MAX_GRADIENT_DIRECTION
    ensures c.gradDirection == if r.attemptGradient && 0 <= Value(r, "graddir") <= 3 then Value(r, "graddir") else 0
  {
    var solid := Some(LimitedColor(Value(r, "red"), Value(r, "green"), Value(r, "blue")));
    var c :=
      if r.attemptGradient then
        var gradDir := Value(r, "graddir");
        var dir := if gradDir < MIN_GRADIENT_DIRECTION || gradDir > MAX_GRADIENT_DIRECTION then 0 else gradDir;
        CanvasInstruction(Value(r, "width"), Value(r, "height"), solid,
                          Some(StartColor(r)), Some(EndColor(r)), dir, true)
      else
        // The gradient direction keeps the default canvas's 0.
        CanvasInstruction(Value(r, "width"), Value(r, "height"), solid, None, None, Default().gradDirection, false);
    ValidateOrDefault(c)
  }

  function StartColor(r: Reading): Color {
    LimitedColor(Value(r, "gradstartred"), Value(r, "gradstartgreen"), Value(r, "gradstartblue"))
  }

  function EndColor(r: Reading): Color {
    LimitedColor(Value(r, "gradendred"), Value(r, "gradendgreen"), Value(r, "gradendblue"))
  }

  /** One canvas record: its fields applied in order to the initial state. */
  function ParseRecord(line: string): Result<CanvasInstruction> {
    var r :- ApplyAll(Step, Initial, Fields(line));
    Ok(Finish(r))
  }

  /** `readFromFile`: reads the next line of the remaining input as a canvas record,
      and returns it with the input that remains. */
  function ReadFromFile(rest: string): (r: Result<(CanvasInstruction, string)>)
    ensures rest == [] ==> r == Fail(NoSuchElement)
    ensures r.Ok? ==> WellFormed(r.value.0) && |r.value.1| < |rest|
  {
    var (line, after) :- NextLine(rest);
    var c :- ParseRecord(line);
    Ok((c, after))
  }

  /** The integer a record gives `key`, or `default` when it does not name it. */
  function IntSetting(line: string, key: string, default: Int32): Int32 {
    Setting(Fields(line), key, default, IntValue)
  }

  /** A read record's size is the last width and height it gives, 100 when it gives
      none, and at least 1. */
  lemma ParseRecordSize(line: string)
    requires ParseRecord(line).Ok?
    ensures var c := ParseRecord(line).value;
      && c.width == AtLeastOne(IntSetting(line, "width", 100))
      && c.height == AtLeastOne(IntSetting(line, "height", 100))
  {
    var r := ApplyAll(Step, Initial, Fields(line)).value;
    assert ParseRecord(line) == Ok(Finish(r));
    KeySetting(line, "width");
    KeySetting(line, "height");
  }

  /** A read record's solid colour is always set, from the last red, green and blue
      it gives (255 each when missing), clamped to [0, 255]. */
  lemma ParseRecordSolid(line: string)
    requires ParseRecord(line).Ok?
    ensures ParseRecord(line).value.colorSolid ==
      Some(LimitedColor(IntSetting(line, "red", 255), IntSetting(line, "green", 255), IntSetting(line, "blue", 255)))
  {
    var r := ApplyAll(Step, Initial, Fields(line)).value;
    assert ParseRecord(line) == Ok(Finish(r));
    KeySetting(line, "red");
    KeySetting(line, "green");
    KeySetting(line, "blue");
  }

  /** A read record is a gradient exactly when some gradient key appears; both
      gradient colours are then set from the last values given (255 each when
      missing), and neither is set otherwise. */
  lemma ParseRecordGradient(line: string)
    requires ParseRecord(line).Ok?
    ensures var c := ParseRecord(line).value;
      && (c.isGradient <==> AnyKey(Fields(line), GradientKeys))
      && (c.isGradient ==> c.colorStart == Some(LimitedColor(IntSetting(line, "gradstartred", 255),
                                                             IntSetting(line, "gradstartgreen", 255),
                                                             IntSetting(line, "gradstartblue", 255))))
      && (c.isGradient ==> c.colorEnd == Some(LimitedColor(IntSetting(line, "gradendred", 255),
                                                           IntSetting(line, "gradendgreen", 255),
                                                           IntSetting(line, "gradendblue", 255))))
      && (!c.isGradient ==> c.colorStart.None? && c.colorEnd.None?)
  {
    var fields := Fields(line);
    var r := ApplyAll(Step, Initial, fields).value;
    assert ParseRecord(line) == Ok(Finish(r));
    KeySetting(line, "gradstartred");
    KeySetting(line, "gradstartgreen");
    KeySetting(line, "gradstartblue");
    KeySetting(line, "gradendred");
    KeySetting(line, "gradendgreen");
    KeySetting(line, "gradendblue");
    GradientFlag();
    FlagRaised(Step, (t: Reading) => t.attemptGradient, GradientKeys, Initial, fields);
  }

  /** A read record's gradient direction is the last one it gives when that lies in
      [0, 3] and a gradient is drawn; an out-of-range direction, or a record without
      a gradient, has direction 0. */
  lemma ParseRecordDirection(line: string)
    requires ParseRecord(line).Ok?
    ensures var c := ParseRecord(line).value;
      && 0 <= c.gradDirection <= 3
      && (c.isGradient && 0 <= IntSetting(line, "graddir", 0) <= 3 ==>
            c.gradDirection == IntSetting(line, "graddir", 0))
      && (!(0 <= IntSetting(line, "graddir", 0) <= 3) ==> c.gradDirection == 0)
      && (!c.isGradient ==> c.gradDirection == 0)
  {
    var r := ApplyAll(Step, Initial, Fields(line)).value;
    assert ParseRecord(line) == Ok(Finish(r));
    KeySetting(line, "graddir");
  }

  /** After the loop, a known key holds the last value given for it, or its default. */
  lemma KeySetting(line: string, key: string)
    requires key in NumericKeys
    requires ApplyAll(Step, Initial, Fields(line)).Ok?
    ensures Value(ApplyAll(Step, Initial, Fields(line)).value, key) == IntSetting(line, key, DefaultValue(key))
  {
    SlotAssigned(key);
    LastWins(Step, (t: Reading) => Value(t, key), key, IntValue, Initial, Fields(line));
  }

  /** The gradient keys, and only they, ask for a gradient. */
  lemma GradientFlag()
    ensures RaisesFlag(Step, (t: Reading) => t.attemptGradient, GradientKeys)
  {
  }

  /** Each known key assigns its own local and no other. */
  lemma SlotAssigned(key: string)
    requires key in NumericKeys
    ensures AssignsSlot(Step, (t: Reading) => Value(t, key), key, IntValue)
  {
  }

  /** A field's value must parse as an integer when its key is a known one. */
  predicate Accepts(key: string, value: string) {
    key in NumericKeys ==> ParseInt(value).Ok?
  }

  /** A canvas record reads without an exception exactly when every field contains
      `=` before some non-empty text and every known key's value is an integer. */
  lemma ParseRecordSucceeds(line: string)
    ensures ParseRecord(line).Ok? <==>
      forall i :: 0 <= i < |Fields(line)| ==> FieldAccepted(Accepts, Fields(line)[i])
  {
    assert forall t, k, v :: Step(t, k, v).Ok? == Accepts(k, v);
    ApplyAllSucceeds(Step, Accepts, Initial, Fields(line));
  }

  /** A field the reader does not know can be removed without changing the result. */
  lemma UnknownKeyIgnored(a: seq<string>, field: string, b: seq<string>)
    requires KeyValue(field).Ok? && KeyValue(field).value.0 !in NumericKeys
    ensures ApplyAll(Step, Initial, a + [field] + b) == ApplyAll(Step, Initial, a + b)
  {
    IgnoredFieldDropped(Step, Initial, a, field, b);
  }

  /** The gradient is kept even when its two colours end up equal: `graddir=d`
      alone gives a gradient from white to white. */
  lemma GradientWithoutCollapse(d: Int32)
    requires 0 <= d <= 3
    ensures ParseRecord("graddir=" + IntToString(d)) ==
      Ok(CanvasInstruction(100, 100, Some(White), Some(White), Some(White), d, true))
  {
    IntField(Step, Initial, "graddir", d);
    assert "graddir=" == "graddir" + "=";
    var r := Reading(map["graddir" := d], true);
    assert Step(Initial, "graddir", IntToString(d)) == Ok(r);
    FinishGradDir(d);
  }

  /** After `graddir=d` alone, the loop's locals give a white-to-white gradient
      over the default size. */
  lemma FinishGradDir(d: Int32)
    requires 0 <= d <= 3
    ensures Finish(Reading(map["graddir" := d], true)) ==
      CanvasInstruction(100, 100, Some(White), Some(White), Some(White), d, true)
  {
    var r := Reading(map["graddir" := d], true);
    assert Value(r, "graddir") == d && Value(r, "width") == 100 && Value(r, "height") == 100;
    assert StartColor(r) == White && EndColor(r) == White;
    assert Value(r, "red") == 255 && Value(r, "green") == 255 && Value(r, "blue") == 255;
  }
}

=== FILE: color.dfy ===
/** `java.awt.Color` as used here: three channels compared by value. */
module Colors {

  datatype Color = Color(red: int, green: int, blue: int)

  /** The range `java.awt.Color` accepts for each channel. */
  predicate Valid(c: Color) {
    0 <= c.red <= 255 && 0 <= c.green <= 255 && 0 <= c.blue <= 255
  }

  const White: Color := Color(255, 255, 255)
  const Black: Color := Color(0, 0, 0)
}

=== FILE: draw_instruction.dfy ===
/** `DrawInstruction`: one shape to draw, with its placement, scaling, repetition,
    fill, colour and rotation, built by the private constructor or read from one
    record of a drawing file. */
module DrawInstructions {
  import opened Wrappers
  import opened JavaInt
  import opened JavaString
  import opened JavaScanner
  import opened Colors
  import opened Utility
  import opened InstructionRecords

  datatype DrawInstruction = DrawInstruction(
    shapeName: string,
    scalePercent: Int32,
    startingX: Int32,
    startingY: Int32,
    repeats: Int32,
    repeatOffsetX: Int32,
    repeatOffsetY: Int32,
    filled: bool,
    color: Color,
    rotate: Int32,
    repeatRotate: Int32)

  /** `validateOrDefault`: a scale or repeat count below 1 becomes 1. */
  function ValidateOrDefault(i: DrawInstruction): (r: DrawInstruction)
    ensures r.scalePercent >= 1 && r.repeats >= 1
    ensures i.scalePercent >= 1 && i.repeats >= 1 ==> r == i
    ensures r.(scalePercent := i.scalePercent, repeats := i.repeats) == i
  {
    i.(scalePercent := AtLeastOne(i.scalePercent), repeats := AtLeastOne(i.repeats))
  }

  /** The private eleven-argument constructor: IllegalArgumentException for a null
      or empty shape name or a null colour, otherwise the given values with scale
      and repeat count lifted to at least 1. */
  function Make(shapeName: Option<string>, scalePercent: Int32, startingX: Int32, startingY: Int32,
                repeats: Int32, repeatOffsetX: Int32, repeatOffsetY: Int32, filled: bool,
                color: Option<Color>, rotate: Int32, repeatRotate: Int32): (r: Result<DrawInstruction>)
    ensures r.Ok? <==> shapeName.Some? && |shapeName.value| > 0 && color.Some?
    ensures r.Fail? ==> r.error == IllegalArgument
    ensures r.Ok? ==> r.value == DrawInstruction(shapeName.value, AtLeastOne(scalePercent), startingX, startingY,
                                                 AtLeastOne(repeats), repeatOffsetX, repeatOffsetY, filled,
                                                 color.value, rotate, repeatRotate)
  {
    if shapeName.None? || |shapeName.value| == 0 then Fail(IllegalArgument)
    else if color.None? then Fail(IllegalArgument)
    else
      Ok(ValidateOrDefault(DrawInstruction(shapeName.value, scalePercent, startingX, startingY, repeats,
                                           repeatOffsetX, repeatOffsetY, filled, color.value, rotate, repeatRotate)))
  }

  /** The private no-argument constructor's defaults. */
  function Default(): (r: DrawInstruction)
    ensures r == DrawInstruction("none", 100, 0, 0, 1, 0, 0, true, Black, 0, 0)
  {
    Make(Some("none"), 100, 0, 0, 1, 0, 0, true, Some(Black), 0, 0).value
  }

  /** The locals of `readFromFile` while its fields are being read: the integers set
      so far by key, the shape name and the fill flag. */
  datatype Reading = Reading(values: map<string, Int32>, shapeName: string, filled: bool)

  /** The keys whose value is an integer. */
  const NumericKeys: set<string> :=
    {"scale", "x", "y", "rep", "repoffx", "repoffy", "rotate", "reprot", "red", "green", "blue"}

  /** The value an integer key holds before any field sets it: the default
      instruction's fields, and black for the channels. */
  function DefaultValue(key: string): Int32 {
    if key == "scale" then 100
    else if key == "rep" then 1
    else 0
  }

  /** The state before the first field: the default instruction. */
  const Initial: Reading := Reading(map[], Default().shapeName, Default().filled)

  /** The integer `key` currently holds. */
  function Value(r: Reading, key: string): Int32 {
    if key in r.values then r.values[key] else DefaultValue(key)
  }

  /** `filled` is false only for the value `false`. */
  function FilledValue(value: string): bool {
    value != "false"
  }

  /** The shape name is the value as it stands. */
  function NameValue(value: string): string {
    value
  }

  /** One case of the `switch (cmd)`. */
  function Step(r: Reading, key: string, value: string): Result<Reading> {
    if key == "shape" then Ok(r.(shapeName := NameValue(value)))
    else if key == "filled" then Ok(r.(filled := FilledValue(value)))
    else if key in NumericKeys then
      var n :- ParseInt(value);
      Ok(r.(values := r.values[key := n]))
    else Ok(r)
  }

  /** After the loop: the channels are clamped into a colour. Scale and repeat count
      are taken as read, without the constructor's lift to at least 1. */
  function Finish(r: Reading): (i: DrawInstruction)
    ensures Valid(i.color)
    ensures i.color == LimitedColor(Value(r, "red"), Value(r, "green"), Value(r, "blue"))
    ensures i.scalePercent == Value(r, "scale") && i.repeats == Value(r, "rep")
  {
    DrawInstruction(r.shapeName, Value(r, "scale"), Value(r, "x"), Value(r, "y"), Value(r, "rep"),
                    Value(r, "repoffx"), Value(r, "repoffy"), r.filled,
                    LimitedColor(Value(r, "red"), Value(r, "green"), Value(r, "blue")),
                    Value(r, "rotate"), Value(r, "reprot"))
  }

  /** One draw record: its fields applied in order to the default instruction. */
  function ParseRecord(line: string): Result<DrawInstruction> {
    var r :- ApplyAll(Step, Initial, Fields(line));
    Ok(Finish(r))
  }

  /** `readFromFile`: reads the next line of the remaining input as a draw record,
      and returns it with the input that remains. */
  function ReadFromFile(rest: string): (r: Result<(DrawInstruction, string)>)
    ensures rest == [] ==> r == Fail(NoSuchElement)
    ensures r.Ok? ==> Valid(r.value.0.color) && |r.value.1| < |rest|
  {
    var (line, after) :- NextLine(rest);
    var i :- ParseRecord(line);
    Ok((i, after))
  }

  /** The integer a record gives `key`, or its default when it does not name it. */
  function IntSetting(line: string, key: string): Int32 {
    Setting(Fields(line), key, DefaultValue(key), IntValue)
  }

  /** Each integer key assigns its own local and no other. */
  lemma SlotAssigned(key: string)
    requires key in NumericKeys
    ensures AssignsSlot(Step, (t: Reading) => Value(t, key), key, IntValue)
  {
  }

  /** `shape` assigns the shape name and no other key does. */
  lemma NameSlot()
    ensures AssignsSlot(Step, (t: Reading) => t.shapeName, "shape", NameValue)
  {
  }

  /** `filled` assigns the fill flag and no other key does. */
  lemma FilledSlot()
    ensures AssignsSlot(Step, (t: Reading) => t.filled, "filled", FilledValue)
  {
  }

  /** After the loop, an integer key holds the last value given for it, or its
      default. */
  lemma KeySetting(line: string, key: string)
    requires key in NumericKeys
    requires ApplyAll(Step, Initial, Fields(line)).Ok?
    ensures Value(ApplyAll(Step, Initial, Fields(line)).value, key) == IntSetting(line, key)
  {
    SlotAssigned(key);
    LastWins(Step, (t: Reading) => Value(t, key), key, IntValue, Initial, Fields(line));
  }

  /** A read record's scale and position are the last ones it gives, defaulting to
      100% at (0, 0); the scale is not lifted to at least 1. */
  lemma ParseRecordPlacement(line: string)
    requires ParseRecord(line).Ok?
    ensures var i := ParseRecord(line).value;
      && i.scalePercent == IntSetting(line, "scale")
      && i.startingX == IntSetting(line, "x")
      && i.startingY == IntSetting(line, "y")
  {
    var r := ApplyAll(Step, Initial, Fields(line)).value;
    assert ParseRecord(line) == Ok(Finish(r));
    KeySetting(line, "scale");
    KeySetting(line, "x");
    KeySetting(line, "y");
  }

  /** A read record's repeat count and offsets are the last ones it gives,
      defaulting to 1 and (0, 0); the count is not lifted to at least 1. */
  lemma ParseRecordRepeats(line: string)
    requires ParseRecord(line).Ok?
    ensures var i := ParseRecord(line).value;
      && i.repeats == IntSetting(line, "rep")
      && i.repeatOffsetX == IntSetting(line, "repoffx")
      && i.repeatOffsetY == IntSetting(line, "repoffy")
  {
    var r := ApplyAll(Step, Initial, Fields(line)).value;
    assert ParseRecord(line) == Ok(Finish(r));
    KeySetting(line, "rep");
    KeySetting(line, "repoffx");
    KeySetting(line, "repoffy");
  }

  /** A read record's rotations are the last ones it gives, defaulting to 0. */
  lemma ParseRecordRotation(line: string)
    requires ParseRecord(line).Ok?
    ensures var i := ParseRecord(line).value;
      && i.rotate == IntSetting(line, "rotate")
      && i.repeatRotate == IntSetting(line, "reprot")
  {
    var r := ApplyAll(Step, Initial, Fields(line)).value;
    assert ParseRecord(line) == Ok(Finish(r));
    KeySetting(line, "rotate");
    KeySetting(line, "reprot");
  }

  /** A read record's colour comes from the last channels it gives, 0 each when
      missing, clamped to [0, 255]. */
  lemma ParseRecordColor(line: string)
    requires ParseRecord(line).Ok?
    ensures ParseRecord(line).value.color ==
      LimitedColor(IntSetting(line, "red"), IntSetting(line, "green"), IntSetting(line, "blue"))
  {
    var r := ApplyAll(Step, Initial, Fields(line)).value;
    assert ParseRecord(line) == Ok(Finish(r));
    KeySetting(line, "red");
    KeySetting(line, "green");
    KeySetting(line, "blue");
  }

  /** A read record's shape name is the last `shape` value it gives, trimmed and
      lower-cased, and `none` when it gives none; an empty name is let through. */
  lemma ParseRecordShape(line: string)
    requires ParseRecord(line).Ok?
    ensures ParseRecord(line).value.shapeName == Setting(Fields(line), "shape", "none", NameValue)
    ensures forall k :: 0 <= k < |ParseRecord(line).value.shapeName| ==> !IsUpper(ParseRecord(line).value.shapeName[k])
  {
    var fields := Fields(line);
    var r := ApplyAll(Step, Initial, fields).value;
    assert ParseRecord(line) == Ok(Finish(r));
    NameSlot();
    LastWins(Step, (t: Reading) => t.shapeName, "shape", NameValue, Initial, fields);
    ShapeSettingLower(fields);
  }

  /** The shape name a list of fields settles on has no upper-case letter. */
  lemma ShapeSettingLower(fields: seq<string>)
    ensures var name := Setting(fields, "shape", "none", NameValue);
      forall k :: 0 <= k < |name| ==> !IsUpper(name[k])
  {
    var name := Setting(fields, "shape", "none", NameValue);
    match LastIndex(fields, "shape")
    case None =>
      assert name == "none";
      assert |name| == 4 && name[0] == 'n' && name[1] == 'o' && name[2] == 'n' && name[3] == 'e';
    case Some(i) =>
      var pieces := Split(fields[i], '=');
      assert name == ToLower(Trim(pieces[1]));
  }

  /** A read record is drawn in outline only when its last `filled` value is
      `false`, whatever its case and padding; any other value, or none, fills. */
  lemma ParseRecordFilled(line: string)
    requires ParseRecord(line).Ok?
    ensures ParseRecord(line).value.filled <==> LastValue(Fields(line), "filled") != Some("false")
  {
    var fields := Fields(line);
    var r := ApplyAll(Step, Initial, fields).value;
    assert ParseRecord(line) == Ok(Finish(r));
    FilledSlot();
    LastWins(Step, (t: Reading) => t.filled, "filled", FilledValue, Initial, fields);
  }

  /** A record that names no known key reads as the default instruction. */
  lemma NoKeysGivesDefault(line: string)
    requires ParseRecord(line).Ok?
    requires !AnyKey(Fields(line), NumericKeys + {"shape", "filled"})
    ensures ParseRecord(line).value == Default()
  {
    var i := ParseRecord(line).value;
    assert i.scalePercent == 100 && i.startingX == 0 && i.startingY == 0 by {
      ParseRecordPlacement(line);
      Unnamed(line, "scale");
      Unnamed(line, "x");
      Unnamed(line, "y");
    }
    assert i.repeats == 1 && i.repeatOffsetX == 0 && i.repeatOffsetY == 0 by {
      ParseRecordRepeats(line);
      Unnamed(line, "rep");
      Unnamed(line, "repoffx");
      Unnamed(line, "repoffy");
    }
    assert i.rotate == 0 && i.repeatRotate == 0 by {
      ParseRecordRotation(line);
      Unnamed(line, "rotate");
      Unnamed(line, "reprot");
    }
    assert i.color == Black by {
      ParseRecordColor(line);
      Unnamed(line, "red");
      Unnamed(line, "green");
      Unnamed(line, "blue");
    }
    assert i.shapeName == "none" by {
      ParseRecordShape(line);
      Unnamed(line, "shape");
    }
    assert i.filled by {
      ParseRecordFilled(line);
      Unnamed(line, "filled");
    }
  }

  /** A key that no field of the record names keeps its default. */
  lemma Unnamed(line: string, key: string)
    requires key in NumericKeys + {"shape", "filled"}
    requires !AnyKey(Fields(line), NumericKeys + {"shape", "filled"})
    ensures LastValue(Fields(line), key) == None
    ensures key in NumericKeys ==> IntSetting(line, key) == DefaultValue(key)
  {
    var fields := Fields(line);
    forall k | 0 <= k < |fields|
      ensures !HasKey(fields[k], key)
    {
      assert !(KeyValue(fields[k]).Ok? && KeyValue(fields[k]).value.0 in NumericKeys + {"shape", "filled"});
    }
  }

  /** A field's value must parse as an integer when its key is an integer key. */
  predicate Accepts(key: string, value: string) {
    key in NumericKeys ==> ParseInt(value).Ok?
  }

  /** A draw record reads without an exception exactly when every field contains
      `=` before some non-empty text and every integer key's value is an integer. */
  lemma ParseRecordSucceeds(line: string)
    ensures ParseRecord(line).Ok? <==>
      forall i :: 0 <= i < |Fields(line)| ==> FieldAccepted(Accepts, Fields(line)[i])
  {
    assert forall t, k, v :: Step(t, k, v).Ok? == Accepts(k, v);
    ApplyAllSucceeds(Step, Accepts, Initial, Fields(line));
  }

  /** A field the reader does not know can be removed without changing the result. */
  lemma UnknownKeyIgnored(a: seq<string>, field: string, b: seq<string>)
    requires KeyValue(field).Ok? && KeyValue(field).value.0 !in NumericKeys + {"shape", "filled"}
    ensures ApplyAll(Step, Initial, a + [field] + b) == ApplyAll(Step, Initial, a + b)
  {
    IgnoredFieldDropped(Step, Initial, a, field, b);
  }

  /** A scale below 1 read from a record is kept as it is, where the constructor
      would lift it to 1. */
  lemma SmallScaleKept(n: Int32)
    requires n < 1
    ensures ParseRecord("scale=" + IntToString(n)).Ok?
    ensures ParseRecord("scale=" + IntToString(n)).value.scalePercent == n
    ensures Make(Some("none"), n, 0, 0, 1, 0, 0, true, Some(Black), 0, 0).value.scalePercent == 1
  {
    IntField(Step, Initial, "scale", n);
    assert "scale=" == "scale" + "=";
    var r := Reading(map["scale" := n], "none", true);
    assert Step(Initial, "scale", IntToString(n)) == Ok(r);
    assert Value(r, "scale") == n;
  }
}

=== FILE: drawing.dfy ===
/** `Drawing`: a shape library, the canvas record and the draw records read from a
    drawing file, and the rendering of all of them onto a panel. */
module Drawings {
  import opened Wrappers
  import opened JavaInt
  import opened JavaScanner
  import opened Colors
  import opened Points
  import opened Shapes
  import opened ShapeLibrary
  import opened CanvasInstructions
  import opened DrawInstructions
  import opened Graphics
  import opened Gradients

  datatype Drawing = Drawing(library: Library, canvas: CanvasInstruction, instructions: seq<DrawInstruction>)

  // ---------------------------------------------------------------------------
  // Reading a drawing file
  // ---------------------------------------------------------------------------

  /** The constructor's loop: while the scanner still has a token, one draw record
      per line, in file order. */
  function ReadInstructions(rest: string): (r: Result<seq<DrawInstruction>>)
    ensures r.Ok? ==> forall k :: 0 <= k < |r.value| ==> Valid(r.value[k].color)
    decreases |rest|
  {
    if !HasNext(rest) then Ok([])
    else
      var (d, after) :- DrawInstructions.ReadFromFile(rest);
      var ds :- ReadInstructions(after);
      Ok([d] + ds)
  }

  /** The constructor: the first line is the canvas record, every later line a draw
      record. */
  function NewDrawing(library: Library, content: string): (r: Result<Drawing>)
    ensures content == [] ==> r == Fail(NoSuchElement)
    ensures r.Ok? ==> r.value.library == library && WellFormed(r.value.canvas)
  {
    var (canvas, rest) :- CanvasInstructions.ReadFromFile(content);
    var ds :- ReadInstructions(rest);
    Ok(Drawing(library, canvas, ds))
  }

  /** Lines written one after another, each ended by a newline. */
  function Lines(ls: seq<string>): string {
    if |ls| == 0 then "" else ls[0] + "\n" + Lines(ls[1..])
  }

  /** A line the drawing reader takes as one record: no line separator inside, and
      some character that is not whitespace. */
  predicate RecordLine(line: string) {
    (forall k :: 0 <= k < |line| ==> !IsLineTerminator(line[k])) && HasNext(line)
  }

  /** A file made of record lines yields one draw instruction per line, each the
      record parsed from that line, in order. */
  lemma ReadsEveryLine(ls: seq<string>)
    requires forall k :: 0 <= k < |ls| ==> RecordLine(ls[k]) && DrawInstructions.ParseRecord(ls[k]).Ok?
    ensures ReadInstructions(Lines(ls)).Ok?
    ensures |ReadInstructions(Lines(ls)).value| == |ls|
    ensures forall k :: 0 <= k < |ls| ==>
      ReadInstructions(Lines(ls)).value[k] == DrawInstructions.ParseRecord(ls[k]).value
  {
    ReadsLines(ls);
    OkValuesAt(DrawInstructions.ParseRecord, ls);
  }

  /** The values `f` gives on each line, in order, when every one is `Ok`. */
  function OkValues<T>(f: string -> Result<T>, ls: seq<string>): seq<T>
    requires forall k :: 0 <= k < |ls| ==> f(ls[k]).Ok?
  {
    if |ls| == 0 then [] else [f(ls[0]).value] + OkValues(f, ls[1..])
  }

  /** The reader's result on record lines is the records parsed line by line. */
  lemma {:induction false} ReadsLines(ls: seq<string>)
    requires forall k :: 0 <= k < |ls| ==> RecordLine(ls[k]) && DrawInstructions.ParseRecord(ls[k]).Ok?
    ensures ReadInstructions(Lines(ls)) == Ok(OkValues(DrawInstructions.ParseRecord, ls))
    decreases |ls|
  {
    if |ls| > 0 {
      var more := ls[1..];
      ReadsLines(more);
      assert Lines(ls) == ls[0] + "\n" + Lines(more);
      ReadsFirstLine(ls[0], Lines(more));
    } else {
      NothingLeft();
    }
  }

  /** Entry `k` of the values is `f`'s value on line `k`. */
  lemma {:induction false} OkValuesAt<T>(f: string -> Result<T>, ls: seq<string>)
    requires forall k :: 0 <= k < |ls| ==> f(ls[k]).Ok?
    ensures |OkValues(f, ls)| == |ls|
    ensures forall k :: 0 <= k < |ls| ==> OkValues(f, ls)[k] == f(ls[k]).value
    decreases |ls|
  {
    if |ls| > 0 {
      var more := ls[1..];
      OkValuesAt(f, more);
      forall k | 0 < k < |ls|
        ensures OkValues(f, ls)[k] == f(ls[k]).value
      {
        assert ls[k] == more[k - 1];
      }
    }
  }

  /** A record line followed by more text is read as its record, then the rest. */
  lemma ReadsFirstLine(first: string, tail: string)
    requires RecordLine(first) && DrawInstructions.ParseRecord(first).Ok?
    requires ReadInstructions(tail).Ok?
    ensures ReadInstructions(first + "\n" + tail) ==
      Ok([DrawInstructions.ParseRecord(first).value] + ReadInstructions(tail).value)
  {
    NextLineReadsLine(first, tail);
    assert HasNext(first + "\n" + tail) by {
      HasNextPrefix(first, "\n" + tail);
      JavaString.ConcatAssoc(first, "\n", tail);
    }
  }

  /** The empty text has no token. */
  lemma NothingLeft()
    ensures !HasNext("")
  {
  }

  /** A token in a prefix is a token of the whole text. */
  lemma HasNextPrefix(a: string, b: string)
    requires HasNext(a)
    ensures HasNext(a + b)
  {
    var k :| 0 <= k < |a| && !IsWhitespace(a[k]);
    assert (a + b)[k] == a[k];
  }

  /** The whole file: the canvas record on the first line and one draw record on
      each line after it. */
  lemma NewDrawingReadsLines(library: Library, first: string, ls: seq<string>)
    requires forall k :: 0 <= k < |first| ==> !IsLineTerminator(first[k])
    requires CanvasInstructions.ParseRecord(first).Ok?
    requires forall k :: 0 <= k < |ls| ==> RecordLine(ls[k]) && DrawInstructions.ParseRecord(ls[k]).Ok?
    ensures NewDrawing(library, first + "\n" + Lines(ls)).Ok?
    ensures var dr := NewDrawing(library, first + "\n" + Lines(ls)).value;
      && dr.canvas == CanvasInstructions.ParseRecord(first).value
      && |dr.instructions| == |ls|
      && forall k :: 0 <= k < |ls| ==> dr.instructions[k] == DrawInstructions.ParseRecord(ls[k]).value
  {
    NextLineReadsLine(first, Lines(ls));
    ReadsEveryLine(ls);
  }

  /** A blank line, or any line without `=` or `,`, between records stops the reader
      with an index-out-of-bounds error; blank lines at the very end are harmless
      because no token follows them. */
  lemma LineWithoutEqualsFails(line: string, after: string)
    requires forall k :: 0 <= k < |line| ==> !IsLineTerminator(line[k])
    requires '=' !in line && ',' !in line
    requires HasNext(after)
    ensures ReadInstructions(line + "\n" + after) == Fail(IndexOutOfBounds)
  {
    var text := line + "\n" + after;
    assert HasNext(text) by {
      HasNextSuffix(line + "\n", after);
    }
    assert DrawInstructions.ParseRecord(line) == Fail(IndexOutOfBounds) by {
      InstructionRecords.SingleField(line);
      assert InstructionRecords.KeyValue(line).Fail?;
    }
    NextLineReadsLine(line, after);
  }

  /** A token after some text is still a token of the whole. */
  lemma HasNextSuffix(a: string, b: string)
    requires HasNext(b)
    ensures HasNext(a + b)
  {
    var k :| 0 <= k < |b| && !IsWhitespace(b[k]);
    assert (a + b)[|a| + k] == b[k];
  }

  // ---------------------------------------------------------------------------
  // The engine: one figure through scale, translate, repeat and rotate
  // ---------------------------------------------------------------------------

  /** `Drawing.MIN_VALUE`: a starting coordinate asking for random placement. */
  const RANDOM: Int32 := MIN_VALUE

  /** `drawFigure`: the working polygon, filled or outlined as the instruction says. */
  function Figure(d: DrawInstruction, p: Polygon): Event {
    if d.filled then FillPolygon(p.xs, p.ys) else DrawPolygon(p.xs, p.ys)
  }

  /** What every figure an instruction emits looks like: a polygon, filled exactly
      when the instruction is filled, over `n` vertices. */
  predicate Figures(d: DrawInstruction, n: nat, evs: seq<Event>) {
    forall k :: 0 <= k < |evs| ==>
      && IsPolygon(evs[k])
      && (evs[k].FillPolygon? <==> d.filled)
      && |evs[k].xs| == n && |evs[k].ys| == n
  }

  /** `(int)(coordinate * (scalePercent / 100.0))`, taken exactly. */
  function ScaleCoordinate(v: real, scalePercent: Int32): Int32 {
    CastToInt(v * (scalePercent as real / 100.0))
  }

  /** The working arrays filled from the shape's points, scaled. */
  function ScaledShape(s: Shape, scalePercent: Int32): (p: Polygon)
    ensures Matched(p) && |p.xs| == |s.points|
  {
    Polygon(seq(|s.points|, k requires 0 <= k < |s.points| => ScaleCoordinate(s.points[k].x, scalePercent)),
            seq(|s.points|, k requires 0 <= k < |s.points| => ScaleCoordinate(s.points[k].y, scalePercent)))
  }

  /** A template in the 100 by 100 frame, scaled by a non-negative percentage, lands
      in the box from 0 to that percentage; at 100 percent, integer coordinates are
      kept exactly. */
  lemma ScaledShapeInBox(s: Shape, scalePercent: Int32, k: nat)
    requires Utility.InFrame(s) && scalePercent >= 0 && k < |s.points|
    ensures 0 <= ScaledShape(s, scalePercent).xs[k] <= scalePercent
    ensures 0 <= ScaledShape(s, scalePercent).ys[k] <= scalePercent
    ensures scalePercent == 100 && s.points[k].x == s.points[k].x.Floor as real ==>
              ScaledShape(s, scalePercent).xs[k] == s.points[k].x.Floor
  {
    var f := scalePercent as real / 100.0;
    ScaleBound(s.points[k].x, scalePercent);
    ScaleBound(s.points[k].y, scalePercent);
    if scalePercent == 100 && s.points[k].x == s.points[k].x.Floor as real {
      assert f == 1.0;
      assert s.points[k].x * f == s.points[k].x;
      var n := s.points[k].x.Floor;
      assert 0 <= n <= 100;
      CastExact(n);
    }
  }

  /** One coordinate of the frame scaled by a non-negative percentage. */
  lemma ScaleBound(v: real, scalePercent: Int32)
    requires 0.0 <= v <= 100.0 && scalePercent >= 0
    ensures 0 <= ScaleCoordinate(v, scalePercent) <= scalePercent
  {
    var f := scalePercent as real / 100.0;
    assert f >= 0.0;
    RealScaleBelow(v, 100.0, f);
    assert 100.0 * f == scalePercent as real;
    var x := v * f;
    assert 0.0 <= x <= scalePercent as real;
    var r := CastToInt(x);
    assert r as real <= scalePercent as real;
  }

  /** Scaling by a non-negative factor keeps non-negative values in order. */
  lemma RealScaleBelow(a: real, b: real, f: real)
    requires 0.0 <= a <= b && f >= 0.0
    ensures 0.0 <= a * f <= b * f
  {
  }

  /** Every vertex moved by (dx, dy) with Java `+=`. */
  function Shift(p: Polygon, dx: Int32, dy: Int32): (r: Polygon)
    requires Matched(p)
    ensures Matched(r) && |r.xs| == |p.xs|
    ensures forall k :: 0 <= k < |p.xs| ==> r.xs[k] == Add(p.xs[k], dx) && r.ys[k] == Add(p.ys[k], dy)
  {
    Polygon(seq(|p.xs|, k requires 0 <= k < |p.xs| => Add(p.xs[k], dx)),
            seq(|p.xs|, k requires 0 <= k < |p.xs| => Add(p.ys[k], dy)))
  }

  /** Every vertex moved back by (dx, dy) with Java `-=`. */
  function Unshift(p: Polygon, dx: Int32, dy: Int32): (r: Polygon)
    requires Matched(p)
    ensures Matched(r) && |r.xs| == |p.xs|
    ensures forall k :: 0 <= k < |p.xs| ==> r.xs[k] == Sub(p.xs[k], dx) && r.ys[k] == Sub(p.ys[k], dy)
  {
    Polygon(seq(|p.xs|, k requires 0 <= k < |p.xs| => Sub(p.xs[k], dx)),
            seq(|p.xs|, k requires 0 <= k < |p.xs| => Sub(p.ys[k], dy)))
  }

  /** Moving back undoes moving, wrap-around or not. */
  lemma UnshiftShift(p: Polygon, dx: Int32, dy: Int32)
    requires Matched(p)
    ensures Unshift(Shift(p, dx, dy), dx, dy) == p
  {
    var r := Unshift(Shift(p, dx, dy), dx, dy);
    forall k | 0 <= k < |p.xs|
      ensures r.xs[k] == p.xs[k] && r.ys[k] == p.ys[k]
    {
      AddThenSub(p.xs[k], dx);
      AddThenSub(p.ys[k], dy);
    }
  }

  /** The translation step: by the starting point, unless both coordinates are the
      random sentinel. */
  function Translate(d: DrawInstruction, p: Polygon): (r: Polygon)
    requires Matched(p)
    ensures Matched(r) && |r.xs| == |p.xs|
    ensures d.startingX == RANDOM && d.startingY == RANDOM ==> r == p
    ensures d.startingX != RANDOM || d.startingY != RANDOM ==>
      forall k :: 0 <= k < |p.xs| ==> r.xs[k] == Add(p.xs[k], d.startingX) && r.ys[k] == Add(p.ys[k], d.startingY)
  {
    if d.startingX != RANDOM || d.startingY != RANDOM then Shift(p, d.startingX, d.startingY) else p
  }

  /** The angle `rotate` turns by: the `rotate` field when it exceeds 1, otherwise the
      per-repeat rotation. */
  function RotationAngle(d: DrawInstruction): (a: Int32)
    ensures d.rotate > 1 ==> a == d.rotate
    ensures d.rotate <= 1 ==> a == d.repeatRotate
  {
    if d.rotate > 1 then d.rotate else d.repeatRotate
  }

  /** The centre `rotate` turns about: the starting point moved by half the scale
      percentage on both axes, in Java `int` arithmetic. */
  function RotationCentre(d: DrawInstruction): (Int32, Int32) {
    var half := Div(d.scalePercent, 2);
    (Add(d.startingX, half), Add(d.startingY, half))
  }

  /** Without overflow the centre is the starting point plus half the scale, the half
      rounded toward zero (so a negative scale of -3 moves it by -1, not -2). */
  lemma RotationCentreValue(d: DrawInstruction)
    requires InRange(d.startingX + d.scalePercent / 2) && InRange(d.startingY + d.scalePercent / 2)
    requires InRange(d.startingX - (-(d.scalePercent as int)) / 2) && InRange(d.startingY - (-(d.scalePercent as int)) / 2)
    ensures d.scalePercent >= 0 ==>
      RotationCentre(d) == (d.startingX + d.scalePercent / 2, d.startingY + d.scalePercent / 2)
    ensures d.scalePercent < 0 ==>
      RotationCentre(d) == (d.startingX - (-(d.scalePercent as int)) / 2, d.startingY - (-(d.scalePercent as int)) / 2)
  {
    var s: int := d.scalePercent;
    assert InRange(s);
    if s >= 0 {
      DivNonNegative(s, 2);
    } else {
      assert Abs(s) == -s;
      var q := (-s) / 2;
      assert 0 <= q <= -s by { QuotientBound(-s, 2); }
      assert Quot(s, 2) == -q;
      assert Div(s, 2) == -q;
    }
  }

  /** `rotate`: every vertex turned about the centre by the selected angle. */
  function Rotate(env: Env, d: DrawInstruction, p: Polygon): (r: Polygon)
    requires Matched(p)
    ensures Matched(r) && |r.xs| == |p.xs|
  {
    var (cx, cy) := RotationCentre(d);
    RotatePolygon(env, RotationAngle(d), cx, cy, p)
  }

  /** `(int)(Math.random() * extent)`. */
  function RandomOffset(u: real, extent: Int32): Int32 {
    CastToInt(u * extent as real)
  }

  /** A random number in [0, 1) scaled to a positive canvas extent gives an offset
      inside the canvas. */
  lemma RandomOffsetInside(u: real, extent: Int32)
    requires 0.0 <= u < 1.0 && extent >= 1
    ensures 0 <= RandomOffset(u, extent) < extent
  {
    var x := u * extent as real;
    assert 0.0 <= x < extent as real;
    var r := RandomOffset(u, extent);
    assert r as real <= x;
  }

  /** How many random numbers one `repeat` call draws: one per sentinel axis. */
  function RandomAxes(d: DrawInstruction): nat {
    (if d.startingX == RANDOM then 1 else 0) + (if d.startingY == RANDOM then 1 else 0)
  }

  /** The working polygon, the events emitted so far and the number of random
      numbers drawn so far. */
  datatype Pass = Pass(polygon: Polygon, events: seq<Event>, draws: nat)

  /** `repeat`: the offsets (random on a sentinel axis, the instruction's own
      otherwise), the figure moved by them and drawn, and the move undone afterwards
      when either axis is random. */
  function Repeat(env: Env, canvas: CanvasInstruction, d: DrawInstruction, p: Polygon, draws: nat): (r: Pass)
    requires Matched(p)
    ensures Matched(r.polygon) && |r.polygon.xs| == |p.xs|
    ensures |r.events| == 1 && Figures(d, |p.xs|, r.events)
    ensures r.draws == draws + RandomAxes(d)
  {
    var ox := if d.startingX == RANDOM then RandomOffset(env.random(draws), canvas.width) else d.repeatOffsetX;
    var drawsX := draws + (if d.startingX == RANDOM then 1 else 0);
    var oy := if d.startingY == RANDOM then RandomOffset(env.random(drawsX), canvas.height) else d.repeatOffsetY;
    var drawsY := drawsX + (if d.startingY == RANDOM then 1 else 0);
    var moved := Shift(p, ox, oy);
    var after := if d.startingX == RANDOM || d.startingY == RANDOM then Unshift(moved, ox, oy) else moved;
    Pass(after, [Figure(d, moved)], drawsY)
  }

  /** With a random axis, `repeat` hands back the polygon it was given. */
  lemma RepeatRestores(env: Env, canvas: CanvasInstruction, d: DrawInstruction, p: Polygon, draws: nat)
    requires Matched(p)
    requires d.startingX == RANDOM || d.startingY == RANDOM
    ensures Repeat(env, canvas, d, p, draws).polygon == p
  {
    var ox := if d.startingX == RANDOM then RandomOffset(env.random(draws), canvas.width) else d.repeatOffsetX;
    var drawsX := draws + (if d.startingX == RANDOM then 1 else 0);
    var oy := if d.startingY == RANDOM then RandomOffset(env.random(drawsX), canvas.height) else d.repeatOffsetY;
    UnshiftShift(p, ox, oy);
  }

  /** With fixed placement, `repeat` leaves the polygon moved by the instruction's
      offsets, draws it there and uses no random numbers. */
  lemma RepeatMoves(env: Env, canvas: CanvasInstruction, d: DrawInstruction, p: Polygon, draws: nat)
    requires Matched(p)
    requires d.startingX != RANDOM && d.startingY != RANDOM
    ensures var r := Repeat(env, canvas, d, p, draws);
      && r.polygon == Shift(p, d.repeatOffsetX, d.repeatOffsetY)
      && r.events == [Figure(d, r.polygon)]
      && r.draws == draws
  {
  }

  /** The `for (d = 0; d < numRepeat - 1; d++)` loop with `count` passes left: turn
      first when the per-repeat rotation is positive (drawing the turned figure),
      then `repeat`. */
  function RepeatLoop(env: Env, canvas: CanvasInstruction, d: DrawInstruction, p: Polygon, draws: nat, count: nat): (r: Pass)
    requires Matched(p)
    ensures Matched(r.polygon) && |r.polygon.xs| == |p.xs|
    ensures Figures(d, |p.xs|, r.events)
    decreases count
  {
    if count == 0 then Pass(p, [], draws)
    else
      var q := if d.repeatRotate > 0 then Rotate(env, d, p) else p;
      var turned := if d.repeatRotate > 0 then [Figure(d, q)] else [];
      var one := Repeat(env, canvas, d, q, draws);
      var rest := RepeatLoop(env, canvas, d, one.polygon, one.draws, count - 1);
      Pass(rest.polygon, turned + one.events + rest.events, rest.draws)
  }

  /** Each pass of the repeat loop draws one figure, two when it also turns, and draws
      one random number per sentinel axis. */
  lemma {:induction false} RepeatLoopCounts(env: Env, canvas: CanvasInstruction, d: DrawInstruction, p: Polygon,
                                            draws: nat, count: nat)
    requires Matched(p)
    ensures |RepeatLoop(env, canvas, d, p, draws, count).events| == count * (if d.repeatRotate > 0 then 2 else 1)
    ensures RepeatLoop(env, canvas, d, p, draws, count).draws == draws + count * RandomAxes(d)
    decreases count
  {
    if count > 0 {
      var q := if d.repeatRotate > 0 then Rotate(env, d, p) else p;
      var one := Repeat(env, canvas, d, q, draws);
      RepeatLoopCounts(env, canvas, d, one.polygon, one.draws, count - 1);
      var w := if d.repeatRotate > 0 then 2 else 1;
      assert count * w == (count - 1) * w + w;
      assert count * RandomAxes(d) == (count - 1) * RandomAxes(d) + RandomAxes(d);
    }
  }

  /** Every vertex advanced `n` times by (ox, oy): what `n` Java `+=` steps leave. */
  function Advanced(p: Polygon, n: nat, ox: Int32, oy: Int32): (r: Polygon)
    requires Matched(p)
    ensures Matched(r) && |r.xs| == |p.xs|
  {
    Polygon(seq(|p.xs|, k requires 0 <= k < |p.xs| => Wrap(p.xs[k] + n * ox)),
            seq(|p.xs|, k requires 0 <= k < |p.xs| => Wrap(p.ys[k] + n * oy)))
  }

  /** One more step of the same offset. */
  lemma AdvanceStep(p: Polygon, n: nat, ox: Int32, oy: Int32)
    requires Matched(p)
    ensures Shift(Advanced(p, n, ox, oy), ox, oy) == Advanced(p, n + 1, ox, oy)
  {
    var a := Advanced(p, n, ox, oy);
    var b := Advanced(p, n + 1, ox, oy);
    var s := Shift(a, ox, oy);
    forall k | 0 <= k < |p.xs|
      ensures s.xs[k] == b.xs[k] && s.ys[k] == b.ys[k]
    {
      AddAccumulates(p.xs[k], ox, n);
      AddAccumulates(p.ys[k], oy, n);
    }
  }

  /** Fixed placement without per-repeat rotation: the offsets accumulate, so the
      figure of pass `k` (counting from 0) sits `m + k + 1` offsets away from where
      the loop started `m` offsets away. */
  lemma {:induction false} OffsetsAccumulate(env: Env, canvas: CanvasInstruction, d: DrawInstruction, p: Polygon,
                                             m: nat, draws: nat, count: nat)
    requires Matched(p)
    requires d.startingX != RANDOM && d.startingY != RANDOM && d.repeatRotate <= 0
    ensures var r := RepeatLoop(env, canvas, d, Advanced(p, m, d.repeatOffsetX, d.repeatOffsetY), draws, count);
      && |r.events| == count
      && r.polygon == Advanced(p, m + count, d.repeatOffsetX, d.repeatOffsetY)
      && forall k :: 0 <= k < count ==>
           r.events[k] == Figure(d, Advanced(p, m + k + 1, d.repeatOffsetX, d.repeatOffsetY))
    decreases count
  {
    var ox := d.repeatOffsetX;
    var oy := d.repeatOffsetY;
    var start := Advanced(p, m, ox, oy);
    RepeatLoopCounts(env, canvas, d, start, draws, count);
    if count == 0 {
    } else {
      AdvanceStep(p, m, ox, oy);
      RepeatMoves(env, canvas, d, start, draws);
      var one := Repeat(env, canvas, d, start, draws);
      assert one.polygon == Advanced(p, m + 1, ox, oy);
      OffsetsAccumulate(env, canvas, d, p, m + 1, draws, count - 1);
      var r := RepeatLoop(env, canvas, d, start, draws, count);
      var rest := RepeatLoop(env, canvas, d, one.polygon, one.draws, count - 1);
      assert r.events == one.events + rest.events;
      forall k | 0 <= k < count
        ensures r.events[k] == Figure(d, Advanced(p, m + k + 1, ox, oy))
      {
        if k == 0 {
          assert r.events[0] == one.events[0];
        } else {
          assert r.events[k] == rest.events[k - 1];
          assert (m + 1) + (k - 1) + 1 == m + k + 1;
        }
      }
    }
  }

  /** Random placement without per-repeat rotation: every pass starts again from the
      same polygon, so the loop ends where it began. */
  lemma {:induction false} RandomRepeatsReturn(env: Env, canvas: CanvasInstruction, d: DrawInstruction, p: Polygon,
                                               draws: nat, count: nat)
    requires Matched(p)
    requires (d.startingX == RANDOM || d.startingY == RANDOM) && d.repeatRotate <= 0
    ensures RepeatLoop(env, canvas, d, p, draws, count).polygon == p
    decreases count
  {
    if count > 0 {
      RepeatRestores(env, canvas, d, p, draws);
      var one := Repeat(env, canvas, d, p, draws);
      RandomRepeatsReturn(env, canvas, d, one.polygon, one.draws, count - 1);
    }
  }

  /** The number of passes of the repeat loop for a repeat count. */
  function RepeatPasses(repeats: Int32): nat {
    if repeats > 1 then repeats - 1 else 0
  }

  /** Everything `draw` does for one instruction: look up the shape, scale it, set
      the colour, translate and draw it, run the repeat loop, and turn and draw once
      more when `rotate` exceeds 1. An empty library is an index-out-of-bounds error. */
  function Render(env: Env, canvas: CanvasInstruction, library: Library, d: DrawInstruction, draws: nat): (r: Result<Pass>)
    ensures r.Fail? <==> |library.shapes| == 0
    ensures r.Fail? ==> r.error == IndexOutOfBounds
  {
    var shape :- GetShapeByName(library, d.shapeName);
    var placed := Translate(d, ScaledShape(shape, d.scalePercent));
    var loop := RepeatLoop(env, canvas, d, placed, draws, RepeatPasses(d.repeats));
    var last := if d.rotate > 1 then [Figure(d, Rotate(env, d, loop.polygon))] else [];
    Ok(Pass(loop.polygon, [SetColor(d.color), Figure(d, placed)] + loop.events + last, loop.draws))
  }

  /** The scaled shape an instruction names, translated: the first figure it draws. */
  function Placed(library: Library, d: DrawInstruction): (p: Polygon)
    requires |library.shapes| > 0
    ensures Matched(p) && |p.xs| == |GetShapeByName(library, d.shapeName).value.points|
  {
    Translate(d, ScaledShape(GetShapeByName(library, d.shapeName).value, d.scalePercent))
  }

  /** One instruction's events: the colour, the placed figure, the repeat loop's
      figures and the final turned figure. */
  lemma RenderParts(env: Env, canvas: CanvasInstruction, library: Library, d: DrawInstruction, draws: nat)
    requires |library.shapes| > 0
    ensures var loop := RepeatLoop(env, canvas, d, Placed(library, d), draws, RepeatPasses(d.repeats));
      Render(env, canvas, library, d, draws).value.events ==
        [SetColor(d.color), Figure(d, Placed(library, d))] + loop.events +
        (if d.rotate > 1 then [Figure(d, Rotate(env, d, loop.polygon))] else [])
  {
  }

  /** The colour is set first; the first figure is the scaled shape, translated
      unless both axes are random. */
  lemma RenderStart(env: Env, canvas: CanvasInstruction, library: Library, d: DrawInstruction, draws: nat)
    requires |library.shapes| > 0
    ensures var evs := Render(env, canvas, library, d, draws).value.events;
      var shape := GetShapeByName(library, d.shapeName).value;
      && |evs| >= 2
      && evs[0] == SetColor(d.color)
      && evs[1] == Figure(d, Translate(d, ScaledShape(shape, d.scalePercent)))
  {
    RenderParts(env, canvas, library, d, draws);
  }

  /** One instruction emits 1 + max(0, rep - 1) * (1 + [reprot > 0]) + [rotate > 1]
      polygons, after its colour. */
  lemma RenderCount(env: Env, canvas: CanvasInstruction, library: Library, d: DrawInstruction, draws: nat)
    requires |library.shapes| > 0
    ensures var evs := Render(env, canvas, library, d, draws).value.events;
      && |evs| == 2 + RepeatPasses(d.repeats) * (if d.repeatRotate > 0 then 2 else 1) + (if d.rotate > 1 then 1 else 0)
      && PolygonCount(evs) == |evs| - 1
      && (d.repeats <= 1 ==> |evs| == 2 + (if d.rotate > 1 then 1 else 0))
  {
    RenderParts(env, canvas, library, d, draws);
    RenderFigures(env, canvas, library, d, draws);
    RepeatLoopCounts(env, canvas, d, Placed(library, d), draws, RepeatPasses(d.repeats));
    var evs := Render(env, canvas, library, d, draws).value.events;
    AllFigures(evs[1..]);
    PolygonCountAppend([evs[0]], evs[1..]);
    assert [evs[0]] + evs[1..] == evs;
    assert PolygonCount([evs[0]]) == 0 by {
      assert [evs[0]][..0] == [];
    }
  }

  /** Every event after the colour is a polygon, filled exactly when the instruction
      is filled, with as many vertices as the shape it names. */
  lemma RenderFigures(env: Env, canvas: CanvasInstruction, library: Library, d: DrawInstruction, draws: nat)
    requires |library.shapes| > 0
    ensures var evs := Render(env, canvas, library, d, draws).value.events;
      |evs| >= 1 && Figures(d, |GetShapeByName(library, d.shapeName).value.points|, evs[1..])
  {
    RenderParts(env, canvas, library, d, draws);
    var placed := Placed(library, d);
    var n := |placed.xs|;
    var loop := RepeatLoop(env, canvas, d, placed, draws, RepeatPasses(d.repeats));
    var last := if d.rotate > 1 then [Figure(d, Rotate(env, d, loop.polygon))] else [];
    OneFigure(d, placed);
    if d.rotate > 1 {
      OneFigure(d, Rotate(env, d, loop.polygon));
    }
    FiguresAppend(d, n, [Figure(d, placed)], loop.events);
    FiguresAppend(d, n, [Figure(d, placed)] + loop.events, last);
    TailOfPair(SetColor(d.color), Figure(d, placed), loop.events, last);
  }

  /** Dropping the head of `[x, y] + a + b` leaves `[y] + a + b`. */
  lemma TailOfPair<T>(x: T, y: T, a: seq<T>, b: seq<T>)
    ensures ([x, y] + a + b)[1..] == [y] + a + b
  {
  }

  /** One figure of a matched polygon is a figure over its vertices. */
  lemma OneFigure(d: DrawInstruction, p: Polygon)
    requires Matched(p)
    ensures Figures(d, |p.xs|, [Figure(d, p)])
  {
  }

  /** Figures of the same instruction and size can be put one after the other. */
  lemma FiguresAppend(d: DrawInstruction, n: nat, a: seq<Event>, b: seq<Event>)
    requires Figures(d, n, a) && Figures(d, n, b)
    ensures Figures(d, n, a + b)
  {
    forall k | 0 <= k < |a + b|
      ensures IsPolygon((a + b)[k]) && ((a + b)[k].FillPolygon? <==> d.filled)
      ensures |(a + b)[k].xs| == n && |(a + b)[k].ys| == n
    {
      if k < |a| {
        assert (a + b)[k] == a[k];
      } else {
        assert (a + b)[k] == b[k - |a|];
      }
    }
  }

  /** A trace of polygons only counts every event. */
  lemma {:induction false} AllFigures(evs: seq<Event>)
    requires forall k :: 0 <= k < |evs| ==> IsPolygon(evs[k])
    ensures PolygonCount(evs) == |evs|
    decreases |evs|
  {
    if |evs| > 0 {
      AllFigures(evs[..|evs| - 1]);
    }
  }

  /** What `draw` left behind: the events up to the point it stopped, and the
      exception that stopped it, if any. */
  datatype Trace = Trace(events: seq<Event>, error: Option<Exception>)

  /** The instruction loop of `draw`, threading the random numbers drawn. */
  function RenderAll(env: Env, canvas: CanvasInstruction, library: Library, ds: seq<DrawInstruction>, draws: nat): (t: Trace)
    ensures t.error.Some? <==> |library.shapes| == 0 && |ds| > 0
    ensures t.error.Some? ==> t.error.value == IndexOutOfBounds && t.events == []
    decreases |ds|
  {
    if |ds| == 0 then Trace([], None)
    else
      match Render(env, canvas, library, ds[0], draws)
      case Fail(e) => Trace([], Some(e))
      case Ok(pass) =>
        var rest := RenderAll(env, canvas, library, ds[1..], pass.draws);
        Trace(pass.events + rest.events, rest.error)
  }

  /** The background `draw` paints: the gradient painter for a gradient canvas, the
      solid colour otherwise. */
  function Background(env: Env, canvas: CanvasInstruction): seq<Event>
    requires WellFormed(canvas)
  {
    if canvas.isGradient then GradientEvents(env, canvas) else [SetBackground(canvas.colorSolid)]
  }

  /** `draw`: a panel of the canvas size, the background, then every instruction in
      file order. */
  function Draw(env: Env, dr: Drawing): (t: Trace)
    requires WellFormed(dr.canvas)
    ensures |t.events| >= 2 && t.events[0] == OpenPanel(dr.canvas.width, dr.canvas.height)
    ensures t.error.Some? <==> |dr.library.shapes| == 0 && |dr.instructions| > 0
  {
    var bg := Background(env, dr.canvas);
    var rest := RenderAll(env, dr.canvas, dr.library, dr.instructions, 0);
    Trace([OpenPanel(dr.canvas.width, dr.canvas.height)] + bg + rest.events, rest.error)
  }

  /** The background comes straight after the panel: the gradient's bands exactly
      when the canvas is a gradient, otherwise one solid background. */
  lemma DrawBackground(env: Env, dr: Drawing)
    requires WellFormed(dr.canvas)
    ensures var ev := Draw(env, dr).events;
      && (dr.canvas.isGradient ==>
            ev[1..1 + |GradientEvents(env, dr.canvas)|] == GradientEvents(env, dr.canvas))
      && (!dr.canvas.isGradient ==> ev[1] == SetBackground(dr.canvas.colorSolid))
  {
    var bg := Background(env, dr.canvas);
    var rest := RenderAll(env, dr.canvas, dr.library, dr.instructions, 0);
    var ev := Draw(env, dr).events;
    assert ev == [OpenPanel(dr.canvas.width, dr.canvas.height)] + bg + rest.events;
    assert ev[1..1 + |bg|] == bg;
  }

  /** The random numbers drawn once the instructions `ds` are done, starting from
      `draws`. */
  function DrawsAfter(env: Env, canvas: CanvasInstruction, library: Library, ds: seq<DrawInstruction>, draws: nat): nat
    requires |library.shapes| > 0
    decreases |ds|
  {
    if |ds| == 0 then draws
    else DrawsAfter(env, canvas, library, ds[1..], Render(env, canvas, library, ds[0], draws).value.draws)
  }

  /** Instructions are drawn one after another: the events of `ds1 + ds2` are those
      of `ds1`, then those of `ds2`, which starts with the random numbers `ds1` left
      unused. */
  lemma {:induction false} RenderAllAppend(env: Env, canvas: CanvasInstruction, library: Library,
                                           ds1: seq<DrawInstruction>, ds2: seq<DrawInstruction>, draws: nat)
    requires |library.shapes| > 0
    ensures RenderAll(env, canvas, library, ds1 + ds2, draws).events ==
      RenderAll(env, canvas, library, ds1, draws).events +
      RenderAll(env, canvas, library, ds2, DrawsAfter(env, canvas, library, ds1, draws)).events
    decreases |ds1|
  {
    if |ds1| == 0 {
      assert ds1 + ds2 == ds2;
    } else {
      var first := Render(env, canvas, library, ds1[0], draws).value;
      var more := ds1[1..];
      var after := DrawsAfter(env, canvas, library, more, first.draws);
      var rest := RenderAll(env, canvas, library, more, first.draws).events;
      var tail := RenderAll(env, canvas, library, ds2, after).events;
      assert RenderAll(env, canvas, library, ds1 + ds2, draws).events == first.events + (rest + tail) by {
        HeadOfAppend(ds1, ds2);
        RenderAllStep(env, canvas, library, ds1 + ds2, draws);
        RenderAllAppend(env, canvas, library, more, ds2, first.draws);
      }
      assert RenderAll(env, canvas, library, ds1, draws).events == first.events + rest
             && DrawsAfter(env, canvas, library, ds1, draws) == after by {
        RenderAllStep(env, canvas, library, ds1, draws);
      }
      JavaString.ConcatAssoc(first.events, rest, tail);
    }
  }

  /** A non-empty `a` stays at the front of `a + b`. */
  lemma HeadOfAppend<T>(a: seq<T>, b: seq<T>)
    requires |a| > 0
    ensures (a + b)[0] == a[0] && (a + b)[1..] == a[1..] + b
  {
  }

  /** One instruction, then the rest from the random numbers it left unused. */
  lemma RenderAllStep(env: Env, canvas: CanvasInstruction, library: Library, ds: seq<DrawInstruction>, draws: nat)
    requires |library.shapes| > 0 && |ds| > 0
    ensures var first := Render(env, canvas, library, ds[0], draws).value;
      && RenderAll(env, canvas, library, ds, draws).events ==
           first.events + RenderAll(env, canvas, library, ds[1..], first.draws).events
      && DrawsAfter(env, canvas, library, ds, draws) == DrawsAfter(env, canvas, library, ds[1..], first.draws)
  {
  }
}

=== FILE: gradient.dfy ===
/** The gradient painter of `Drawing`: one coloured band per step, laid out by the
    canvas's gradient direction, followed by the panel background. */
module Gradients {
  import opened Wrappers
  import opened JavaInt
  import opened Colors
  import opened Graphics
  import opened CanvasInstructions

  /** The number of passes the painter makes. The loop starts with `steps = 100`;
      directions 2 and 3 overwrite `steps` with 150 and 110 during the first pass, and
      the loop bound is read again after it. */
  function BandCount(direction: Int32): nat {
    if direction == 2 then 150 else if direction == 3 then 110 else 100
  }

  /** One channel of a band's colour: `(int)(end * ratio + start * (1 - ratio))` with
      `ratio = i / steps`, the arithmetic taken exactly. The channel always lies between
      the two ends, and the first band has the start channel. */
  function Blend(s: int, e: int, i: nat, steps: nat): (c: int)
    requires 0 <= s <= 255 && 0 <= e <= 255
    requires 0 < steps && i <= steps
    ensures (if s <= e then s else e) <= c <= (if s <= e then e else s)
    ensures i == 0 ==> c == s
    ensures i == steps ==> c == e
  {
    BlendBounds(s, e, i, steps);
    (e * i + s * (steps - i)) / steps
  }

  /** The weighted sum behind `Blend` lies between `steps` times either end. */
  lemma BlendBounds(s: int, e: int, i: nat, steps: nat)
    requires 0 <= s <= 255 && 0 <= e <= 255
    requires 0 < steps && i <= steps
    ensures var lo := if s <= e then s else e;
            var hi := if s <= e then e else s;
            var q := (e * i + s * (steps - i)) / steps;
            lo <= q <= hi
    ensures i == 0 ==> (e * i + s * (steps - i)) / steps == s
    ensures i == steps ==> (e * i + s * (steps - i)) / steps == e
  {
    var lo := if s <= e then s else e;
    var hi := if s <= e then e else s;
    var j: nat := steps - i;
    WeightedBetween(lo, hi, e, s, i, j);
    DivideBetween(e * i + s * j, lo, hi, steps);
    if i == 0 {
      assert e * i + s * j == s * steps;
      DivideBetween(s * steps, s, s, steps);
    }
    if i == steps {
      assert e * i + s * j == e * steps;
      DivideBetween(e * steps, e, e, steps);
    }
  }

  /** A weighted sum of two values between `lo` and `hi`, with natural weights. */
  lemma WeightedBetween(lo: int, hi: int, x: int, y: int, i: nat, j: nat)
    requires lo <= x <= hi && lo <= y <= hi
    ensures lo * (i + j) <= x * i + y * j <= hi * (i + j)
  {
    assert lo * i <= x * i <= hi * i;
    assert lo * j <= y * j <= hi * j;
  }

  /** Later bands move toward the end colour: with the end channel at least the start
      channel, a channel never decreases from one band to the next. */
  lemma BlendMonotone(s: int, e: int, i: nat, steps: nat)
    requires 0 <= s <= e <= 255
    requires 0 < steps && i < steps
    ensures Blend(s, e, i, steps) <= Blend(s, e, i + 1, steps)
  {
    var j: nat := steps - (i + 1);
    var a := e * i + s * (j + 1);
    var b := e * (i + 1) + s * j;
    assert Blend(s, e, i, steps) == a / steps by {
      assert steps - i == j + 1;
    }
    assert Blend(s, e, i + 1, steps) == b / steps;
    assert a <= b by {
      assert e * (i + 1) == e * i + e;
      assert s * (j + 1) == s * j + s;
    }
    DivisionMonotone(a, b, steps);
  }

  /** A rising channel stays below its end value in every band before `i == steps`:
      the exact end comes only at `i == steps`, which no pass of the painter reaches. */
  lemma BlendShortOfEnd(s: int, e: int, i: nat, steps: nat)
    requires 0 <= s < e <= 255
    requires 0 < steps && i < steps
    ensures Blend(s, e, i, steps) < e
  {
    WeightedShort(s, e, i, steps);
    QuotientBelow(e * i + s * (steps - i), e, steps);
  }

  /** With some weight left on the smaller start, the weighted sum stays below
      `steps` times the end. */
  lemma WeightedShort(s: int, e: int, i: nat, steps: nat)
    requires 0 <= s < e && i < steps
    ensures e * i + s * (steps - i) < e * steps
  {
    var j: nat := steps - i;
    assert e * steps == e * i + e * j;
    assert s * j < e * j;
  }

  /** Rounding down makes the two directions differ: 0 to 255 over 100 bands ends its
      last painted band at 252, while 1 to 0 is already at its end one band early. */
  lemma BlendLastBand()
    ensures Blend(0, 255, 99, 100) == 252
    ensures Blend(1, 0, 99, 100) == 0
  {
  }

  /** The colour of band `i`: each channel blended from start to end over the
      direction's number of bands. */
  function BandColor(c: CanvasInstruction, i: nat): (r: Color)
    requires WellFormed(c) && c.isGradient
    requires i <= BandCount(c.gradDirection)
    ensures Valid(r)
    ensures i == 0 ==> r == c.colorStart.value
    ensures Between(c.colorStart.value.red, r.red, c.colorEnd.value.red)
    ensures Between(c.colorStart.value.green, r.green, c.colorEnd.value.green)
    ensures Between(c.colorStart.value.blue, r.blue, c.colorEnd.value.blue)
  {
    Mix(c.colorStart.value, c.colorEnd.value, i, BandCount(c.gradDirection))
  }

  /** No band the painter paints reaches a rising channel's end value, so a gradient
      towards a brighter channel never shows that channel's end colour. */
  lemma PaintedShortOfEnd(c: CanvasInstruction, k: nat)
    requires WellFormed(c) && c.isGradient
    requires k < BandCount(c.gradDirection)
    ensures c.colorStart.value.red < c.colorEnd.value.red ==> BandColor(c, k).red < c.colorEnd.value.red
    ensures c.colorStart.value.green < c.colorEnd.value.green ==> BandColor(c, k).green < c.colorEnd.value.green
    ensures c.colorStart.value.blue < c.colorEnd.value.blue ==> BandColor(c, k).blue < c.colorEnd.value.blue
  {
    var s, e, n := c.colorStart.value, c.colorEnd.value, BandCount(c.gradDirection);
    if s.red < e.red {
      BlendShortOfEnd(s.red, e.red, k, n);
    }
    if s.green < e.green {
      BlendShortOfEnd(s.green, e.green, k, n);
    }
    if s.blue < e.blue {
      BlendShortOfEnd(s.blue, e.blue, k, n);
    }
  }

  /** Each channel blended from `s` to `e` at band `i` of `steps`. */
  function Mix(s: Color, e: Color, i: nat, steps: nat): Color
    requires Valid(s) && Valid(e) && 0 < steps && i <= steps
  {
    Color(Blend(s.red, e.red, i, steps), Blend(s.green, e.green, i, steps), Blend(s.blue, e.blue, i, steps))
  }

  /** `m` lies between `a` and `b`, whichever is larger. */
  predicate Between(a: int, m: int, b: int) {
    (a <= m <= b) || (b <= m <= a)
  }

  /** The top edge of row band `i` (direction 0), or the left edge of column band `i`
      (direction 1): `extent * (i - 1) / 100` in Java `int` arithmetic. */
  function BandEdge(extent: Int32, i: nat): Int32
    requires i <= 150
  {
    Div(Mul(extent, i - 1), 100)
  }

  /** The base quadrilateral of a diagonal band, before it is turned: from height
      `h * (i - offset) / 100` down to `2 * h`, as wide as the canvas diagonal. */
  function DiagonalBase(c: CanvasInstruction, i: nat, offset: int): (p: Polygon)
    requires i <= 150 && 0 <= offset <= 40
    ensures Matched(p) && |p.xs| == 4
  {
    var hyp := Hypotenuse(c.width, c.height);
    var top := Div(Mul(c.height, i - offset), 100);
    var bottom := Mul(c.height, 2);
    Polygon([0, hyp, hyp, 0], [top, top, bottom, bottom])
  }

  /** A diagonal band: the base quadrilateral turned by `angle` degrees about the
      middle of its top edge's width and half a canvas below that edge. */
  function DiagonalBand(env: Env, c: CanvasInstruction, i: nat, offset: int, angle: int): (p: Polygon)
    requires i <= 150 && 0 <= offset <= 40
    ensures Matched(p) && |p.xs| == 4
  {
    var base := DiagonalBase(c, i, offset);
    var cx := Add(0, Div(base.xs[1], 2));
    var cy := Add(base.ys[0], Div(c.height, 2));
    RotatePolygon(env, angle, cx, cy, base)
  }

  /** What band `i` paints after setting its colour, by direction: a full-size
      rectangle from the band edge down (0) or right (1), a turned quadrilateral
      (2: offset 40, -15 degrees; 3: offset 5, 110 degrees), nothing otherwise. */
  function BandShape(env: Env, c: CanvasInstruction, i: nat): seq<Event>
    requires i <= 150
  {
    var w := c.width;
    var h := c.height;
    if c.gradDirection == 0 then [FillRect(0, BandEdge(h, i), w, h)]
    else if c.gradDirection == 1 then [FillRect(BandEdge(w, i), 0, w, h)]
    else if c.gradDirection == 2 then
      var p := DiagonalBand(env, c, i, 40, -15); [FillPolygon(p.xs, p.ys)]
    else if c.gradDirection == 3 then
      var p := DiagonalBand(env, c, i, 5, 110); [FillPolygon(p.xs, p.ys)]
    else []
  }

  /** What pass `k` of the painter does: set band `k`'s colour, then paint its
      shape (nothing past the last band). */
  function Pass(env: Env, c: CanvasInstruction, k: nat): seq<Event> {
    if WellFormed(c) && c.isGradient && k < BandCount(c.gradDirection)
    then [SetColor(BandColor(c, k))] + BandShape(env, c, k)
    else []
  }

  /** The passes of the painter, as a function of the pass number. */
  function PassOf(env: Env, c: CanvasInstruction): nat -> seq<Event> {
    (k: nat) => Pass(env, c, k)
  }

  /** The first `n` passes of the painter. */
  function Bands(env: Env, c: CanvasInstruction, n: nat): seq<Event>
    requires WellFormed(c) && c.isGradient
    requires n <= BandCount(c.gradDirection)
  {
    Passes(PassOf(env, c), n)
  }

  /** The events of passes 0 to n - 1, in order, pass `k` giving `pass(k)`. */
  function Passes<T>(pass: nat -> seq<T>, n: nat): seq<T> {
    if n == 0 then [] else Passes(pass, n - 1) + pass(n - 1)
  }

  /** Passes of equal width `w` lay out `w * n` events. */
  lemma {:induction false} PassesLength<T>(pass: nat -> seq<T>, n: nat, w: nat)
    requires forall k :: 0 <= k < n ==> |pass(k)| == w
    ensures |Passes(pass, n)| == w * n
  {
    if n > 0 {
      PassesLength(pass, n - 1, w);
      assert w * n == w * (n - 1) + w;
    }
  }

  /** With passes of equal width `w`, event `j` of pass `k` sits at `w * k + j`. */
  lemma {:induction false} PassesAt<T>(pass: nat -> seq<T>, n: nat, w: nat, k: nat, j: nat)
    requires forall k :: 0 <= k < n ==> |pass(k)| == w
    requires k < n && j < w
    ensures |Passes(pass, n)| == w * n
    ensures w * k + j < w * n
    ensures Passes(pass, n)[w * k + j] == pass(k)[j]
    decreases n
  {
    PassesLength(pass, n, w);
    PassesLength(pass, n - 1, w);
    assert w * n == w * (n - 1) + w;
    if k < n - 1 {
      PassesAt(pass, n - 1, w, k, j);
    } else {
      assert w * k == w * (n - 1);
    }
  }

  /** Everything `gradient` does: all passes, then the panel background set to the
      canvas's solid colour. */
  function GradientEvents(env: Env, c: CanvasInstruction): (ev: seq<Event>)
    requires WellFormed(c) && c.isGradient
    ensures |ev| == (if 0 <= c.gradDirection <= 3 then 2 * BandCount(c.gradDirection) else BandCount(c.gradDirection)) + 1
    ensures ev[|ev| - 1] == SetBackground(c.colorSolid)
  {
    BandsLength(env, c, BandCount(c.gradDirection));
    Bands(env, c, BandCount(c.gradDirection)) + [SetBackground(c.colorSolid)]
  }

  /** The painter as written: the passes of its loop, starting at band 0 with
      `steps = 100`, then the panel background. */
  method Gradient(env: Env, c: CanvasInstruction) returns (events: seq<Event>)
    requires WellFormed(c) && c.isGradient
    ensures events == GradientEvents(env, c)
  {
    events := PaintPasses(env, c, 0, 100, []);
    GradientTail(env, c, BandCount(c.gradDirection), events);
    events := events + [SetBackground(c.colorSolid)];
  }

  /** The painter loop from pass `i` on, one pass per call: `steps` is overwritten
      inside a pass and the colour ratio is taken from the value `steps` has at the
      start of the pass; the loop stops once `i` reaches `steps`. */
  method PaintPasses(env: Env, c: CanvasInstruction, i: nat, steps: nat, events: seq<Event>)
    returns (result: seq<Event>)
    requires WellFormed(c) && c.isGradient
    requires i <= steps && steps == if i == 0 then 100 else BandCount(c.gradDirection)
    requires events == Bands(env, c, i)
    ensures result == Bands(env, c, BandCount(c.gradDirection))
    decreases 150 - i
  {
    if i < steps {
      var events', steps' := OnePass(env, c, c.colorStart.value, c.colorEnd.value, i, steps, events);
      result := PaintPasses(env, c, i + 1, steps', events');
    } else {
      LoopExit(c, i, steps);
      result := events;
    }
  }

  /** One pass of the painter loop: the colour of band `i`, then its shape. */
  method OnePass(env: Env, c: CanvasInstruction, s: Color, e: Color, i: nat, steps: nat, events: seq<Event>)
    returns (events': seq<Event>, steps': nat)
    requires WellFormed(c) && c.isGradient && s == c.colorStart.value && e == c.colorEnd.value
    requires i < steps && steps == if i == 0 then 100 else BandCount(c.gradDirection)
    requires events == Bands(env, c, i)
    ensures i + 1 <= steps' == BandCount(c.gradDirection)
    ensures events' == Bands(env, c, i + 1)
  {
    PassColor(c, i, steps);
    var color := Mix(s, e, i, steps);
    var shape;
    shape, steps' := PassShape(env, c, i, steps);
    NextPass(env, c, i);
    events' := events + [SetColor(color)] + shape;
  }

  /** The loop stops exactly after the last band of the direction. */
  lemma LoopExit(c: CanvasInstruction, i: nat, steps: nat)
    requires i == steps && steps == if i == 0 then 100 else BandCount(c.gradDirection)
    ensures i == steps == BandCount(c.gradDirection)
  {
  }

  /** All passes done, setting the background completes the gradient. */
  lemma GradientTail(env: Env, c: CanvasInstruction, n: nat, events: seq<Event>)
    requires WellFormed(c) && c.isGradient
    requires n == BandCount(c.gradDirection) && events == Bands(env, c, n)
    ensures events + [SetBackground(c.colorSolid)] == GradientEvents(env, c)
  {
  }


  /** The direction-dependent part of one pass: the shape band `i` paints, and the
      loop bound as the pass leaves it (directions 2 and 3 overwrite it). */
  method PassShape(env: Env, c: CanvasInstruction, i: nat, steps: nat) returns (shape: seq<Event>, steps': nat)
    requires i <= 150
    ensures shape == BandShape(env, c, i)
    ensures steps' == if c.gradDirection == 2 then 150 else if c.gradDirection == 3 then 110 else steps
  {
    steps' := steps;
    var w := c.width;
    var h := c.height;
    shape := [];
    if c.gradDirection == 0 {
      shape := [FillRect(0, Div(Mul(h, i - 1), 100), w, h)];
    } else if c.gradDirection == 1 {
      shape := [FillRect(Div(Mul(w, i - 1), 100), 0, w, h)];
    } else if c.gradDirection == 2 {
      steps' := 150;
      var p := DiagonalBand(env, c, i, 40, -15);
      shape := [FillPolygon(p.xs, p.ys)];
    } else if c.gradDirection == 3 {
      steps' := 110;
      var p := DiagonalBand(env, c, i, 5, 110);
      shape := [FillPolygon(p.xs, p.ys)];
    }
  }

  /** The colour a pass computes from the current `steps` is the band's colour: on
      the first pass `steps` is still 100, but band 0 has the start colour whatever
      the number of bands. */
  lemma PassColor(c: CanvasInstruction, i: nat, steps: nat)
    requires WellFormed(c) && c.isGradient
    requires i < steps && steps == if i == 0 then 100 else BandCount(c.gradDirection)
    ensures i <= BandCount(c.gradDirection)
    ensures Mix(c.colorStart.value, c.colorEnd.value, i, steps) == BandColor(c, i)
  {
  }

  /** One more pass appends that band's colour and shape. */
  lemma NextPass(env: Env, c: CanvasInstruction, n: nat)
    requires WellFormed(c) && c.isGradient
    requires n < BandCount(c.gradDirection)
    ensures Bands(env, c, n + 1) == Bands(env, c, n) + [SetColor(BandColor(c, n))] + BandShape(env, c, n)
  {
    assert PassOf(env, c)(n) == Pass(env, c, n);
  }

  /** Every pass of a known direction is two events wide, of any other direction one. */
  lemma PassWidths(env: Env, c: CanvasInstruction)
    requires WellFormed(c) && c.isGradient
    ensures forall k :: 0 <= k < BandCount(c.gradDirection) ==>
      |PassOf(env, c)(k)| == if 0 <= c.gradDirection <= 3 then 2 else 1
  {
    forall k | 0 <= k < BandCount(c.gradDirection)
      ensures |PassOf(env, c)(k)| == if 0 <= c.gradDirection <= 3 then 2 else 1
    {
      assert PassOf(env, c)(k) == Pass(env, c, k);
      ShapeLength(env, c, k);
    }
  }

  /** Each pass adds a colour and, for a known direction, one shape. */
  lemma BandsLength(env: Env, c: CanvasInstruction, n: nat)
    requires WellFormed(c) && c.isGradient
    requires n <= BandCount(c.gradDirection)
    ensures |Bands(env, c, n)| == (if 0 <= c.gradDirection <= 3 then 2 else 1) * n
  {
    PassWidths(env, c);
    PassesLength(PassOf(env, c), n, if 0 <= c.gradDirection <= 3 then 2 else 1);
  }

  /** For a known direction, the passes alternate a colour and a shape: pass `k`
      sets band `k`'s colour at position `2k` and paints its shape right after,
      however many passes follow. */
  lemma PassIn(env: Env, c: CanvasInstruction, n: nat, k: nat)
    requires WellFormed(c) && c.isGradient && 0 <= c.gradDirection <= 3
    requires k < n <= BandCount(c.gradDirection)
    ensures |Bands(env, c, n)| == 2 * n
    ensures Bands(env, c, n)[2 * k] == SetColor(BandColor(c, k))
    ensures [Bands(env, c, n)[2 * k + 1]] == BandShape(env, c, k)
  {
    PassWidths(env, c);
    PassesAt(PassOf(env, c), n, 2, k, 0);
    PassesAt(PassOf(env, c), n, 2, k, 1);
    PassContent(env, c, k);
  }

  /** Pass `k` of a known direction is its colour, then its one shape. */
  lemma PassContent(env: Env, c: CanvasInstruction, k: nat)
    requires WellFormed(c) && c.isGradient && 0 <= c.gradDirection <= 3
    requires k < BandCount(c.gradDirection)
    ensures |PassOf(env, c)(k)| == 2
    ensures PassOf(env, c)(k)[0] == SetColor(BandColor(c, k))
    ensures [PassOf(env, c)(k)[1]] == BandShape(env, c, k)
  {
    assert PassOf(env, c)(k) == [SetColor(BandColor(c, k))] + BandShape(env, c, k);
    ShapeLength(env, c, k);
  }

  /** A known direction paints one shape per pass, any other direction none. */
  lemma ShapeLength(env: Env, c: CanvasInstruction, i: nat)
    requires i <= 150
    ensures |BandShape(env, c, i)| == if 0 <= c.gradDirection <= 3 then 1 else 0
  {
  }

  /** For a known direction, pass `k` of the painter sits at positions `2k` and `2k + 1`. */
  lemma PassAt(env: Env, c: CanvasInstruction, k: nat)
    requires WellFormed(c) && c.isGradient && 0 <= c.gradDirection <= 3
    requires k < BandCount(c.gradDirection)
    ensures GradientEvents(env, c)[2 * k] == SetColor(BandColor(c, k))
    ensures [GradientEvents(env, c)[2 * k + 1]] == BandShape(env, c, k)
  {
    var n := BandCount(c.gradDirection);
    PassIn(env, c, n, k);
    assert GradientEvents(env, c)[2 * k] == Bands(env, c, n)[2 * k];
    assert GradientEvents(env, c)[2 * k + 1] == Bands(env, c, n)[2 * k + 1];
  }

  /** Direction 0 paints 100 rows: band `k` is a full-size rectangle from its edge. */
  lemma RowBands(env: Env, c: CanvasInstruction, k: nat)
    requires WellFormed(c) && c.isGradient && c.gradDirection == 0
    requires k < 100
    ensures GradientEvents(env, c)[2 * k + 1] == FillRect(0, BandEdge(c.height, k), c.width, c.height)
  {
    PassAt(env, c, k);
  }

  /** Direction 1 paints 100 columns: band `k` is a full-size rectangle from its edge. */
  lemma ColumnBands(env: Env, c: CanvasInstruction, k: nat)
    requires WellFormed(c) && c.isGradient && c.gradDirection == 1
    requires k < 100
    ensures GradientEvents(env, c)[2 * k + 1] == FillRect(BandEdge(c.width, k), 0, c.width, c.height)
  {
    PassAt(env, c, k);
  }

  /** Directions 2 and 3 paint 150 and 110 filled quadrilaterals. */
  lemma DiagonalBands(env: Env, c: CanvasInstruction, k: nat)
    requires WellFormed(c) && c.isGradient && 2 <= c.gradDirection <= 3
    requires k < (if c.gradDirection == 2 then 150 else 110)
    ensures var ev := GradientEvents(env, c)[2 * k + 1];
      ev.FillPolygon? && |ev.xs| == 4 && |ev.ys| == 4
  {
    PassAt(env, c, k);
    var p := if c.gradDirection == 2 then DiagonalBand(env, c, k, 40, -15) else DiagonalBand(env, c, k, 5, 110);
    assert BandShape(env, c, k) == [FillPolygon(p.xs, p.ys)];
  }

  /** Band 0's edge is `-(extent / 100)` rounded toward zero, as Java divides; a
      Euclidean division would give one less whenever 100 does not divide the extent.
      So band 0 starts at the panel's edge for extents below 100, and strictly before
      it from 100 on. */
  lemma FirstBandEdge(extent: Int32)
    requires extent >= 1
    ensures BandEdge(extent, 0) == -(extent / 100)
    ensures extent < 100 ==> BandEdge(extent, 0) == 0
    ensures extent >= 100 ==> BandEdge(extent, 0) < 0
  {
    assert InRange(extent);
    assert Mul(extent, -1) == -extent;
    assert Abs(-extent) == extent;
  }

  /** For a canvas no taller than 21,000,000 pixels (so that `extent * 99` does not
      overflow), the edges of bands 1 to 100 start at 0, stay inside the canvas and
      never move back. */
  lemma BandEdgesInside(extent: Int32, i: nat)
    requires 1 <= extent <= 21_000_000
    requires 1 <= i < 100
    ensures BandEdge(extent, 1) == 0
    ensures 0 <= BandEdge(extent, i) < extent
    ensures BandEdge(extent, i) <= BandEdge(extent, i + 1)
  {
    EdgeValue(extent, 1);
    EdgeValue(extent, i);
    EdgeValue(extent, i + 1);
    EdgeQuotients(extent, i);
  }

  /** The quotients behind `BandEdgesInside`, without the Java arithmetic. */
  lemma EdgeQuotients(extent: int, i: int)
    requires 1 <= extent && 1 <= i < 100
    ensures extent * (1 - 1) / 100 == 0
    ensures 0 <= extent * (i - 1) / 100 < extent
    ensures extent * (i - 1) / 100 <= extent * (i + 1 - 1) / 100
  {
    var a := extent * (i - 1);
    var b := extent * i;
    assert 0 <= a < 100 * extent;
    var q := a / 100;
    assert q * 100 <= a;
    MulCancel(q, extent, 100);
    assert b == a + extent;
    DivisionMonotone(a, b, 100);
  }

  /** Without overflow, a band edge is the plain quotient. */
  lemma EdgeValue(extent: Int32, i: nat)
    requires 1 <= extent <= 21_000_000 && 1 <= i <= 100
    ensures BandEdge(extent, i) == extent * (i - 1) / 100
  {
    var a := extent * (i - 1);
    ProductBound(extent, i - 1, 21_000_000, 99);
    assert InRange(a);
    assert Mul(extent, i - 1) == a;
    DivNonNegative(a, 100);
  }

  /** A product of two bounded naturals is bounded by the product of the bounds. */
  lemma ProductBound(x: int, y: int, xMax: int, yMax: int)
    requires 0 <= x <= xMax && 0 <= y <= yMax
    ensures 0 <= x * y <= xMax * yMax
  {
    assert x * y <= xMax * y;
    assert xMax * y <= xMax * yMax;
  }
}

=== FILE: graphics.dfy ===
/** The drawing surface as the engine sees it: a trace of the calls it makes on the
    panel and its `Graphics` object, in order, and the integer geometry those calls
    are made with. */
module Graphics {
  import opened Wrappers
  import opened JavaInt
  import opened Colors

  datatype Event =
    | OpenPanel(width: Int32, height: Int32)                      // new DrawingPanel(width, height)
    | SetBackground(background: Option<Color>)                    // dp.setBackground
    | SetColor(color: Color)                                      // g.setColor
    | FillPolygon(xs: seq<Int32>, ys: seq<Int32>)                 // g.fillPolygon over every vertex
    | DrawPolygon(xs: seq<Int32>, ys: seq<Int32>)                 // g.drawPolygon over every vertex
    | FillRect(x: Int32, y: Int32, width: Int32, height: Int32)   // g.fillRect

  predicate IsPolygon(e: Event) {
    e.FillPolygon? || e.DrawPolygon?
  }

  /** The number of polygons drawn in `events`. */
  function PolygonCount(events: seq<Event>): nat {
    if |events| == 0 then 0
    else PolygonCount(events[..|events| - 1]) + (if IsPolygon(events[|events| - 1]) then 1 else 0)
  }

  /** Polygon counts add up over concatenated traces. */
  lemma {:induction false} PolygonCountAppend(a: seq<Event>, b: seq<Event>)
    ensures PolygonCount(a + b) == PolygonCount(a) + PolygonCount(b)
    decreases |b|
  {
    if |b| == 0 {
      assert a + b == a;
    } else {
      var n := |b| - 1;
      assert (a + b)[..|a + b| - 1] == a + b[..n];
      PolygonCountAppend(a, b[..n]);
    }
  }

  /** What the engine takes from outside: `Math.cos` and `Math.sin` of an angle given
      in whole degrees (the engine only ever turns by integer degree counts), and the
      successive results of `Math.random()`, the k-th call answering `random(k)`. */
  datatype Env = Env(cos: int -> real, sin: int -> real, random: nat -> real)

  /** The working `xs`/`ys` arrays of one figure. */
  datatype Polygon = Polygon(xs: seq<Int32>, ys: seq<Int32>)

  predicate Matched(p: Polygon) {
    |p.xs| == |p.ys|
  }

  /** One vertex turned by `angle` degrees about (cx, cy). */
  function Turn(env: Env, angle: int, cx: Int32, cy: Int32, x: Int32, y: Int32): (Int32, Int32) {
    Rotated(env.cos(angle), env.sin(angle), cx, cy, x, y)
  }

  /** One vertex turned about (cx, cy) by the angle whose cosine and sine are given:
      the differences to the centre are Java `int` subtractions, the rest is computed
      in floating point (here: exactly) and cast back with `(int)`. */
  function Rotated(cos: real, sin: real, cx: Int32, cy: Int32, x: Int32, y: Int32): (Int32, Int32) {
    var dx := Sub(x, cx) as real;
    var dy := Sub(y, cy) as real;
    (CastToInt(cos * dx - sin * dy + cx as real),
     CastToInt(sin * dx + cos * dy + cy as real))
  }

  /** Every vertex turned about (cx, cy), each one independently of the others. */
  function RotatePolygon(env: Env, angle: int, cx: Int32, cy: Int32, p: Polygon): (r: Polygon)
    requires Matched(p)
    ensures Matched(r) && |r.xs| == |p.xs|
    ensures forall k :: 0 <= k < |p.xs| ==> (r.xs[k], r.ys[k]) == Turn(env, angle, cx, cy, p.xs[k], p.ys[k])
  {
    Polygon(seq(|p.xs|, k requires 0 <= k < |p.xs| => Turn(env, angle, cx, cy, p.xs[k], p.ys[k]).0),
            seq(|p.xs|, k requires 0 <= k < |p.xs| => Turn(env, angle, cx, cy, p.xs[k], p.ys[k]).1))
  }

  /** A turn whose cosine is exactly 1 and sine exactly 0 puts every vertex back where
      it was, as long as no difference to the centre wraps around. */
  lemma TurnByNothing(env: Env, angle: int, cx: Int32, cy: Int32, p: Polygon)
    requires Matched(p)
    requires env.cos(angle) == 1.0 && env.sin(angle) == 0.0
    requires forall k :: 0 <= k < |p.xs| ==> InRange(p.xs[k] - cx) && InRange(p.ys[k] - cy)
    ensures RotatePolygon(env, angle, cx, cy, p) == p
  {
    var r := RotatePolygon(env, angle, cx, cy, p);
    forall k | 0 <= k < |p.xs|
      ensures r.xs[k] == p.xs[k] && r.ys[k] == p.ys[k]
    {
      TurnFixed(cx, cy, p.xs[k], p.ys[k]);
    }
  }

  /** One vertex turned by a cosine of 1 and a sine of 0 stays put. */
  lemma TurnFixed(cx: Int32, cy: Int32, x: Int32, y: Int32)
    requires InRange(x - cx) && InRange(y - cy)
    ensures Rotated(1.0, 0.0, cx, cy, x, y) == (x, y)
  {
    SubExact(x, cx);
    SubExact(y, cy);
    CastExact(x);
    CastExact(y);
  }

  /** The integer square root: the largest r with r * r <= n. */
  function Isqrt(n: nat): (r: nat)
    ensures r * r <= n < (r + 1) * (r + 1)
    decreases n
  {
    if n < 4 then (if n == 0 then 0 else 1)
    else
      var r0 := Isqrt(n / 4);
      IsqrtStep(n, r0);
      if (2 * r0 + 1) * (2 * r0 + 1) <= n then 2 * r0 + 1 else 2 * r0
  }

  /** From a root of n / 4 to the two candidates for a root of n. */
  lemma IsqrtStep(n: nat, r0: nat)
    requires r0 * r0 <= n / 4 < (r0 + 1) * (r0 + 1)
    ensures (2 * r0) * (2 * r0) <= n < (2 * r0 + 2) * (2 * r0 + 2)
    ensures (2 * r0 + 1 + 1) * (2 * r0 + 1 + 1) == (2 * r0 + 2) * (2 * r0 + 2)
  {
    var q := n / 4;
    assert n == 4 * q + n % 4;
    assert (2 * r0) * (2 * r0) == 4 * (r0 * r0);
    assert (2 * r0 + 2) * (2 * r0 + 2) == 4 * ((r0 + 1) * (r0 + 1));
    assert q + 1 <= (r0 + 1) * (r0 + 1);
  }

  /** `(int)` of `Math.sqrt(Math.pow(width, 2) + Math.pow(height, 2))`: the length of
      the canvas diagonal, rounded down and saturated like the cast. */
  function Hypotenuse(width: Int32, height: Int32): (r: Int32)
    ensures r >= 0
    ensures r < MAX_VALUE ==> r * r <= width * width + height * height < (r + 1) * (r + 1)
  {
    var root := Isqrt(width * width + height * height);
    if root >= MAX_VALUE then MAX_VALUE else root
  }
}

=== FILE: instruct_gui.dfy ===
/** `InstructGui.colorToRgb`: a colour written as the channel fields of an instruction
    record, so that appending it to a record line sets that colour when the line is
    read back. */
module InstructGui {
  import opened Wrappers
  import opened JavaInt
  import opened JavaString
  import opened Colors
  import opened InstructionRecords
  import CanvasInstructions
  import DrawInstructions

  /** The three channels, in the order they are written. */
  datatype Channel = Red | Green | Blue

  /** The channel's name as a key without prefix. */
  function Name(ch: Channel): string {
    match ch
    case Red => "red"
    case Green => "green"
    case Blue => "blue"
  }

  /** The channel's name as it follows a prefix. */
  function Capitalised(ch: Channel): string {
    match ch
    case Red => "Red"
    case Green => "Green"
    case Blue => "Blue"
  }

  /** `color.getRed()`, `getGreen()` or `getBlue()`. */
  function Level(c: Color, ch: Channel): int {
    match ch
    case Red => c.red
    case Green => c.green
    case Blue => c.blue
  }

  /** A valid colour's channels are levels from 0 to 255. */
  lemma LevelBound(c: Color, ch: Channel)
    requires Valid(c)
    ensures 0 <= Level(c, ch) <= 255
  {
  }

  /** The key written for a channel: its name when the prefix is empty, otherwise
      the prefix followed by the capitalised name. */
  function Key(prefix: string, ch: Channel): string {
    if |prefix| == 0 then Name(ch) else prefix + Capitalised(ch)
  }

  /** One written channel: `", "`, the key, `=` and the decimal level. */
  function Written(prefix: string, ch: Channel, c: Color): string {
    ", " + Key(prefix, ch) + "=" + IntToString(Level(c, ch))
  }

  /** `colorToRgb(color, prefix)`: the empty string for a null colour, otherwise the
      red, green and blue channels written one after the other. */
  function ColorToRgb(color: Option<Color>, prefix: string): (s: string)
    ensures color.None? <==> s == ""
  {
    if color.None? then ""
    else Written(prefix, Red, color.value) + Written(prefix, Green, color.value)
         + Written(prefix, Blue, color.value)
  }

  /** The text written for a colour: `, red=R, green=G, blue=B` without a prefix,
      `, pRed=R, pGreen=G, pBlue=B` with a prefix `p`, the levels in decimal. */
  lemma ColorToRgbText(c: Color, prefix: string)
    ensures |prefix| == 0 ==>
      ColorToRgb(Some(c), prefix) ==
        (", red=" + IntToString(c.red)) + (", green=" + IntToString(c.green)) + (", blue=" + IntToString(c.blue))
    ensures |prefix| > 0 ==>
      ColorToRgb(Some(c), prefix) ==
        (", " + prefix + "Red=" + IntToString(c.red)) + (", " + prefix + "Green=" + IntToString(c.green))
        + (", " + prefix + "Blue=" + IntToString(c.blue))
  {
    if |prefix| == 0 {
      WrittenPlain(c, Red, ", red=");
      WrittenPlain(c, Green, ", green=");
      WrittenPlain(c, Blue, ", blue=");
    } else {
      WrittenPrefixed(c, Red, prefix, "Red=");
      WrittenPrefixed(c, Green, prefix, "Green=");
      WrittenPrefixed(c, Blue, prefix, "Blue=");
    }
  }

  /** Without a prefix, a channel is written as `, name=level`. */
  lemma WrittenPlain(c: Color, ch: Channel, text: string)
    requires text == ", " + Name(ch) + "="
    ensures Written("", ch, c) == text + IntToString(Level(c, ch))
  {
  }

  /** With a prefix `p`, a channel is written as `, pName=level`. */
  lemma WrittenPrefixed(c: Color, ch: Channel, prefix: string, text: string)
    requires |prefix| > 0 && text == Capitalised(ch) + "="
    ensures Written(prefix, ch, c) == ", " + prefix + text + IntToString(Level(c, ch))
  {
    var cap := Capitalised(ch);
    assert ", " + (prefix + cap) == ", " + prefix + cap;
    assert ", " + prefix + cap + "=" == ", " + prefix + (cap + "=");
  }

  /** One written channel as `split(",")` cuts it out of the line: everything after
      its comma. */
  function Piece(prefix: string, ch: Channel, c: Color): string {
    " " + Key(prefix, ch) + "=" + IntToString(Level(c, ch))
  }

  /** The key the instruction readers see for a written channel: `trim` and
      `toLowerCase` of the written key. */
  function ReadKey(prefix: string, ch: Channel): string {
    if |prefix| == 0 then Name(ch) else ToLower(prefix) + Name(ch)
  }

  /** A prefix the field grammar reads back: no `=` or `,` in it, and it does not
      start with a character `trim` would remove. */
  predicate ReadablePrefix(prefix: string) {
    '=' !in prefix && ',' !in prefix && (|prefix| > 0 ==> !IsTrimmable(prefix[0]))
  }

  /** A written channel is a comma followed by its piece. */
  lemma WrittenPiece(prefix: string, ch: Channel, c: Color)
    ensures Written(prefix, ch, c) == [','] + Piece(prefix, ch, c)
  {
    var k := Key(prefix, ch);
    var d := IntToString(Level(c, ch));
    assert ", " == [','] + " ";
    assert ", " + k + "=" + d == [','] + (" " + k + "=" + d);
  }

  /** A channel level in 0..255 is written with digits only, and parses back. */
  lemma LevelText(v: int)
    requires 0 <= v <= 255
    ensures |IntToString(v)| > 0 && forall i :: 0 <= i < |IntToString(v)| ==> IsPlain(IntToString(v)[i])
    ensures ParseInt(IntToString(v)) == Ok(v)
  {
    assert AllDigits(IntToString(v));
    ParseIntToString(v);
  }

  /** What the field grammar needs to know of a written key. */
  lemma KeyText(prefix: string, ch: Channel)
    requires ReadablePrefix(prefix)
    ensures |Key(prefix, ch)| > 0 && '=' !in Key(prefix, ch) && ',' !in Key(prefix, ch)
    ensures !IsTrimmable(Key(prefix, ch)[0]) && !IsTrimmable(Key(prefix, ch)[|Key(prefix, ch)| - 1])
  {
    var name := Capitalised(ch);
    assert '=' !in name && ',' !in name && !IsTrimmable(name[|name| - 1]);
    if |prefix| > 0 {
      var k := prefix + name;
      assert k[0] == prefix[0];
      assert k[|k| - 1] == name[|name| - 1];
    }
  }

  /** A piece is not empty and contains no comma. */
  lemma PieceText(prefix: string, ch: Channel, c: Color)
    requires ReadablePrefix(prefix) && Valid(c)
    ensures ',' !in Piece(prefix, ch, c)
    ensures |Piece(prefix, ch, c)| > 0
  {
    KeyText(prefix, ch);
    LevelText(Level(c, ch));
    PlainText(IntToString(Level(c, ch)));
  }

  /** `toLowerCase` works character by character, so it distributes over `+`. */
  lemma ToLowerAppend(a: string, b: string)
    ensures ToLower(a + b) == ToLower(a) + ToLower(b)
  {
  }

  /** Lower-casing the written key gives the key the readers see. */
  lemma LowerKey(prefix: string, ch: Channel)
    ensures ToLower(Key(prefix, ch)) == ReadKey(prefix, ch)
  {
    if |prefix| == 0 {
      ToLowerNoOp(Name(ch));
    } else {
      ToLowerAppend(prefix, Capitalised(ch));
      assert ToLower(Capitalised(ch)) == Name(ch);
    }
  }

  /** A piece reads back as the readers' key and the decimal level. */
  lemma PieceRead(prefix: string, ch: Channel, c: Color)
    requires ReadablePrefix(prefix) && Valid(c)
    ensures KeyValue(Piece(prefix, ch, c)) == Ok((ReadKey(prefix, ch), IntToString(Level(c, ch))))
    ensures ParseInt(IntToString(Level(c, ch))) == Ok(Level(c, ch))
  {
    var v := IntToString(Level(c, ch));
    KeyText(prefix, ch);
    LevelText(Level(c, ch));
    PlainText(v);
    KeyValueOf(" ", Key(prefix, ch), v);
    LowerKey(prefix, ch);
  }

  /** Three comma-free pieces joined by commas split back into those pieces, and
      the join ends as the last piece does. */
  lemma JoinThree(p1: string, p2: string, p3: string)
    requires ',' !in p1 && ',' !in p2 && ',' !in p3 && |p3| > 0
    ensures var tail := p1 + [','] + (p2 + [','] + p3);
      SplitAll(tail, ',') == [p1, p2, p3] && tail[|tail| - 1] != ','
  {
    SplitAllAppend(p1, p2 + [','] + p3, ',');
    SplitAllAppend(p2, p3, ',');
    SplitAllNoSeparator(p1, ',');
    SplitAllNoSeparator(p2, ',');
    SplitAllNoSeparator(p3, ',');
    assert p3[|p3| - 1] in p3;
  }

  /** Three comma-led strings in a row are one comma and then their tails joined by
      commas. */
  lemma CommaLed(w1: string, w2: string, w3: string, p1: string, p2: string, p3: string)
    requires w1 == [','] + p1 && w2 == [','] + p2 && w3 == [','] + p3
    ensures w1 + w2 + w3 == [','] + (p1 + [','] + (p2 + [','] + p3))
  {
  }

  /** The output is a comma followed by the three pieces joined by commas; split at
      commas, that tail is the three pieces, and it does not end in a comma. */
  lemma RgbPieces(c: Color, prefix: string)
    requires Valid(c) && ReadablePrefix(prefix)
    ensures var tail := Piece(prefix, Red, c) + [','] + (Piece(prefix, Green, c) + [','] + Piece(prefix, Blue, c));
      && ColorToRgb(Some(c), prefix) == [','] + tail
      && SplitAll(tail, ',') == [Piece(prefix, Red, c), Piece(prefix, Green, c), Piece(prefix, Blue, c)]
      && tail[|tail| - 1] != ','
  {
    var p1, p2, p3 := Piece(prefix, Red, c), Piece(prefix, Green, c), Piece(prefix, Blue, c);
    WrittenPiece(prefix, Red, c);
    WrittenPiece(prefix, Green, c);
    WrittenPiece(prefix, Blue, c);
    PieceText(prefix, Red, c);
    PieceText(prefix, Green, c);
    PieceText(prefix, Blue, c);
    CommaLed(Written(prefix, Red, c), Written(prefix, Green, c), Written(prefix, Blue, c), p1, p2, p3);
    JoinThree(p1, p2, p3);
  }

  /** A line and a comma-led tail, neither ending in a comma, split into the
      line's fields followed by the tail's pieces. */
  lemma FieldsAfter(line: string, tail: string)
    requires |line| > 0 && line[|line| - 1] != ','
    requires |tail| > 0 && tail[|tail| - 1] != ','
    ensures Fields(line + ([','] + tail)) == Fields(line) + SplitAll(tail, ',')
  {
    assert line + ([','] + tail) == line + [','] + tail;
    SplitJoined(line, tail, ',');
  }

  /** The three pieces of a written colour, in order. */
  function Pieces(prefix: string, c: Color): seq<string> {
    [Piece(prefix, Red, c), Piece(prefix, Green, c), Piece(prefix, Blue, c)]
  }

  /** Appending the output to a record line that does not end in a comma adds
      exactly the three pieces to the line's fields. */
  lemma AppendedFields(line: string, c: Color, prefix: string)
    requires |line| > 0 && line[|line| - 1] != ','
    requires Valid(c) && ReadablePrefix(prefix)
    ensures Fields(line + ColorToRgb(Some(c), prefix)) == Fields(line) + Pieces(prefix, c)
  {
    RgbPieces(c, prefix);
    FieldsAfter(line, Piece(prefix, Red, c) + [','] + (Piece(prefix, Green, c) + [','] + Piece(prefix, Blue, c)));
  }

  /** Any reader reads the appended line as the line, then the three pieces. */
  lemma AppendedRead<S>(step: (S, string, string) -> Result<S>, s: S, line: string, c: Color, prefix: string)
    requires ApplyAll(step, s, Fields(line)).Ok?
    requires |line| > 0 && line[|line| - 1] != ','
    requires Valid(c) && ReadablePrefix(prefix)
    ensures ApplyAll(step, s, Fields(line + ColorToRgb(Some(c), prefix))) ==
      ApplyAll(step, ApplyAll(step, s, Fields(line)).value, Pieces(prefix, c))
  {
    AppendedFields(line, c, prefix);
    ApplyAllAppend(step, s, Fields(line), Pieces(prefix, c));
  }

  /** A sequence display is its first element followed by the rest. */
  lemma Consed<T>(x: T, rest: seq<T>)
    ensures |rest| == 0 ==> [x] + rest == [x]
    ensures |rest| == 1 ==> [x] + rest == [x, rest[0]]
    ensures |rest| == 2 ==> [x] + rest == [x, rest[0], rest[1]]
  {
  }

  /** Three fields that each apply cleanly are consumed one after the other. */
  lemma ThreeSteps<S>(step: (S, string, string) -> Result<S>, s: S, f1: string, f2: string, f3: string,
                      t1: S, t2: S, t3: S)
    requires ApplyField(step, s, f1) == Ok(t1)
    requires ApplyField(step, t1, f2) == Ok(t2)
    requires ApplyField(step, t2, f3) == Ok(t3)
    ensures ApplyAll(step, s, [f1, f2, f3]) == Ok(t3)
  {
    FirstStep(step, s, f1, [f2, f3], t1);
    FirstStep(step, t1, f2, [f3], t2);
    FirstStep(step, t2, f3, [], t3);
    Consed(f1, [f2, f3]);
    Consed(f2, [f3]);
    Consed(f3, []);
  }

  // ---------------------------------------------------------------------------
  // Read back by the canvas reader
  // ---------------------------------------------------------------------------

  /** A reader's integer values after the three levels of `c` are stored under the
      keys the pieces written with `prefix` are read as. */
  function Stored(values: map<string, Int32>, prefix: string, c: Color): map<string, Int32>
    requires Valid(c)
  {
    values[ReadKey(prefix, Red) := c.red][ReadKey(prefix, Green) := c.green][ReadKey(prefix, Blue) := c.blue]
  }

  /** The canvas reader stores a piece's level `v` under the readers' key, and asks
      for a gradient when that key is a gradient key. */
  lemma CanvasPiece(r: CanvasInstructions.Reading, c: Color, prefix: string, ch: Channel, v: int)
    requires Valid(c) && ReadablePrefix(prefix) && v == Level(c, ch)
    requires ReadKey(prefix, ch) in CanvasInstructions.NumericKeys
    ensures 0 <= v <= 255
    ensures ApplyField(CanvasInstructions.Step, r, Piece(prefix, ch, c)) ==
      Ok(CanvasInstructions.Reading(r.values[ReadKey(prefix, ch) := v],
                                    r.attemptGradient || ReadKey(prefix, ch) in CanvasInstructions.GradientKeys))
  {
    assert 0 <= v <= 255 by {
      LevelBound(c, ch);
    }
    PieceRead(prefix, ch, c);
    CanvasField(r, Piece(prefix, ch, c), ReadKey(prefix, ch), IntToString(v), v);
  }

  /** The canvas reader on any field read as an integer key and its text. */
  lemma CanvasField(r: CanvasInstructions.Reading, field: string, key: string, text: string, v: Int32)
    requires KeyValue(field) == Ok((key, text)) && ParseInt(text) == Ok(v)
    requires key in CanvasInstructions.NumericKeys
    ensures ApplyField(CanvasInstructions.Step, r, field) ==
      Ok(CanvasInstructions.Reading(r.values[key := v], r.attemptGradient || key in CanvasInstructions.GradientKeys))
  {
  }

  /** The canvas reader, given the three pieces of `c`, sets the three keys they are
      read as. */
  lemma CanvasChannels(r: CanvasInstructions.Reading, c: Color, prefix: string)
    requires Valid(c) && ReadablePrefix(prefix)
    requires ReadKey(prefix, Red) in CanvasInstructions.NumericKeys
    requires ReadKey(prefix, Green) in CanvasInstructions.NumericKeys
    requires ReadKey(prefix, Blue) in CanvasInstructions.NumericKeys
    ensures var gradientKeys := CanvasInstructions.GradientKeys;
      ApplyAll(CanvasInstructions.Step, r, Pieces(prefix, c)) ==
      Ok(CanvasInstructions.Reading(
           Stored(r.values, prefix, c),
           r.attemptGradient || ReadKey(prefix, Red) in gradientKeys
           || ReadKey(prefix, Green) in gradientKeys || ReadKey(prefix, Blue) in gradientKeys))
  {
    CanvasPiece(r, c, prefix, Red, c.red);
    var t1 := CanvasInstructions.Reading(r.values[ReadKey(prefix, Red) := c.red],
                                         r.attemptGradient || ReadKey(prefix, Red) in CanvasInstructions.GradientKeys);
    CanvasGreenBlue(t1, c, prefix);
    FirstStep(CanvasInstructions.Step, r, Piece(prefix, Red, c), [Piece(prefix, Green, c), Piece(prefix, Blue, c)], t1);
    Consed(Piece(prefix, Red, c), [Piece(prefix, Green, c), Piece(prefix, Blue, c)]);
  }

  /** The last two pieces of `c`, read by the canvas reader. */
  lemma CanvasGreenBlue(t1: CanvasInstructions.Reading, c: Color, prefix: string)
    requires Valid(c) && ReadablePrefix(prefix)
    requires ReadKey(prefix, Green) in CanvasInstructions.NumericKeys
    requires ReadKey(prefix, Blue) in CanvasInstructions.NumericKeys
    ensures var gradientKeys := CanvasInstructions.GradientKeys;
      ApplyAll(CanvasInstructions.Step, t1, [Piece(prefix, Green, c), Piece(prefix, Blue, c)]) ==
      Ok(CanvasInstructions.Reading(
           t1.values[ReadKey(prefix, Green) := c.green][ReadKey(prefix, Blue) := c.blue],
           t1.attemptGradient || ReadKey(prefix, Green) in gradientKeys || ReadKey(prefix, Blue) in gradientKeys))
  {
    CanvasPiece(t1, c, prefix, Green, c.green);
    var t2 := CanvasInstructions.Reading(t1.values[ReadKey(prefix, Green) := c.green],
                                         t1.attemptGradient || ReadKey(prefix, Green) in CanvasInstructions.GradientKeys);
    CanvasPiece(t2, c, prefix, Blue, c.blue);
    var t3 := CanvasInstructions.Reading(t2.values[ReadKey(prefix, Blue) := c.blue],
                                         t2.attemptGradient || ReadKey(prefix, Blue) in CanvasInstructions.GradientKeys);
    FirstStep(CanvasInstructions.Step, t1, Piece(prefix, Green, c), [Piece(prefix, Blue, c)], t2);
    FirstStep(CanvasInstructions.Step, t2, Piece(prefix, Blue, c), [], t3);
    Consed(Piece(prefix, Green, c), [Piece(prefix, Blue, c)]);
    Consed(Piece(prefix, Blue, c), []);
  }

  /** Without a prefix, the keys are read as the channel names, which are integer
      keys of both readers and no gradient keys. */
  lemma PlainReadKeys()
    ensures ReadKey("", Red) == "red" && ReadKey("", Green) == "green" && ReadKey("", Blue) == "blue"
    ensures "red" in CanvasInstructions.NumericKeys && "red" !in CanvasInstructions.GradientKeys
    ensures "green" in CanvasInstructions.NumericKeys && "green" !in CanvasInstructions.GradientKeys
    ensures "blue" in CanvasInstructions.NumericKeys && "blue" !in CanvasInstructions.GradientKeys
  {
  }

  /** The prefixes `gradStart` and `gradEnd` are readable prefixes that the canvas
      reader lower-cases to `gradstart` and `gradend`. */
  lemma GradientPrefixes()
    ensures ReadablePrefix("gradStart") && ToLower("gradStart") == "gradstart"
    ensures ReadablePrefix("gradEnd") && ToLower("gradEnd") == "gradend"
  {
  }

  /** A prefix read as `gradstart` makes the start-colour gradient keys. */
  lemma StartReadKeys(prefix: string)
    requires ToLower(prefix) == "gradstart"
    ensures ReadKey(prefix, Red) == "gradstartred"
    ensures ReadKey(prefix, Green) == "gradstartgreen"
    ensures ReadKey(prefix, Blue) == "gradstartblue"
    ensures "gradstartred" in CanvasInstructions.GradientKeys && "gradstartred" in CanvasInstructions.NumericKeys
    ensures "gradstartgreen" in CanvasInstructions.GradientKeys && "gradstartgreen" in CanvasInstructions.NumericKeys
    ensures "gradstartblue" in CanvasInstructions.GradientKeys && "gradstartblue" in CanvasInstructions.NumericKeys
  {
  }

  /** A prefix read as `gradend` makes the end-colour gradient keys. */
  lemma EndReadKeys(prefix: string)
    requires ToLower(prefix) == "gradend"
    ensures ReadKey(prefix, Red) == "gradendred"
    ensures ReadKey(prefix, Green) == "gradendgreen"
    ensures ReadKey(prefix, Blue) == "gradendblue"
    ensures "gradendred" in CanvasInstructions.GradientKeys && "gradendred" in CanvasInstructions.NumericKeys
    ensures "gradendgreen" in CanvasInstructions.GradientKeys && "gradendgreen" in CanvasInstructions.NumericKeys
    ensures "gradendblue" in CanvasInstructions.GradientKeys && "gradendblue" in CanvasInstructions.NumericKeys
  {
  }

  /** Storing `c` under the plain channel keys of a canvas reading changes only the
      solid colour of the canvas it finishes as. */
  lemma CanvasFinishSolid(r: CanvasInstructions.Reading, c: Color)
    requires Valid(c)
    ensures CanvasInstructions.Finish(CanvasInstructions.Reading(Stored(r.values, "", c), r.attemptGradient)) ==
      CanvasInstructions.Finish(r).(colorSolid := Some(c))
  {
    PlainReadKeys();
    var t := CanvasInstructions.Reading(Stored(r.values, "", c), r.attemptGradient);
    assert t.values == r.values["red" := c.red]["green" := c.green]["blue" := c.blue];
    assert CanvasInstructions.StartColor(t) == CanvasInstructions.StartColor(r);
    assert CanvasInstructions.EndColor(t) == CanvasInstructions.EndColor(r);
    assert CanvasInstructions.Value(t, "width") == CanvasInstructions.Value(r, "width");
    assert CanvasInstructions.Value(t, "height") == CanvasInstructions.Value(r, "height");
    assert CanvasInstructions.Value(t, "graddir") == CanvasInstructions.Value(r, "graddir");
    assert CanvasInstructions.Value(t, "red") == c.red;
    assert CanvasInstructions.Value(t, "green") == c.green;
    assert CanvasInstructions.Value(t, "blue") == c.blue;
  }

  /** Storing `c` under the start channel keys of a canvas reading, with a gradient
      asked for, gives a gradient starting at `c`; size, solid colour and an end
      colour already asked for are kept. */
  lemma CanvasFinishStart(r: CanvasInstructions.Reading, c: Color, prefix: string)
    requires Valid(c) && ToLower(prefix) == "gradstart"
    ensures var before := CanvasInstructions.Finish(r);
      var after := CanvasInstructions.Finish(CanvasInstructions.Reading(Stored(r.values, prefix, c), true));
      && after.isGradient && after.colorStart == Some(c)
      && after.width == before.width && after.height == before.height
      && after.colorSolid == before.colorSolid
      && (before.isGradient ==> after.colorEnd == before.colorEnd)
  {
    StartReadKeys(prefix);
    var t := CanvasInstructions.Reading(Stored(r.values, prefix, c), true);
    assert t.values == r.values["gradstartred" := c.red]["gradstartgreen" := c.green]["gradstartblue" := c.blue];
    assert CanvasInstructions.StartColor(t) == c;
    assert CanvasInstructions.EndColor(t) == CanvasInstructions.EndColor(r);
    assert CanvasInstructions.Value(t, "width") == CanvasInstructions.Value(r, "width");
    assert CanvasInstructions.Value(t, "height") == CanvasInstructions.Value(r, "height");
    assert CanvasInstructions.Value(t, "red") == CanvasInstructions.Value(r, "red");
    assert CanvasInstructions.Value(t, "green") == CanvasInstructions.Value(r, "green");
    assert CanvasInstructions.Value(t, "blue") == CanvasInstructions.Value(r, "blue");
  }

  /** Storing `c` under the end channel keys of a canvas reading, with a gradient
      asked for, gives a gradient ending at `c`; size, solid colour and a start
      colour already asked for are kept. */
  lemma CanvasFinishEnd(r: CanvasInstructions.Reading, c: Color, prefix: string)
    requires Valid(c) && ToLower(prefix) == "gradend"
    ensures var before := CanvasInstructions.Finish(r);
      var after := CanvasInstructions.Finish(CanvasInstructions.Reading(Stored(r.values, prefix, c), true));
      && after.isGradient && after.colorEnd == Some(c)
      && after.width == before.width && after.height == before.height
      && after.colorSolid == before.colorSolid
      && (before.isGradient ==> after.colorStart == before.colorStart)
  {
    EndReadKeys(prefix);
    var t := CanvasInstructions.Reading(Stored(r.values, prefix, c), true);
    assert t.values == r.values["gradendred" := c.red]["gradendgreen" := c.green]["gradendblue" := c.blue];
    assert CanvasInstructions.EndColor(t) == c;
    assert CanvasInstructions.StartColor(t) == CanvasInstructions.StartColor(r);
    assert CanvasInstructions.Value(t, "width") == CanvasInstructions.Value(r, "width");
    assert CanvasInstructions.Value(t, "height") == CanvasInstructions.Value(r, "height");
    assert CanvasInstructions.Value(t, "red") == CanvasInstructions.Value(r, "red");
    assert CanvasInstructions.Value(t, "green") == CanvasInstructions.Value(r, "green");
    assert CanvasInstructions.Value(t, "blue") == CanvasInstructions.Value(r, "blue");
  }

  /** Appending `colorToRgb(c, "")` to a canvas record sets its solid colour to `c`
      and changes nothing else. */
  lemma CanvasSolidRoundTrip(line: string, c: Color)
    requires CanvasInstructions.ParseRecord(line).Ok?
    requires |line| > 0 && line[|line| - 1] != ','
    requires Valid(c)
    ensures CanvasInstructions.ParseRecord(line + ColorToRgb(Some(c), "")) ==
      Ok(CanvasInstructions.ParseRecord(line).value.(colorSolid := Some(c)))
  {
    var r := ApplyAll(CanvasInstructions.Step, CanvasInstructions.Initial, Fields(line)).value;
    AppendedRead(CanvasInstructions.Step, CanvasInstructions.Initial, line, c, "");
    assert ApplyAll(CanvasInstructions.Step, r, Pieces("", c)) ==
           Ok(CanvasInstructions.Reading(Stored(r.values, "", c), r.attemptGradient)) by {
      PlainReadKeys();
      CanvasChannels(r, c, "");
    }
    CanvasFinishSolid(r, c);
  }

  /** Appending `colorToRgb(c, "gradStart")` to a canvas record makes it a gradient
      starting at `c`, because keys are lower-cased when read (so any prefix that
      lower-cases to `gradstart` does); size, solid colour and an end colour it
      already had stay as they were. */
  lemma CanvasStartRoundTrip(line: string, c: Color, prefix: string)
    requires CanvasInstructions.ParseRecord(line).Ok?
    requires |line| > 0 && line[|line| - 1] != ','
    requires Valid(c) && ReadablePrefix(prefix) && ToLower(prefix) == "gradstart"
    ensures var before := CanvasInstructions.ParseRecord(line).value;
      var after := CanvasInstructions.ParseRecord(line + ColorToRgb(Some(c), prefix));
      && after.Ok?
      && after.value.isGradient
      && after.value.colorStart == Some(c)
      && after.value.width == before.width && after.value.height == before.height
      && after.value.colorSolid == before.colorSolid
      && (before.isGradient ==> after.value.colorEnd == before.colorEnd)
  {
    var r := ApplyAll(CanvasInstructions.Step, CanvasInstructions.Initial, Fields(line)).value;
    AppendedRead(CanvasInstructions.Step, CanvasInstructions.Initial, line, c, prefix);
    assert ApplyAll(CanvasInstructions.Step, r, Pieces(prefix, c)) ==
           Ok(CanvasInstructions.Reading(Stored(r.values, prefix, c), true)) by {
      StartReadKeys(prefix);
      CanvasChannels(r, c, prefix);
    }
    CanvasFinishStart(r, c, prefix);
  }

  /** Appending `colorToRgb(c, "gradEnd")` to a canvas record (or with any prefix
      that lower-cases to `gradend`) makes it a gradient ending at `c`; size, solid
      colour and a start colour it already had stay. */
  lemma CanvasEndRoundTrip(line: string, c: Color, prefix: string)
    requires CanvasInstructions.ParseRecord(line).Ok?
    requires |line| > 0 && line[|line| - 1] != ','
    requires Valid(c) && ReadablePrefix(prefix) && ToLower(prefix) == "gradend"
    ensures var before := CanvasInstructions.ParseRecord(line).value;
      var after := CanvasInstructions.ParseRecord(line + ColorToRgb(Some(c), prefix));
      && after.Ok?
      && after.value.isGradient
      && after.value.colorEnd == Some(c)
      && after.value.width == before.width && after.value.height == before.height
      && after.value.colorSolid == before.colorSolid
      && (before.isGradient ==> after.value.colorStart == before.colorStart)
  {
    var r := ApplyAll(CanvasInstructions.Step, CanvasInstructions.Initial, Fields(line)).value;
    AppendedRead(CanvasInstructions.Step, CanvasInstructions.Initial, line, c, prefix);
    assert ApplyAll(CanvasInstructions.Step, r, Pieces(prefix, c)) ==
           Ok(CanvasInstructions.Reading(Stored(r.values, prefix, c), true)) by {
      EndReadKeys(prefix);
      CanvasChannels(r, c, prefix);
    }
    CanvasFinishEnd(r, c, prefix);
  }

  // ---------------------------------------------------------------------------
  // Read back by the draw reader
  // ---------------------------------------------------------------------------

  /** A channel name is one of the draw reader's integer keys. */
  lemma DrawKey(ch: Channel)
    ensures Name(ch) != "shape" && Name(ch) != "filled" && Name(ch) in DrawInstructions.NumericKeys
  {
  }

  /** The draw reader stores a piece's level `v` under its channel name. */
  lemma DrawPiece(r: DrawInstructions.Reading, c: Color, ch: Channel, v: int)
    requires Valid(c) && v == Level(c, ch)
    ensures 0 <= v <= 255
    ensures ApplyField(DrawInstructions.Step, r, Piece("", ch, c)) == Ok(r.(values := r.values[Name(ch) := v]))
  {
    assert 0 <= v <= 255 by {
      LevelBound(c, ch);
    }
    PieceRead("", ch, c);
    DrawKey(ch);
    assert ReadKey("", ch) == Name(ch);
    DrawField(r, Piece("", ch, c), Name(ch), IntToString(v), v);
  }

  /** The draw reader on any field read as an integer key and its text. */
  lemma DrawField(r: DrawInstructions.Reading, field: string, key: string, text: string, v: Int32)
    requires KeyValue(field) == Ok((key, text)) && ParseInt(text) == Ok(v)
    requires key != "shape" && key != "filled" && key in DrawInstructions.NumericKeys
    ensures ApplyField(DrawInstructions.Step, r, field) == Ok(r.(values := r.values[key := v]))
  {
  }

  /** Appending `colorToRgb(c, "")` to a draw record sets its colour to `c` and
      changes nothing else. */
  lemma DrawColorRoundTrip(line: string, c: Color)
    requires DrawInstructions.ParseRecord(line).Ok?
    requires |line| > 0 && line[|line| - 1] != ','
    requires Valid(c)
    ensures DrawInstructions.ParseRecord(line + ColorToRgb(Some(c), "")) ==
      Ok(DrawInstructions.ParseRecord(line).value.(color := c))
  {
    var r := ApplyAll(DrawInstructions.Step, DrawInstructions.Initial, Fields(line)).value;
    AppendedRead(DrawInstructions.Step, DrawInstructions.Initial, line, c, "");
    DrawChannels(r, c);
    DrawFinishColor(r, c);
  }

  /** The draw reader, given the three pieces of `c`, sets the three channel keys. */
  lemma DrawChannels(r: DrawInstructions.Reading, c: Color)
    requires Valid(c)
    ensures ApplyAll(DrawInstructions.Step, r, Pieces("", c)) == Ok(r.(values := Stored(r.values, "", c)))
  {
    PlainReadKeys();
    DrawPiece(r, c, Red, c.red);
    var t1 := r.(values := r.values["red" := c.red]);
    DrawPiece(t1, c, Green, c.green);
    var t2 := t1.(values := t1.values["green" := c.green]);
    DrawPiece(t2, c, Blue, c.blue);
    var t3 := t2.(values := t2.values["blue" := c.blue]);
    ThreeSteps(DrawInstructions.Step, r, Piece("", Red, c), Piece("", Green, c), Piece("", Blue, c), t1, t2, t3);
  }

  /** Storing `c` under the channel keys of a draw reading changes only the colour
      of the instruction it finishes as. */
  lemma DrawFinishColor(r: DrawInstructions.Reading, c: Color)
    requires Valid(c)
    ensures DrawInstructions.Finish(r.(values := Stored(r.values, "", c))) == DrawInstructions.Finish(r).(color := c)
  {
    PlainReadKeys();
    var t := r.(values := Stored(r.values, "", c));
    assert t.values == r.values["red" := c.red]["green" := c.green]["blue" := c.blue];
    assert DrawInstructions.Value(t, "red") == c.red;
    assert DrawInstructions.Value(t, "green") == c.green;
    assert DrawInstructions.Value(t, "blue") == c.blue;
    assert forall k :: k != "red" && k != "green" && k != "blue" ==>
      DrawInstructions.Value(t, k) == DrawInstructions.Value(r, k);
  }

  /** A record line that already ends in a comma is broken by the append: the empty
      field between the two commas has no `=`, and the reader fails on it. */
  lemma TrailingCommaBreaks(line: string, c: Color, prefix: string)
    requires DrawInstructions.ParseRecord(line).Ok?
    requires |line| > 0 && line[|line| - 1] != ','
    requires Valid(c) && ReadablePrefix(prefix)
    ensures DrawInstructions.ParseRecord(line + "," + ColorToRgb(Some(c), prefix)) == Fail(IndexOutOfBounds)
  {
    var r := ApplyAll(DrawInstructions.Step, DrawInstructions.Initial, Fields(line)).value;
    RgbPieces(c, prefix);
    var pieces := Pieces(prefix, c);
    var tail := Piece(prefix, Red, c) + [','] + (Piece(prefix, Green, c) + [','] + Piece(prefix, Blue, c));
    EmptyFieldAfter(line, tail);
    ApplyAllAppend(DrawInstructions.Step, DrawInstructions.Initial, Fields(line), [""] + pieces);
    EmptyFieldFails(DrawInstructions.Step, r, pieces);
  }

  /** A comma appended to a line before a comma-led tail makes an empty field. */
  lemma EmptyFieldAfter(line: string, tail: string)
    requires |line| > 0 && line[|line| - 1] != ','
    requires |tail| > 0 && tail[|tail| - 1] != ','
    ensures Fields(line + "," + ([','] + tail)) == Fields(line) + ([""] + SplitAll(tail, ','))
  {
    var led := [','] + tail;
    assert line + "," + led == line + ([','] + led);
    FieldsAfter(line, led);
    assert led[1..] == tail;
  }

  /** Any reader fails on an empty field: it has no `=`. */
  lemma EmptyFieldFails<S>(step: (S, string, string) -> Result<S>, s: S, rest: seq<string>)
    ensures ApplyAll(step, s, [""] + rest) == Fail(IndexOutOfBounds)
  {
    assert ([""] + rest)[0] == "";
    assert Split("", '=') == [""];
  }
}

=== FILE: instruction_records.dfy ===
/** The record grammar shared by both instruction readers: a line is split at `,`
    into fields, each field is split at `=`, and the first two pieces, trimmed and
    lower-cased, are the key and the value. The fields are then applied in order
    to the reader's state by a per-reader step, the first failure ending the read. */
module InstructionRecords {
  import opened Wrappers
  import opened JavaString
  import opened JavaInt

  /** `field.split("=")` followed by `pieces[0].trim().toLowerCase()` and
      `pieces[1].trim().toLowerCase()`. Fewer than two pieces is an
      ArrayIndexOutOfBoundsException; pieces after the second are ignored. */
  function KeyValue(field: string): (r: Result<(string, string)>)
    ensures r.Ok? <==> |Split(field, '=')| >= 2
    ensures r.Fail? ==> r.error == IndexOutOfBounds
    ensures r.Ok? ==> '=' !in r.value.0 && '=' !in r.value.1
  {
    var pieces := Split(field, '=');
    if |pieces| < 2 then Fail(IndexOutOfBounds)
    else Ok((ToLower(Trim(pieces[0])), ToLower(Trim(pieces[1]))))
  }

  /** The fields of a record line: `instructLine.split(",")`. */
  function Fields(line: string): seq<string> {
    Split(line, ',')
  }

  /** One field applied to the reader state `s` by `step`. */
  function ApplyField<S>(step: (S, string, string) -> Result<S>, s: S, field: string): Result<S> {
    match KeyValue(field)
    case Fail(e) => Fail(e)
    case Ok(kv) => step(s, kv.0, kv.1)
  }

  /** The `for (String field : instructFields)` loop: the fields applied left to
      right, stopping at the first exception. */
  function ApplyAll<S>(step: (S, string, string) -> Result<S>, s: S, fields: seq<string>): Result<S>
    decreases |fields|
  {
    if |fields| == 0 then Ok(s)
    else
      match ApplyField(step, s, fields[0])
      case Fail(e) => Fail(e)
      case Ok(t) => ApplyAll(step, t, fields[1..])
  }

  /** A first field that applies cleanly hands its state to the rest. */
  lemma FirstStep<S>(step: (S, string, string) -> Result<S>, s: S, f: string, rest: seq<string>, t: S)
    requires ApplyField(step, s, f) == Ok(t)
    ensures ApplyAll(step, s, [f] + rest) == ApplyAll(step, t, rest)
  {
    assert ([f] + rest)[0] == f;
    assert ([f] + rest)[1..] == rest;
  }

  /** A line without `,` is a single field. */
  lemma SingleField(line: string)
    requires ',' !in line
    ensures Fields(line) == [line]
  {
  }

  /** Applying one field is `ApplyField`. */
  lemma ApplyOne<S>(step: (S, string, string) -> Result<S>, s: S, field: string)
    ensures ApplyAll(step, s, [field]) == ApplyField(step, s, field)
  {
    assert [field][1..] == [];
  }

  /** Applying `a + b` is applying `a`, then `b` to the outcome. */
  lemma {:induction false} ApplyAllAppend<S>(step: (S, string, string) -> Result<S>, s: S,
                                             a: seq<string>, b: seq<string>)
    ensures ApplyAll(step, s, a + b) ==
      match ApplyAll(step, s, a)
      case Fail(e) => Fail(e)
      case Ok(t) => ApplyAll(step, t, b)
    decreases |a|
  {
    if |a| == 0 {
      assert a + b == b;
    } else {
      assert (a + b)[0] == a[0];
      assert (a + b)[1..] == a[1..] + b;
      match ApplyField(step, s, a[0])
      case Fail(e) =>
      case Ok(t) => ApplyAllAppend(step, t, a[1..], b);
    }
  }

  /** A field `accepts` would let through: it has a value, and `accepts` agrees. */
  predicate FieldAccepted(accepts: (string, string) -> bool, field: string) {
    KeyValue(field).Ok? && accepts(KeyValue(field).value.0, KeyValue(field).value.1)
  }

  /** When whether a step fails depends only on the key and the value, a record reads
      without an exception exactly when every field has a value and is accepted. */
  lemma {:induction false} ApplyAllSucceeds<S>(step: (S, string, string) -> Result<S>,
                                               accepts: (string, string) -> bool,
                                               s: S, fields: seq<string>)
    requires forall t, k, v :: step(t, k, v).Ok? == accepts(k, v)
    ensures ApplyAll(step, s, fields).Ok? <==>
      forall i :: 0 <= i < |fields| ==> FieldAccepted(accepts, fields[i])
    decreases |fields|
  {
    if |fields| > 0 {
      AcceptedStep(step, accepts, s, fields[0]);
      match ApplyField(step, s, fields[0])
      case Fail(e) =>
        assert !FieldAccepted(accepts, fields[0]);
      case Ok(t) =>
        var rest := fields[1..];
        assert ApplyAll(step, s, fields) == ApplyAll(step, t, rest);
        ApplyAllSucceeds(step, accepts, t, rest);
        if ApplyAll(step, t, rest).Ok? {
          forall i | 0 <= i < |fields|
            ensures FieldAccepted(accepts, fields[i])
          {
            if i > 0 {
              assert fields[i] == rest[i - 1];
            }
          }
        } else {
          var j :| 0 <= j < |rest| && !FieldAccepted(accepts, rest[j]);
          assert fields[j + 1] == rest[j];
        }
    }
  }

  /** One field goes through exactly when it is accepted. */
  lemma AcceptedStep<S>(step: (S, string, string) -> Result<S>, accepts: (string, string) -> bool,
                        s: S, field: string)
    requires forall t, k, v :: step(t, k, v).Ok? == accepts(k, v)
    ensures ApplyField(step, s, field).Ok? == FieldAccepted(accepts, field)
  {
  }

  /** A field whose key the step ignores can be dropped from anywhere in a record. */
  lemma IgnoredFieldDropped<S>(step: (S, string, string) -> Result<S>, s: S,
                               a: seq<string>, field: string, b: seq<string>)
    requires KeyValue(field).Ok?
    requires forall t :: step(t, KeyValue(field).value.0, KeyValue(field).value.1) == Ok(t)
    ensures ApplyAll(step, s, a + [field] + b) == ApplyAll(step, s, a + b)
  {
    ApplyAllAppend(step, s, a + [field], b);
    ApplyAllAppend(step, s, a, [field]);
    ApplyAllAppend(step, s, a, b);
  }

  /** `field` has a value and its key is `key`. */
  predicate HasKey(field: string, key: string) {
    KeyValue(field).Ok? && KeyValue(field).value.0 == key
  }

  /** The position of the last element of `xs` that satisfies `p`, if any. */
  function LastWhere<T>(xs: seq<T>, p: T -> bool): (r: Option<nat>)
    ensures r.None? ==> forall i :: 0 <= i < |xs| ==> !p(xs[i])
    ensures r.Some? ==> && r.value < |xs| && p(xs[r.value])
                        && forall j :: r.value < j < |xs| ==> !p(xs[j])
  {
    if |xs| == 0 then None
    else if p(xs[|xs| - 1]) then Some(|xs| - 1)
    else
      var r := LastWhere(xs[..|xs| - 1], p);
      assert forall i :: 0 <= i < |xs| - 1 ==> xs[..|xs| - 1][i] == xs[i];
      r
  }

  /** The last match in `[x] + xs` is the last match in `xs`, shifted, or else `x`. */
  lemma {:induction false} LastWhereCons<T>(x: T, xs: seq<T>, p: T -> bool)
    ensures LastWhere([x] + xs, p) ==
      match LastWhere(xs, p)
      case Some(i) => Some(i + 1)
      case None => if p(x) then Some(0) else None
    decreases |xs|
  {
    var ys := [x] + xs;
    if |xs| > 0 {
      assert ys[..|ys| - 1] == [x] + xs[..|xs| - 1];
      LastWhereCons(x, xs[..|xs| - 1], p);
    }
  }

  /** The test "this field's key is `key`". */
  function KeyIs(key: string): string -> bool {
    f => HasKey(f, key)
  }

  /** The position of the last field whose key is `key`, if any. */
  function LastIndex(fields: seq<string>, key: string): (r: Option<nat>)
    ensures r.None? ==> forall i :: 0 <= i < |fields| ==> !HasKey(fields[i], key)
    ensures r.Some? ==> && r.value < |fields| && HasKey(fields[r.value], key)
                        && forall j :: r.value < j < |fields| ==> !HasKey(fields[j], key)
  {
    LastWhere(fields, KeyIs(key))
  }

  /** The value of the last field whose key is `key`, if any: the one that wins. */
  function LastValue(fields: seq<string>, key: string): Option<string> {
    match LastIndex(fields, key)
    case None => None
    case Some(i) => Some(KeyValue(fields[i]).value.1)
  }

  /** What a reader ends up with for `key`: `default` when no field sets it,
      otherwise the decoded value of the last field that does. */
  function Setting<T>(fields: seq<string>, key: string, default: T, decode: string -> T): T {
    match LastValue(fields, key)
    case None => default
    case Some(v) => decode(v)
  }

  /** The number a numeric field holds once `Integer.parseInt` has accepted it. */
  function IntValue(value: string): Int32 {
    match ParseInt(value)
    case Ok(n) => n
    case Fail(_) => 0
  }

  /** The `switch` contract of one assignment: the field with key `key` overwrites
      what `get` projects with its decoded value, every other key leaves it alone. */
  ghost predicate AssignsSlot<S(!new), T>(step: (S, string, string) -> Result<S>, get: S -> T,
                                    key: string, decode: string -> T) {
    && (forall t, v :: step(t, key, v).Ok? ==> get(step(t, key, v).value) == decode(v))
    && (forall t, k, v :: k != key && step(t, k, v).Ok? ==> get(step(t, k, v).value) == get(t))
  }

  /** Later fields override earlier ones: after a successful read, a slot holds the
      value of the last field naming it, or its initial value when none does. */
  lemma {:induction false} LastWins<S(!new), T>(step: (S, string, string) -> Result<S>, get: S -> T,
                                                key: string, decode: string -> T,
                                                s: S, fields: seq<string>)
    requires AssignsSlot(step, get, key, decode)
    requires ApplyAll(step, s, fields).Ok?
    ensures get(ApplyAll(step, s, fields).value) == Setting(fields, key, get(s), decode)
    decreases |fields|
  {
    if |fields| > 0 {
      var first, rest := fields[0], fields[1..];
      var t := ApplyField(step, s, first).value;
      var seeded := SlotStep(step, get, key, decode, s, first);
      LastWins(step, get, key, decode, t, rest);
      SettingFirst(fields, key, get(s), decode);
    }
  }

  /** `SettingCons` for a non-empty sequence of fields, split at its head. */
  lemma SettingFirst<T>(fields: seq<string>, key: string, default: T, decode: string -> T)
    requires |fields| > 0
    ensures Setting(fields, key, default, decode) ==
      Setting(fields[1..], key, if HasKey(fields[0], key) then decode(KeyValue(fields[0]).value.1) else default, decode)
  {
    assert fields == [fields[0]] + fields[1..];
    SettingCons(fields[0], fields[1..], key, default, decode);
  }

  /** One field applied to a slot: it takes the field's decoded value when the
      field names it, and is left alone otherwise. */
  lemma SlotStep<S(!new), T>(step: (S, string, string) -> Result<S>, get: S -> T,
                             key: string, decode: string -> T, s: S, field: string) returns (v: T)
    requires AssignsSlot(step, get, key, decode)
    requires ApplyField(step, s, field).Ok?
    ensures v == if HasKey(field, key) then decode(KeyValue(field).value.1) else get(s)
    ensures get(ApplyField(step, s, field).value) == v
  {
    v := if HasKey(field, key) then decode(KeyValue(field).value.1) else get(s);
  }

  /** Prepending a field matters to a setting only when no later field names its key. */
  lemma SettingCons<T>(first: string, rest: seq<string>, key: string, default: T, decode: string -> T)
    ensures Setting([first] + rest, key, default, decode) ==
      Setting(rest, key, if HasKey(first, key) then decode(KeyValue(first).value.1) else default, decode)
  {
    LastValueCons(first, rest, key);
  }

  /** The winning value of `[first] + rest` is the one of `rest`, or else `first`'s. */
  lemma LastValueCons(first: string, rest: seq<string>, key: string)
    ensures LastValue([first] + rest, key) ==
      if LastValue(rest, key).Some? then LastValue(rest, key)
      else if HasKey(first, key) then Some(KeyValue(first).value.1)
      else None
  {
    match LastIndex(rest, key)
    case None => FirstOnly(first, rest, key);
    case Some(i) =>
      LaterWins(first, rest, key, i);
  }

  /** The last field of `[first] + rest` naming `key`: the last one in `rest`,
      shifted, or else `first` itself. */
  lemma LastIndexCons(first: string, rest: seq<string>, key: string)
    ensures LastIndex([first] + rest, key) ==
      match LastIndex(rest, key)
      case Some(i) => Some(i + 1)
      case None => if KeyIs(key)(first) then Some(0) else None
  {
    LastWhereCons(first, rest, KeyIs(key));
  }

  /** When no field of `rest` names `key`, only `first` can. */
  lemma FirstOnly(first: string, rest: seq<string>, key: string)
    requires LastIndex(rest, key) == None
    ensures LastValue(rest, key) == None
    ensures LastValue([first] + rest, key) == if HasKey(first, key) then Some(KeyValue(first).value.1) else None
  {
    LastIndexCons(first, rest, key);
    assert KeyIs(key)(first) == HasKey(first, key);
    assert ([first] + rest)[0] == first;
  }

  /** A field of `rest` naming `key` is still the last one once `first` is prepended. */
  lemma LaterIndex(first: string, rest: seq<string>, key: string, i: nat)
    requires LastIndex(rest, key) == Some(i)
    ensures LastIndex([first] + rest, key) == Some(i + 1)
  {
    LaterWhere(first, rest, KeyIs(key), i);
  }

  /** A match in `xs` stays the last match, shifted by one, once `x` is prepended. */
  lemma LaterWhere<T>(x: T, xs: seq<T>, p: T -> bool, i: nat)
    requires LastWhere(xs, p) == Some(i)
    ensures LastWhere([x] + xs, p) == Some(i + 1)
  {
    LastWhereCons(x, xs, p);
  }

  /** A field of `rest` naming `key` wins over `first`. */
  lemma LaterWins(first: string, rest: seq<string>, key: string, i: nat)
    requires LastIndex(rest, key) == Some(i)
    ensures LastValue([first] + rest, key) == LastValue(rest, key)
  {
    LaterIndex(first, rest, key, i);
    var all := [first] + rest;
    assert LastValue(all, key) == Some(KeyValue(all[i + 1]).value.1);
    assert all[i + 1] == rest[i];
  }

  /** Some field has a value and a key in `keys`. */
  predicate AnyKey(fields: seq<string>, keys: set<string>) {
    exists i :: 0 <= i < |fields| && KeyValue(fields[i]).Ok? && KeyValue(fields[i]).value.0 in keys
  }

  /** The `switch` contract of a flag: every key in `keys` raises it and every
      other key leaves it alone. */
  ghost predicate RaisesFlag<S(!new)>(step: (S, string, string) -> Result<S>, flag: S -> bool,
                                      keys: set<string>) {
    && (forall t, k, v :: k in keys && step(t, k, v).Ok? ==> flag(step(t, k, v).value))
    && (forall t, k, v :: k !in keys && step(t, k, v).Ok? ==> flag(step(t, k, v).value) == flag(t))
  }

  /** A flag that every key in `keys` raises and every other key leaves alone is
      raised after a successful read exactly when it started raised or such a key
      appeared. */
  lemma {:induction false} FlagRaised<S(!new)>(step: (S, string, string) -> Result<S>, flag: S -> bool,
                                               keys: set<string>, s: S, fields: seq<string>)
    requires RaisesFlag(step, flag, keys)
    requires ApplyAll(step, s, fields).Ok?
    ensures flag(ApplyAll(step, s, fields).value) <==> flag(s) || AnyKey(fields, keys)
    decreases |fields|
  {
    if |fields| > 0 {
      var kv := KeyValue(fields[0]).value;
      var t := step(s, kv.0, kv.1).value;
      FlagRaised(step, flag, keys, t, fields[1..]);
      if AnyKey(fields[1..], keys) {
        var i :| 0 <= i < |fields[1..]| && KeyValue(fields[1..][i]).Ok? && KeyValue(fields[1..][i]).value.0 in keys;
        assert fields[i + 1] == fields[1..][i];
      }
      if AnyKey(fields, keys) && kv.0 !in keys {
        var i :| 0 <= i < |fields| && KeyValue(fields[i]).Ok? && KeyValue(fields[i]).value.0 in keys;
        assert i > 0 && fields[1..][i - 1] == fields[i];
      }
    }
  }

  /** The field `key=value` itself, however much padding precedes it. */
  lemma KeyValueOf(pad: string, key: string, value: string)
    requires forall i :: 0 <= i < |pad| ==> IsTrimmable(pad[i])
    requires |key| > 0 && |value| > 0 && '=' !in key && '=' !in value
    requires !IsTrimmable(key[0]) && !IsTrimmable(key[|key| - 1])
    requires !IsTrimmable(value[0]) && !IsTrimmable(value[|value| - 1])
    requires forall i :: 0 <= i < |value| ==> !IsUpper(value[i])
    ensures KeyValue(pad + key + "=" + value) == Ok((ToLower(key), value))
  {
    var field := pad + key + "=" + value;
    assert '=' !in pad + key by {
      assert forall i :: 0 <= i < |pad| ==> pad[i] != '=';
    }
    assert field == (pad + key) + ['='] + value;
    SplitAllAppend(pad + key, value, '=');
    SplitAllNoSeparator(pad + key, '=');
    SplitAllNoSeparator(value, '=');
    assert Split(field, '=') == [pad + key, value] by {
      assert '=' in field by { assert field[|pad + key|] == '='; }
      assert SplitAll(field, '=') == [pad + key, value];
    }
    TrimPadded(pad, key);
    TrimNoOp(value);
    ToLowerNoOp(value);
  }

  /** `k=v` reads as the trimmed, lower-cased `k` and `v`; with an empty `v` the
      trailing empty piece is dropped by `split`, leaving one piece, which throws. */
  lemma KeyValuePair(k: string, v: string)
    requires '=' !in k && '=' !in v
    ensures |v| > 0 ==> KeyValue(k + "=" + v) == Ok((ToLower(Trim(k)), ToLower(Trim(v))))
    ensures |v| == 0 ==> KeyValue(k + "=" + v) == Fail(IndexOutOfBounds)
  {
    var field := k + "=" + v;
    assert field == k + ['='] + v;
    SplitAllAppend(k, v, '=');
    SplitAllNoSeparator(k, '=');
    SplitAllNoSeparator(v, '=');
    assert SplitAll(field, '=') == [k, v];
    assert '=' in field by {
      assert field[|k|] == '=';
    }
    if |v| > 0 {
      assert SplitAll(field, '=') == [k, v] + [];
      FirstTwoPieces(field, k, v, []);
    } else {
      var ps := Split(field, '=');
      if |ps| >= 2 {
        assert false;
      }
    }
  }

  /** In `k=v=rest` the value is the second piece, `v`: whatever follows the second
      `=` is ignored. */
  lemma SecondPieceIsValue(k: string, v: string, rest: string)
    requires '=' !in k && '=' !in v && |v| > 0
    ensures KeyValue(k + "=" + v + "=" + rest) == Ok((ToLower(Trim(k)), ToLower(Trim(v))))
  {
    var field := k + "=" + v + "=" + rest;
    var after := v + ['='] + rest;
    assert field == k + ['='] + after;
    SplitAllAppend(k, after, '=');
    SplitAllAppend(v, rest, '=');
    SplitAllNoSeparator(k, '=');
    SplitAllNoSeparator(v, '=');
    assert SplitAll(field, '=') == [k, v] + SplitAll(rest, '=');
    assert '=' in field by {
      assert field[|k|] == '=';
    }
    FirstTwoPieces(field, k, v, SplitAll(rest, '='));
  }

  /** When the `=`-pieces of a field begin with `k` and a non-empty `v`, the field
      reads as the trimmed, lower-cased `k` and `v`. */
  lemma FirstTwoPieces(field: string, k: string, v: string, tail: seq<string>)
    requires '=' in field && |v| > 0
    requires SplitAll(field, '=') == [k, v] + tail
    ensures KeyValue(field) == Ok((ToLower(Trim(k)), ToLower(Trim(v))))
  {
    var all := SplitAll(field, '=');
    var ps := Split(field, '=');
    assert all[1] == v;
    if |ps| < 2 {
      assert false;
    }
    assert ps[0] == all[0] == k;
    assert ps[1] == all[1];
  }

  /** Lower-case letters, digits and the minus sign: characters every step of the
      field grammar leaves alone. */
  predicate IsPlain(c: char) {
    'a' <= c <= 'z' || '0' <= c <= '9' || c == '-'
  }

  /** What the field grammar needs to know of plain text. */
  lemma PlainText(s: string)
    requires |s| > 0 && forall i :: 0 <= i < |s| ==> IsPlain(s[i])
    ensures '=' !in s && ',' !in s
    ensures !IsTrimmable(s[0]) && !IsTrimmable(s[|s| - 1])
    ensures forall i :: 0 <= i < |s| ==> !IsUpper(s[i])
  {
  }

  /** A single `key=value` field of plain characters reads as that key and value. */
  lemma PlainField(key: string, value: string)
    requires |key| > 0 && |value| > 0
    requires forall i :: 0 <= i < |key| ==> IsPlain(key[i])
    requires forall i :: 0 <= i < |value| ==> IsPlain(value[i])
    ensures Fields(key + "=" + value) == [key + "=" + value]
    ensures KeyValue(key + "=" + value) == Ok((key, value))
  {
    var field := key + "=" + value;
    assert Fields(field) == [field] by {
      PlainText(key);
      PlainText(value);
      assert ',' !in field;
      SingleField(field);
    }
    assert KeyValue(field) == Ok((key, value)) by {
      PlainText(key);
      PlainText(value);
      assert "" + key == key;
      KeyValueOf("", key, value);
      ToLowerNoOp(key);
    }
  }

  /** A record made of the one field `key=n`, with `n` written as `Integer.toString`
      writes it, is read as the step for `key` with that text, which parses back to `n`. */
  lemma IntField<S>(step: (S, string, string) -> Result<S>, s: S, key: string, n: Int32)
    requires |key| > 0 && forall i :: 0 <= i < |key| ==> IsPlain(key[i])
    ensures ApplyAll(step, s, Fields(key + "=" + IntToString(n))) == step(s, key, IntToString(n))
    ensures ParseInt(IntToString(n)) == Ok(n)
  {
    var text := IntToString(n);
    assert forall i :: 0 <= i < |text| ==> IsPlain(text[i]) by {
      if n < 0 {
        assert text == "-" + NatToString(-(n as int));
        assert AllDigits(NatToString(-(n as int)));
      } else {
        assert AllDigits(text);
      }
    }
    PlainField(key, text);
    ApplyOne(step, s, key + "=" + text);
    ParseIntToString(n);
  }

  /** Leading padding is trimmed away. */
  lemma {:induction false} TrimPadded(pad: string, s: string)
    requires forall i :: 0 <= i < |pad| ==> IsTrimmable(pad[i])
    requires |s| > 0 && !IsTrimmable(s[0]) && !IsTrimmable(s[|s| - 1])
    ensures Trim(pad + s) == s
    decreases |pad|
  {
    if |pad| == 0 {
      assert pad + s == s;
      TrimNoOp(s);
    } else {
      assert (pad + s)[1..] == pad[1..] + s;
      TrimPadded(pad[1..], s);
      assert TrimLeft(pad + s) == TrimLeft(pad[1..] + s);
    }
  }
}

=== FILE: java_int.dfy ===
/** Java `int` arithmetic: 32-bit two's-complement wrap-around, and division that
    truncates toward zero (Dafny's own `/` on `int` is Euclidean). */
module JavaInt {

  const MIN_VALUE: int := -0x8000_0000
  const MAX_VALUE: int := 0x7fff_ffff
  const MODULUS: int := 0x1_0000_0000

  predicate InRange(x: int) {
    MIN_VALUE <= x <= MAX_VALUE
  }

  /** A value of Java type `int`. */
  type Int32 = x: int | InRange(x)

  function Abs(x: int): int {
    if x < 0 then -x else x
  }

  /** `Math.max(1, n)`, the lower bound the instructions put on sizes, scales and
      repeat counts. */
  function AtLeastOne(n: Int32): (r: Int32)
    ensures r >= 1
    ensures n >= 1 ==> r == n
    ensures n < 1 ==> r == 1
  {
    if n > 1 then n else 1
  }

  /** The Java `int` that `x` wraps around to: the one congruent to `x` modulo 2^32. */
  function Wrap(x: int): (r: Int32)
    ensures (x - r) % MODULUS == 0
    ensures InRange(x) ==> r == x
  {
    (x - MIN_VALUE) % MODULUS + MIN_VALUE
  }

  /** Java `a + b` on `int`. */
  function Add(a: Int32, b: Int32): Int32 {
    Wrap(a + b)
  }

  /** Java `a - b` on `int`. */
  function Sub(a: Int32, b: Int32): Int32 {
    Wrap(a - b)
  }

  /** Java `a * b` on `int`. */
  function Mul(a: Int32, b: Int32): Int32 {
    Wrap(a * b)
  }

  /** The mathematical quotient of Java's `/`: rounded toward zero. */
  function Quot(a: int, b: int): (q: int)
    requires b != 0
    ensures a >= 0 ==> 0 <= a - q * b < Abs(b)
    ensures a < 0 ==> -Abs(b) < a - q * b <= 0
  {
    var m := Abs(a) / Abs(b);
    var q := if a == 0 then 0 else if (a > 0) == (b > 0) then m else -m;
    QuotRemainder(a, b, q);
    q
  }

  /** The remainder left by a quotient rounded toward zero has the sign of the dividend. */
  lemma QuotRemainder(a: int, b: int, q: int)
    requires b != 0
    requires q == if a == 0 then 0 else if (a > 0) == (b > 0) then Abs(a) / Abs(b) else -(Abs(a) / Abs(b))
    ensures a >= 0 ==> 0 <= a - q * b < Abs(b)
    ensures a < 0 ==> -Abs(b) < a - q * b <= 0
  {
    var m := Abs(a) / Abs(b);
    NatDivision(Abs(a), Abs(b));
    if a == 0 {
    } else if a > 0 && b > 0 {
    } else if a < 0 && b < 0 {
      assert q == m && Abs(b) == -b;
      assert q * b == -(m * Abs(b));
    } else if a > 0 {
      assert q == -m && Abs(b) == -b;
      assert q * b == m * Abs(b) by { assert q * b == (-q) * (-b); }
    } else {
      assert q * b == -(m * Abs(b));
    }
  }

  /** Euclidean division of naturals leaves a remainder below the divisor. */
  lemma NatDivision(n: nat, d: nat)
    requires d > 0
    ensures 0 <= n - (n / d) * d < d
  {
  }

  /** Java `a / b` on `int` (only `MIN_VALUE / -1` wraps). */
  function Div(a: Int32, b: Int32): Int32
    requires b != 0
  {
    Wrap(Quot(a, b))
  }

  /** On non-negative operands Java's `/` agrees with Euclidean division. */
  lemma DivNonNegative(a: Int32, b: Int32)
    requires a >= 0 && b > 0
    ensures Div(a, b) == a / b
  {
    assert Abs(a) == a && Abs(b) == b;
    var q := a / b;
    QuotientBound(a, b);
    assert 0 <= q <= a;
    assert InRange(a);
    assert Quot(a, b) == q;
  }

  /** Dividing a natural by a positive natural does not make it larger. */
  lemma QuotientBound(n: nat, d: nat)
    requires d > 0
    ensures 0 <= n / d <= n
  {
    var q: nat := n / d;
    NatDivision(n, d);
    var c: nat := d - 1;
    assert q * d == q * c + q;
    assert q * c >= 0;
  }

  /** Java's `(int)` cast of a floating-point value, taken exactly: rounds toward
      zero and saturates at the ends of the `int` range. */
  function CastToInt(x: real): (r: Int32)
    ensures x >= 0.0 ==> 0 <= r && r as real <= x && (r == MAX_VALUE || x < r as real + 1.0)
    ensures x <= 0.0 ==> r <= 0 && x <= r as real && (r == MIN_VALUE || r as real - 1.0 < x)
  {
    if x >= MAX_VALUE as real then MAX_VALUE
    else if x <= MIN_VALUE as real then MIN_VALUE
    else if x >= 0.0 then x.Floor
    else -((-x).Floor)
  }

  /** Two integers congruent modulo 2^32 wrap to the same Java `int`. */
  lemma WrapCongruent(x: int, y: int)
    requires (x - y) % MODULUS == 0
    ensures Wrap(x) == Wrap(y)
  {
    var k := (x - y) / MODULUS;
    assert x - MIN_VALUE == (y - MIN_VALUE) + k * MODULUS;
  }

  /** Wrapping an intermediate sum does not change the wrapped total. */
  lemma WrapAddLeft(x: int, y: int)
    ensures Wrap(Wrap(x) + y) == Wrap(x + y)
  {
    WrapCongruent(Wrap(x) + y, x + y);
  }

  /** `(a + o) - o == a` on Java `int`s, overflow or not. */
  lemma AddThenSub(a: Int32, o: Int32)
    ensures Sub(Add(a, o), o) == a
  {
    WrapAddLeft(a as int + o as int, -(o as int));
  }

  /** Repeated Java additions of the same offset add up modulo 2^32. */
  lemma AddAccumulates(a: Int32, o: Int32, n: nat)
    ensures Add(Wrap(a + n * o), o) == Wrap(a + (n + 1) * o)
  {
    WrapAddLeft(a + n * o, o);
  }

  /** A difference that fits in an `int` is computed exactly, and so is its `double`. */
  lemma SubExact(a: Int32, b: Int32)
    requires InRange(a - b)
    ensures Sub(a, b) == a - b
    ensures Sub(a, b) as real + b as real == a as real
  {
  }

  /** Casting a real that is already a 32-bit integer gives that integer back. */
  lemma CastExact(n: Int32)
    ensures CastToInt(n as real) == n
  {
    var m: int := n;
    assert InRange(m);
    assert (m as real).Floor == m;
    assert (-(m as real)).Floor == -m;
  }

  /** Cancelling a positive factor from a strict inequality. */
  lemma MulCancel(a: int, b: int, d: int)
    requires d > 0 && a * d < b * d
    ensures a < b
  {
  }

  /** A quotient of a value between `lo * d` and `hi * d` lies between `lo` and `hi`. */
  lemma DivideBetween(w: int, lo: int, hi: int, d: nat)
    requires d > 0 && lo * d <= w <= hi * d
    ensures lo <= w / d <= hi
  {
    var q := w / d;
    assert q * d <= w < (q + 1) * d;
    MulCancel(lo, q + 1, d);
    MulCancel(q, hi + 1, d);
  }

  /** A dividend below `b * d` has a quotient below `b`. */
  lemma QuotientBelow(w: int, b: int, d: nat)
    requires d > 0 && w < b * d
    ensures w / d < b
  {
    var q := w / d;
    assert q * d <= w;
    MulCancel(q, b, d);
  }

  /** Euclidean division by a positive divisor is monotone in the dividend. */
  lemma DivisionMonotone(a: int, b: int, d: nat)
    requires d > 0 && a <= b
    ensures a / d <= b / d
  {
    var qa := a / d;
    var qb := b / d;
    assert qa * d <= a <= b < (qb + 1) * d;
    MulCancel(qa, qb + 1, d);
  }
}

=== FILE: java_scanner.dfy ===
/** The two `java.util.Scanner` calls the drawing reader makes: `nextLine()` and
    `hasNext()`. A scanner is the text that remains to be read. */
module JavaScanner {
  import opened Wrappers

  /** The line separators `nextLine` recognises: LF, CR, NEL, LINE SEPARATOR and
      PARAGRAPH SEPARATOR (`\r\n` counts as one separator). */
  predicate IsLineTerminator(c: char) {
    c as int in {0x0A, 0x0D, 0x85, 0x2028, 0x2029}
  }

  /** `Character.isWhitespace`, the scanner's default token delimiter: the ASCII
      controls TAB..CR and FS..US, and the Unicode space, line and paragraph
      separators other than the no-break spaces U+00A0, U+2007 and U+202F. */
  predicate IsWhitespace(c: char) {
    var n := c as int;
    || 0x09 <= n <= 0x0D
    || 0x1C <= n <= 0x20
    || n == 0x1680
    || 0x2000 <= n <= 0x2006
    || 0x2008 <= n <= 0x200A
    || n in {0x2028, 0x2029, 0x205F, 0x3000}
  }

  /** `hasNext()`: some token, that is some non-whitespace character, remains. */
  predicate HasNext(rest: string) {
    exists k :: 0 <= k < |rest| && !IsWhitespace(rest[k])
  }

  /** The number of characters before the first line separator of `s`. */
  function LineLength(s: string): (n: nat)
    ensures n <= |s|
    ensures forall k :: 0 <= k < n ==> !IsLineTerminator(s[k])
    ensures n < |s| ==> IsLineTerminator(s[n])
  {
    if |s| == 0 || IsLineTerminator(s[0]) then 0 else 1 + LineLength(s[1..])
  }

  /** `nextLine()`: the text up to the next line separator, and the text after that
      separator; NoSuchElementException once nothing is left. */
  function NextLine(rest: string): (r: Result<(string, string)>)
    ensures r.Fail? <==> |rest| == 0
    ensures r.Fail? ==> r.error == NoSuchElement
    ensures r.Ok? ==> var (line, after) := r.value;
      && |after| < |rest|
      && |line| + |after| <= |rest|
      && line == rest[..|line|]
      && after == rest[|rest| - |after|..]
      && (forall k :: 0 <= k < |line| ==> !IsLineTerminator(line[k]))
      && (forall k :: |line| <= k < |rest| - |after| ==> IsLineTerminator(rest[k]))
  {
    if |rest| == 0 then Fail(NoSuchElement)
    else
      var n := LineLength(rest);
      var skip :=
        if n == |rest| then 0
        else if rest[n] == '\r' && n + 1 < |rest| && rest[n + 1] == '\n' then 2
        else 1;
      Ok((rest[..n], rest[n + skip..]))
  }

  /** A line without separators followed by a newline is read back whole. */
  lemma NextLineReadsLine(line: string, after: string)
    requires forall k :: 0 <= k < |line| ==> !IsLineTerminator(line[k])
    ensures NextLine(line + "\n" + after) == Ok((line, after))
  {
    var s := line + "\n" + after;
    assert s[..|line|] == line;
    LineLengthOf(line, after);
    assert s[|line| + 1..] == after;
  }

  /** A line free of line terminators is measured up to the newline after it. */
  lemma {:induction false} LineLengthOf(line: string, after: string)
    requires forall k :: 0 <= k < |line| ==> !IsLineTerminator(line[k])
    ensures LineLength(line + "\n" + after) == |line|
    decreases |line|
  {
    if |line| > 0 {
      assert (line + "\n" + after)[1..] == line[1..] + "\n" + after;
      LineLengthOf(line[1..], after);
    }
  }
}

=== FILE: java_string.dfy ===
/** The `java.lang.String` and `Integer` operations the instruction parsers rely on:
    `trim`, `toLowerCase`, `split` on a one-character separator, `Integer.parseInt`
    and `Integer.toString`. Strings are sequences of characters. */
module JavaString {
  import opened Wrappers
  import opened JavaInt

  // ---------------------------------------------------------------------------
  // String.trim
  // ---------------------------------------------------------------------------

  /** `trim` removes every character whose code is at most U+0020. */
  predicate IsTrimmable(c: char) {
    c <= ' '
  }

  /** `s` without its leading trimmable characters. */
  function TrimLeft(s: string): (r: string)
    ensures |r| <= |s| && r == s[|s| - |r|..]
    ensures forall k :: 0 <= k < |s| - |r| ==> IsTrimmable(s[k])
    ensures |r| > 0 ==> !IsTrimmable(r[0])
  {
    if |s| > 0 && IsTrimmable(s[0]) then TrimLeft(s[1..]) else s
  }

  /** `s` without its trailing trimmable characters. */
  function TrimRight(s: string): (r: string)
    ensures |r| <= |s| && r == s[..|r|]
    ensures forall k :: |r| <= k < |s| ==> IsTrimmable(s[k])
    ensures |r| > 0 ==> !IsTrimmable(r[|r| - 1])
  {
    if |s| > 0 && IsTrimmable(s[|s| - 1]) then TrimRight(s[..|s| - 1]) else s
  }

  /** `s.trim()`: the longest middle part of `s` that neither starts nor ends with a
      trimmable character; everything cut away is trimmable. */
  function Trim(s: string): (r: string)
    ensures |r| == 0 || (!IsTrimmable(r[0]) && !IsTrimmable(r[|r| - 1]))
    ensures |r| <= |TrimLeft(s)| <= |s|
    ensures forall k :: 0 <= k < |s| && !IsTrimmable(s[k]) ==>
      |s| - |TrimLeft(s)| <= k < |s| - |TrimLeft(s)| + |r|
    ensures r == s[|s| - |TrimLeft(s)|..][..|r|]
  {
    var l := TrimLeft(s);
    var r := TrimRight(l);
    assert forall k :: |s| - |l| <= k < |s| ==> s[k] == l[k - (|s| - |l|)];
    r
  }

  /** A string that neither starts nor ends with a trimmable character is its own trim. */
  lemma TrimNoOp(s: string)
    requires |s| == 0 || (!IsTrimmable(s[0]) && !IsTrimmable(s[|s| - 1]))
    ensures Trim(s) == s
  {
  }

  /** Trimming twice is trimming once. */
  lemma TrimIdempotent(s: string)
    ensures Trim(Trim(s)) == Trim(s)
  {
    TrimNoOp(Trim(s));
  }

  // ---------------------------------------------------------------------------
  // String.toLowerCase (ASCII letters)
  // ---------------------------------------------------------------------------

  predicate IsUpper(c: char) {
    'A' <= c <= 'Z'
  }

  function LowerChar(c: char): char {
    if IsUpper(c) then (c as int + 32) as char else c
  }

  /** `s.toLowerCase()` restricted to ASCII, with no locale: each letter `A` to `Z`
      becomes its lower-case partner and every other character, non-ASCII capitals
      included, is kept. */
  function ToLower(s: string): (r: string)
    ensures |r| == |s|
    ensures forall k :: 0 <= k < |s| && IsUpper(s[k]) ==> r[k] as int == s[k] as int + 32
    ensures forall k :: 0 <= k < |s| && !IsUpper(s[k]) ==> r[k] == s[k]
    ensures forall k :: 0 <= k < |r| ==> !IsUpper(r[k])
  {
    seq(|s|, k requires 0 <= k < |s| => LowerChar(s[k]))
  }

  /** Lower-casing twice is lower-casing once. */
  lemma ToLowerIdempotent(s: string)
    ensures ToLower(ToLower(s)) == ToLower(s)
  {
  }

  /** A string without upper-case letters is unchanged by lower-casing. */
  lemma ToLowerNoOp(s: string)
    requires forall k :: 0 <= k < |s| ==> !IsUpper(s[k])
    ensures ToLower(s) == s
  {
  }

  // ---------------------------------------------------------------------------
  // String.split on a single-character separator
  // ---------------------------------------------------------------------------

  /** Every piece of `s` between separators, empty pieces included: the pieces
      Java's `split` computes before it drops the trailing empty ones. */
  function SplitAll(s: string, sep: char): (r: seq<string>)
    ensures |r| >= 1
    ensures forall k :: 0 <= k < |r| ==> sep !in r[k]
  {
    if |s| == 0 then [""]
    else
      var rest := SplitAll(s[1..], sep);
      if s[0] == sep then [""] + rest
      else [[s[0]] + rest[0]] + rest[1..]
  }

  /** The pieces `ps` glued back together with `sep` between neighbours. */
  function Join(ps: seq<string>, sep: char): string
    requires |ps| >= 1
  {
    if |ps| == 1 then ps[0] else ps[0] + [sep] + Join(ps[1..], sep)
  }

  /** Splitting and re-joining gives back the original string. */
  lemma {:induction false} JoinSplitAll(s: string, sep: char)
    ensures Join(SplitAll(s, sep), sep) == s
    decreases |s|
  {
    if |s| > 0 {
      var rest := SplitAll(s[1..], sep);
      JoinSplitAll(s[1..], sep);
      assert s == [s[0]] + s[1..];
      if s[0] == sep {
        JoinCons("", rest, sep);
      } else if |rest| == 1 {
        assert SplitAll(s, sep) == [[s[0]] + rest[0]];
      } else {
        var tail := rest[1..];
        assert rest == [rest[0]] + tail;
        JoinCons(rest[0], tail, sep);
        JoinCons([s[0]] + rest[0], tail, sep);
        ConcatAssoc([s[0]], rest[0], [sep]);
        ConcatAssoc([s[0]], rest[0] + [sep], Join(tail, sep));
      }
    }
  }

  /** Joining a piece in front of at least one more puts a separator after it. */
  lemma JoinCons(p: string, ps: seq<string>, sep: char)
    requires |ps| >= 1
    ensures Join([p] + ps, sep) == p + [sep] + Join(ps, sep)
  {
    assert ([p] + ps)[0] == p;
    assert ([p] + ps)[1..] == ps;
  }

  /** Joining pieces free of `sep` and splitting again gives back the pieces. */
  lemma {:induction false} SplitAllJoin(ps: seq<string>, sep: char)
    requires |ps| >= 1
    requires forall k :: 0 <= k < |ps| ==> sep !in ps[k]
    ensures SplitAll(Join(ps, sep), sep) == ps
    decreases |ps|
  {
    if |ps| == 1 {
      SplitAllNoSeparator(ps[0], sep);
    } else {
      SplitAllJoin(ps[1..], sep);
      SplitAllAppend(ps[0], Join(ps[1..], sep), sep);
      SplitAllNoSeparator(ps[0], sep);
    }
  }

  /** A string without the separator is a single piece. */
  lemma {:induction false} SplitAllNoSeparator(s: string, sep: char)
    requires sep !in s
    ensures SplitAll(s, sep) == [s]
    decreases |s|
  {
    if |s| > 0 {
      SplitAllNoSeparator(s[1..], sep);
      assert s == [s[0]] + s[1..];
    }
  }

  /** Pieces on either side of one separator split independently. */
  lemma {:induction false} SplitAllAppend(a: string, b: string, sep: char)
    ensures SplitAll(a + [sep] + b, sep) == SplitAll(a, sep) + SplitAll(b, sep)
    decreases |a|
  {
    if |a| == 0 {
      assert a + [sep] + b == [sep] + b;
      HeadTail([sep], b);
    } else {
      var whole := a + [sep] + b;
      HeadTail(a, [sep]);
      HeadTail(a + [sep], b);
      assert whole[0] == a[0] && whole[1..] == a[1..] + [sep] + b;
      SplitAllAppend(a[1..], b, sep);
      var left, right := SplitAll(a[1..], sep), SplitAll(b, sep);
      var rest := SplitAll(whole[1..], sep);
      assert rest == left + right;
      if a[0] == sep {
        assert SplitAll(a, sep) == [""] + left;
        assert SplitAll(whole, sep) == [""] + rest;
        ConcatAssoc([""], left, right);
      } else {
        var head := [a[0]] + left[0];
        assert SplitAll(a, sep) == [head] + left[1..];
        HeadTail(left, right);
        assert SplitAll(whole, sep) == [head] + rest[1..];
        ConcatAssoc([head], left[1..], right);
      }
    }
  }

  /** The head and tail of a concatenation whose left part is not empty. */
  lemma HeadTail<T>(x: seq<T>, y: seq<T>)
    requires |x| >= 1
    ensures (x + y)[0] == x[0] && (x + y)[1..] == x[1..] + y
  {
  }

  /** Sequence concatenation is associative. */
  lemma ConcatAssoc<T>(x: seq<T>, y: seq<T>, z: seq<T>)
    ensures x + (y + z) == (x + y) + z
  {
  }

  /** The last piece is empty exactly when `s` is empty or ends with the separator. */
  lemma {:induction false} LastPieceEmpty(s: string, sep: char)
    ensures var ps := SplitAll(s, sep);
      ps[|ps| - 1] == "" <==> |s| == 0 || s[|s| - 1] == sep
    decreases |s|
  {
    if |s| > 0 {
      LastPieceEmpty(s[1..], sep);
    }
  }

  /** The prefix of `ps` left once its trailing empty strings are dropped. */
  function DropTrailingEmpty(ps: seq<string>): (r: seq<string>)
    ensures |r| <= |ps| && r == ps[..|r|]
    ensures forall k :: |r| <= k < |ps| ==> ps[k] == ""
    ensures |r| > 0 ==> r[|r| - 1] != ""
  {
    if |ps| > 0 && ps[|ps| - 1] == "" then DropTrailingEmpty(ps[..|ps| - 1]) else ps
  }

  /** Java's `s.split(sep)` (limit 0): a string without the separator is returned
      whole; otherwise the pieces between separators, without the trailing empty ones. */
  function Split(s: string, sep: char): (r: seq<string>)
    ensures sep !in s ==> r == [s]
    ensures sep in s ==> |r| <= |SplitAll(s, sep)| && r == SplitAll(s, sep)[..|r|]
    ensures sep in s ==> forall k :: |r| <= k < |SplitAll(s, sep)| ==> SplitAll(s, sep)[k] == ""
    ensures sep in s && |r| > 0 ==> r[|r| - 1] != ""
    ensures forall k :: 0 <= k < |r| ==> sep !in r[k]
  {
    if sep !in s then [s] else DropTrailingEmpty(SplitAll(s, sep))
  }

  /** A string that does not end with the separator loses no pieces to `split`. */
  lemma SplitKeepsAll(s: string, sep: char)
    requires |s| > 0 && s[|s| - 1] != sep
    ensures Split(s, sep) == SplitAll(s, sep)
  {
    LastPieceEmpty(s, sep);
    if sep !in s {
      SplitAllNoSeparator(s, sep);
    }
  }

  /** Two strings that end in something other than the separator, joined by one
      separator: `split` keeps the first one's pieces and all of the second's. */
  lemma SplitJoined(a: string, b: string, sep: char)
    requires |a| > 0 && a[|a| - 1] != sep
    requires |b| > 0 && b[|b| - 1] != sep
    ensures Split(a + [sep] + b, sep) == Split(a, sep) + SplitAll(b, sep)
  {
    var s := a + [sep] + b;
    SplitAllAppend(a, b, sep);
    assert s[|s| - 1] == b[|b| - 1];
    SplitKeepsAll(s, sep);
    SplitKeepsAll(a, sep);
  }

  // ---------------------------------------------------------------------------
  // Integer.parseInt and Integer.toString
  // ---------------------------------------------------------------------------

  predicate IsDigit(c: char) {
    '0' <= c <= '9'
  }

  predicate AllDigits(s: string) {
    forall k :: 0 <= k < |s| ==> IsDigit(s[k])
  }

  function DigitValue(c: char): nat
    requires IsDigit(c)
  {
    c as int - '0' as int
  }

  /** The number the decimal digits `s` denote (most significant first). */
  function DigitsValue(s: string): nat
    requires AllDigits(s)
  {
    if |s| == 0 then 0 else DigitsValue(s[..|s| - 1]) * 10 + DigitValue(s[|s| - 1])
  }

  /** `s` without one leading sign character. */
  function Unsigned(s: string): string {
    if |s| > 0 && (s[0] == '-' || s[0] == '+') then s[1..] else s
  }

  /** `Integer.parseInt(s)`: an optional `+` or `-` followed by at least one decimal
      digit, denoting a value within the 32-bit range; anything else is a
      NumberFormatException. */
  function ParseInt(s: string): (r: Result<Int32>)
    ensures r.Fail? ==> r.error == NumberFormat
    ensures r.Ok? ==> |Unsigned(s)| >= 1 && AllDigits(Unsigned(s))
    ensures r.Ok? && s[0] == '-' ==> r.value == -(DigitsValue(Unsigned(s)) as int)
    ensures r.Ok? && s[0] != '-' ==> r.value == DigitsValue(Unsigned(s))
    ensures |Unsigned(s)| >= 1 && AllDigits(Unsigned(s))
            && InRange(if s[0] == '-' then -(DigitsValue(Unsigned(s)) as int) else DigitsValue(Unsigned(s)))
            ==> r.Ok?
  {
    var digits := Unsigned(s);
    if |digits| == 0 || !AllDigits(digits) then Fail(NumberFormat)
    else
      var v := if s[0] == '-' then -(DigitsValue(digits) as int) else DigitsValue(digits);
      if InRange(v) then Ok(v) else Fail(NumberFormat)
  }

  function DigitChar(d: nat): (c: char)
    requires d < 10
    ensures IsDigit(c) && DigitValue(c) == d
  {
    ('0' as int + d) as char
  }

  /** `Integer.toString(n)` for a non-negative `n`: its decimal digits, no leading zero. */
  function NatToString(n: nat): (r: string)
    ensures |r| >= 1 && AllDigits(r)
    ensures DigitsValue(r) == n
    ensures r[0] != '0' || n == 0
  {
    if n < 10 then [DigitChar(n)]
    else
      var r := NatToString(n / 10) + [DigitChar(n % 10)];
      assert r[..|r| - 1] == NatToString(n / 10);
      r
  }

  /** `Integer.toString(n)`: a `-` for negative numbers, then the decimal digits. */
  function IntToString(n: int): (r: string)
    ensures |r| >= 1
    ensures n < 0 <==> r[0] == '-'
  {
    if n < 0 then "-" + NatToString(-n) else NatToString(n)
  }

  /** `Integer.parseInt` reads back what `Integer.toString` writes. */
  lemma ParseIntToString(n: Int32)
    ensures ParseInt(IntToString(n)) == Ok(n)
  {
    if n < 0 {
      assert Unsigned(IntToString(n)) == NatToString(-(n as int));
    }
  }
}

=== FILE: point.dfy ===
/** `Point`: a cartesian point. Java's `double` coordinates are modelled as exact reals. */
module Points {

  datatype Point = Point(x: real, y: real)

  /** `new Point()`. */
  const Origin: Point := Point(0.0, 0.0)

  /** What `equals` may be handed: `null`, a `Point`, or an object of another class. */
  datatype Object = Null | PointObject(point: Point) | OtherObject

  /** `setX`: the point with a new x coordinate. */
  function SetX(p: Point, newX: real): (r: Point)
    ensures r.x == newX && r.y == p.y
  {
    p.(x := newX)
  }

  /** `setY`: the point with a new y coordinate. */
  function SetY(p: Point, newY: real): (r: Point)
    ensures r.y == newY && r.x == p.x
  {
    p.(y := newY)
  }

  /** `setPoint`: both coordinates replaced. */
  function SetPoint(p: Point, newX: real, newY: real): (r: Point)
    ensures r.x == newX && r.y == newY
  {
    Point(newX, newY)
  }

  /** `equals`: true exactly for another point with the same coordinates. */
  function Equals(p: Point, other: Object): (b: bool)
    ensures b <==> other == PointObject(p)
    ensures other == Null ==> !b
  {
    match other
    case Null => false
    case OtherObject => false
    case PointObject(q) => p.x == q.x && p.y == q.y
  }

  /** `equals` is an equivalence on points. */
  lemma EqualsIsEquivalence(p: Point, q: Point, s: Point)
    ensures Equals(p, PointObject(p))
    ensures Equals(p, PointObject(q)) <==> Equals(q, PointObject(p))
    ensures Equals(p, PointObject(q)) && Equals(q, PointObject(s)) ==> Equals(p, PointObject(s))
  {
  }

  /** `midPoint`: the point halfway between `p` and `q`, on both axes. */
  function MidPoint(p: Point, q: Point): (m: Point)
    ensures m.x - p.x == q.x - m.x
    ensures m.y - p.y == q.y - m.y
  {
    Point((p.x + q.x) / 2.0, (p.y + q.y) / 2.0)
  }

  /** The midpoint does not depend on the order of its arguments, and a point is its
      own midpoint. */
  lemma MidPointLaws(p: Point, q: Point)
    ensures MidPoint(p, q) == MidPoint(q, p)
    ensures MidPoint(p, p) == p
  {
  }
}

=== FILE: shape.dfy ===
/** `Shape`: a named polygon, built by appending points one at a time. */
module Shapes {
  import opened Wrappers
  import opened Points

  datatype Shape = Shape(name: string, points: seq<Point>)

  /** `new Shape(name)`: an empty polygon; a null or empty name is an
      IllegalArgumentException. */
  function NewShape(name: Option<string>): (r: Result<Shape>)
    ensures r.Ok? <==> name.Some? && |name.value| > 0
    ensures r.Fail? ==> r.error == IllegalArgument
    ensures r.Ok? ==> r.value.name == name.value && |r.value.points| == 0
  {
    if name.None? || |name.value| == 0 then Fail(IllegalArgument)
    else Ok(Shape(name.value, []))
  }

  /** `addPoint(point)`: the point goes last and nothing else changes; a null point is
      an IllegalArgumentException. */
  function AddPoint(s: Shape, point: Option<Point>): (r: Result<Shape>)
    ensures r.Ok? <==> point.Some?
    ensures r.Fail? ==> r.error == IllegalArgument
    ensures r.Ok? ==> && r.value.name == s.name
                      && |r.value.points| == |s.points| + 1
                      && r.value.points[|s.points|] == point.value
                      && r.value.points[..|s.points|] == s.points
  {
    if point.None? then Fail(IllegalArgument)
    else Ok(s.(points := s.points + [point.value]))
  }

  /** `getPointCount()`. */
  function GetPointCount(s: Shape): nat {
    |s.points|
  }

  /** `getName()`. */
  function GetName(s: Shape): string {
    s.name
  }

  /** `getPoint(idx)`: the point at `idx`; an index outside the list is an
      IndexOutOfBoundsException. */
  function GetPoint(s: Shape, idx: int): (r: Result<Point>)
    ensures r.Ok? <==> 0 <= idx < GetPointCount(s)
    ensures r.Ok? ==> r.value == s.points[idx]
    ensures r.Fail? ==> r.error == IndexOutOfBounds
  {
    if 0 <= idx < |s.points| then Ok(s.points[idx]) else Fail(IndexOutOfBounds)
  }

  /** `addPoint` called for each of `ps` in turn. */
  function AddPoints(s: Shape, ps: seq<Point>): Result<Shape>
    decreases |ps|
  {
    if |ps| == 0 then Ok(s)
    else
      match AddPoint(s, Some(ps[0]))
      case Fail(e) => Fail(e)
      case Ok(s') => AddPoints(s', ps[1..])
  }

  /** Adding points appends them in order and keeps the name. */
  lemma {:induction false} AddPointsAppends(s: Shape, ps: seq<Point>)
    ensures AddPoints(s, ps) == Ok(Shape(s.name, s.points + ps))
    decreases |ps|
  {
    if |ps| > 0 {
      AddPointsAppends(Shape(s.name, s.points + [ps[0]]), ps[1..]);
      assert s.points + [ps[0]] + ps[1..] == s.points + ps;
    } else {
      assert s.points + ps == s.points;
    }
  }

  /** A shape built by `new Shape(name)` and one `addPoint` per point answers
      `getName` with that name, `getPointCount` with the number of points and
      `getPoint(i)` with the i-th point added. */
  lemma BuiltShapeAnswers(name: string, ps: seq<Point>)
    requires |name| > 0
    ensures var built := AddPoints(NewShape(Some(name)).value, ps);
      && built.Ok?
      && GetName(built.value) == name
      && GetPointCount(built.value) == |ps|
      && forall i :: 0 <= i < |ps| ==> GetPoint(built.value, i) == Ok(ps[i])
  {
    AddPointsAppends(Shape(name, []), ps);
  }
}

=== FILE: shape_library.dfy ===
/** `ShapeLibrary`: a list of shapes served by position or by name. */
module ShapeLibrary {
  import opened Wrappers
  import opened Shapes

  datatype Library = Library(shapes: seq<Shape>)

  /** `getShapeCount()`. */
  function GetShapeCount(lib: Library): (n: nat)
    ensures n == |lib.shapes|
  {
    |lib.shapes|
  }

  /** `getShape(index)`: an index outside the list is an IndexOutOfBoundsException. */
  function GetShape(lib: Library, index: int): (r: Result<Shape>)
    ensures r.Ok? <==> 0 <= index < GetShapeCount(lib)
    ensures r.Ok? ==> r.value == lib.shapes[index]
    ensures r.Fail? ==> r.error == IndexOutOfBounds
  {
    if 0 <= index < |lib.shapes| then Ok(lib.shapes[index]) else Fail(IndexOutOfBounds)
  }

  /** The position of the first shape called `name`, if any. Names compare exactly
      (`String.equals`: case matters). */
  function IndexOfName(shapes: seq<Shape>, name: string): (r: Option<nat>)
    ensures r.Some? ==> r.value < |shapes| && shapes[r.value].name == name
    ensures r.Some? ==> forall j :: 0 <= j < r.value ==> shapes[j].name != name
    ensures r.None? ==> forall j :: 0 <= j < |shapes| ==> shapes[j].name != name
  {
    if |shapes| == 0 then None
    else if shapes[0].name == name then Some(0)
    else
      match IndexOfName(shapes[1..], name)
      case None => None
      case Some(i) => Some(i + 1)
  }

  /** `getShapeByName(shapeName)`: the first shape with that name in list order; when
      no shape has the name, the shape at index 0 (not `null`); an empty library is
      an IndexOutOfBoundsException either way. */
  function GetShapeByName(lib: Library, shapeName: string): (r: Result<Shape>)
    ensures |lib.shapes| == 0 <==> r.Fail?
    ensures r.Fail? ==> r.error == IndexOutOfBounds
    ensures r.Ok? ==> r.value in lib.shapes
    ensures forall i :: (0 <= i < |lib.shapes| && lib.shapes[i].name == shapeName
                         && (forall j :: 0 <= j < i ==> lib.shapes[j].name != shapeName))
                        ==> r == Ok(lib.shapes[i])
    ensures ((forall i :: 0 <= i < |lib.shapes| ==> lib.shapes[i].name != shapeName)
             && |lib.shapes| > 0)
            ==> r == Ok(lib.shapes[0])
  {
    var idx := match IndexOfName(lib.shapes, shapeName) case Some(i) => i case None => 0;
    if idx < |lib.shapes| then Ok(lib.shapes[idx]) else Fail(IndexOutOfBounds)
  }

  /** The search loop of `getShapeByName` as written, with its `flag` and `idx`:
      it computes the same answer as the specification above. */
  method FindShapeByName(lib: Library, shapeName: string) returns (r: Result<Shape>)
    ensures r == GetShapeByName(lib, shapeName)
  {
    var flag := true;
    var idx := 0;
    var i := 0;
    while i < |lib.shapes| && flag
      invariant 0 <= i <= |lib.shapes|
      invariant flag ==> idx == 0 && forall j :: 0 <= j < i ==> lib.shapes[j].name != shapeName
      invariant !flag ==> (idx < i && lib.shapes[idx].name == shapeName
                           && forall j :: 0 <= j < idx ==> lib.shapes[j].name != shapeName)
    {
      if lib.shapes[i].name == shapeName {
        idx := i;
        flag := false;
      }
      i := i + 1;
    }
    if idx < |lib.shapes| {
      r := Ok(lib.shapes[idx]);
    } else {
      r := Fail(IndexOutOfBounds);
    }
  }

  /** `addShape(shape)`: appended last, earlier entries unchanged; a null shape is an
      IllegalArgumentException. */
  function AddShape(lib: Library, shape: Option<Shape>): (r: Result<Library>)
    ensures r.Ok? <==> shape.Some?
    ensures r.Fail? ==> r.error == IllegalArgument
    ensures r.Ok? ==> && GetShapeCount(r.value) == GetShapeCount(lib) + 1
                      && r.value.shapes[..|lib.shapes|] == lib.shapes
                      && r.value.shapes[|lib.shapes|] == shape.value
  {
    if shape.None? then Fail(IllegalArgument) else Ok(Library(lib.shapes + [shape.value]))
  }
}

=== FILE: utility.dfy ===
/** `Utility`: the RGB channel clamp and the six built-in shape templates. */
module Utility {
  import opened Points
  import opened Shapes
  import opened Colors
  import opened Wrappers

  /** `rgbRangeLimit`: the channel value nearest to `rgbValue` within [0, 255]. */
  function RgbRangeLimit(rgbValue: int): (r: int)
    ensures 0 <= r <= 255
    ensures 0 <= rgbValue <= 255 ==> r == rgbValue
    ensures rgbValue < 0 ==> r == 0
    ensures rgbValue > 255 ==> r == 255
  {
    var atLeastZero := if rgbValue > 0 then rgbValue else 0;
    if atLeastZero < 255 then atLeastZero else 255
  }

  /** Clamping is idempotent and monotone. */
  lemma RgbRangeLimitLaws(a: int, b: int)
    ensures RgbRangeLimit(RgbRangeLimit(a)) == RgbRangeLimit(a)
    ensures a <= b ==> RgbRangeLimit(a) <= RgbRangeLimit(b)
  {
  }

  /** `new Color(rgbRangeLimit(red), rgbRangeLimit(green), rgbRangeLimit(blue))`,
      the colour both instruction readers build from parsed channels. */
  function LimitedColor(red: int, green: int, blue: int): (c: Color)
    ensures Valid(c)
    ensures 0 <= red <= 255 && 0 <= green <= 255 && 0 <= blue <= 255 ==> c == Color(red, green, blue)
  {
    Color(RgbRangeLimit(red), RgbRangeLimit(green), RgbRangeLimit(blue))
  }

  /** A template point; the templates use whole coordinates only. */
  function P(x: int, y: int): Point {
    Point(x as real, y as real)
  }

  /** `addShapeSquare`. */
  function Square(): (s: Shape)
    ensures |s.points| == 4 && InFrame(s)
  {
    Shape("square", [P(0, 0), P(100, 0), P(100, 100), P(0, 100)])
  }

  /** `addShapeStar`: a four-pointed star, inner points 10 off the centre. */
  function Star(): (s: Shape)
    ensures |s.points| == 8 && InFrame(s)
  {
    Shape("star", [P(50, 0), P(50 + 10, 50 - 10), P(100, 50), P(50 + 10, 50 + 10),
                   P(50, 100), P(50 - 10, 50 + 10), P(0, 50), P(50 - 10, 50 - 10)])
  }

  /** `addShapeCircle`: 24 segments, the last point repeating the first. */
  function Circle(): (s: Shape)
    ensures |s.points| == 25 && InFrame(s)
  {
    Shape("circle", [P(100, 50), P(98, 37), P(93, 25), P(85, 15), P(75, 7), P(63, 2),
                     P(50, 0), P(37, 2), P(25, 7), P(15, 15), P(7, 25), P(2, 37),
                     P(0, 50), P(2, 63), P(7, 75), P(15, 85), P(25, 93), P(37, 98),
                     P(50, 100), P(63, 98), P(75, 93), P(85, 85), P(93, 75), P(98, 63),
                     P(100, 50)])
  }

  /** `addShapeHeart`: two lobes over the apex (50, 100), the last point repeating the first. */
  function Heart(): (s: Shape)
    ensures |s.points| == 27 && InFrame(s)
  {
    Shape("heart", [P(100, 25), P(99, 19), P(97, 13), P(93, 7), P(88, 3), P(81, 1),
                    P(75, 0), P(69, 1), P(63, 3), P(57, 7), P(53, 13), P(51, 19),
                    P(50, 25), P(49, 19), P(47, 13), P(43, 7), P(38, 3), P(31, 1),
                    P(25, 0), P(19, 1), P(13, 3), P(7, 7), P(3, 13), P(1, 19),
                    P(0, 25), P(50, 100), P(100, 25)])
  }

  /** `addShapeRhombus`. */
  function Rhombus(): (s: Shape)
    ensures |s.points| == 4 && InFrame(s)
  {
    Shape("rhombus", [P(50, 0), P(100, 50), P(50, 100), P(0, 50)])
  }

  /** `addShapeTriangle`. */
  function Triangle(): (s: Shape)
    ensures |s.points| == 3 && InFrame(s)
  {
    Shape("triangle", [P(0, 100), P(50, 0), P(100, 100)])
  }

  /** Every point of `s` lies in the 100 by 100 reference frame. */
  predicate InFrame(s: Shape) {
    forall k :: 0 <= k < |s.points| ==>
      0.0 <= s.points[k].x <= 100.0 && 0.0 <= s.points[k].y <= 100.0
  }

  /** A polygon whose last point repeats its first. */
  predicate ExplicitlyClosed(s: Shape) {
    |s.points| > 0 && s.points[|s.points| - 1] == s.points[0]
  }

  /** The shapes `createShapeFiles` builds, in the order it builds them: square, star,
      circle, heart, rhombus, triangle, with 4, 8, 25, 27, 4 and 3 points; circle
      and heart repeat their first point at the end; every point lies in the frame. */
  function CreateShapeList(): (r: seq<Shape>)
    ensures |r| == 6
    ensures r[0].name == "square" && r[1].name == "star" && r[2].name == "circle"
    ensures r[3].name == "heart" && r[4].name == "rhombus" && r[5].name == "triangle"
    ensures |r[0].points| == 4 && |r[1].points| == 8 && |r[2].points| == 25
    ensures |r[3].points| == 27 && |r[4].points| == 4 && |r[5].points| == 3
    ensures ExplicitlyClosed(r[2]) && ExplicitlyClosed(r[3])
    ensures forall i :: 0 <= i < |r| ==> InFrame(r[i]) && |r[i].name| > 0
  {
    [Square(), Star(), Circle(), Heart(), Rhombus(), Triangle()]
  }

  /** Each template is what `new Shape(name)` followed by one `addPoint` per point,
      in order, builds. */
  lemma TemplatesBuilt()
    ensures forall i :: 0 <= i < |CreateShapeList()| ==>
      AddPoints(NewShape(Some(CreateShapeList()[i].name)).value, CreateShapeList()[i].points) == Ok(CreateShapeList()[i])
  {
    var shapes := CreateShapeList();
    forall i | 0 <= i < |shapes|
      ensures AddPoints(NewShape(Some(shapes[i].name)).value, shapes[i].points) == Ok(shapes[i])
    {
      AddPointsAppends(Shape(shapes[i].name, []), shapes[i].points);
      assert [] + shapes[i].points == shapes[i].points;
    }
  }

  /** The template names are pairwise distinct. */
  lemma TemplateNamesDistinct()
    ensures forall i, j :: 0 <= i < j < |CreateShapeList()| ==>
      CreateShapeList()[i].name != CreateShapeList()[j].name
  {
  }
}

=== FILE: wrappers.dfy ===
/** Failure-compatible wrappers and the Java exceptions that the modelled code raises.

    A Java reference that may be `null` is an `Option`; an operation that may throw
    returns a `Result`, whose failure names the kind of exception. */
module Wrappers {

  /** A possibly-null Java reference. */
  datatype Option<+T> = None | Some(value: T)

  /** The exceptions raised by the modelled code, by kind. */
  datatype Exception =
    | IllegalArgument   // IllegalArgumentException from a constructor or an adder
    | IndexOutOfBounds  // ArrayIndexOutOfBoundsException or IndexOutOfBoundsException
    | NumberFormat      // NumberFormatException from Integer.parseInt
    | NoSuchElement     // NoSuchElementException from Scanner.nextLine

  /** Either a value or the exception that was thrown instead. */
  datatype Result<+T> = Ok(value: T) | Fail(error: Exception) {

    predicate IsFailure() {
      Fail?
    }

    function PropagateFailure<U>(): Result<U>
      requires Fail?
    {
      Fail(error)
    }

    function Extract(): T
      requires Ok?
    {
      value
    }
  }
}
